=== FILE: README.md ===
# A Dafny model of the huage notes backend

This project models the rules of a Go notes backend and proves properties about them.
Its centre is the attachment lifecycle and the per-user storage ledger of
`internal/services/file_service.go`:

- an upload is charged to the uploader's ledger row;
- a soft delete releases the charge, and a restore charges it again;
- a permanent delete removes a soft-deleted row;
- a recalculation rewrites the ledger from the live attachments.

Around that centre the model covers:

- the upload endpoint of `internal/handlers/file.go`: its validation against the configured
  type lists and size limits, its quota check, and the order of these checks;
- the configuration defaults, the connection string and the database modes of
  `internal/config/config.go`;
- the note deletion cascade, view de-duplication, paging and statistics of
  `internal/services/note_service.go`, and the list-query defaults of `internal/handlers/note.go`;
- the share links of `internal/handlers/share.go`;
- the token buckets of `internal/middleware/rate_limit.go` and the request guards of
  `internal/middleware/auth.go`;
- the `hexcolor` rule and the field naming of `pkg/validator/validator.go` (no handler uses
  that package's validator instance: the tag handler builds its own, which applies the
  library's built-in `hexcolor` rule, and the model covers both rules);
- the tag, category and account rules of `internal/services/tag_service.go`,
  `internal/services/category_service.go` and `internal/services/auth_service.go`.

## Modelling approach

Every operation is a pure function from the tables it reads to the tables it writes and
an outcome. Database tables are maps keyed by id, or sequences when the source takes "the
first matching row". A soft-deleted row carries `deleted == true`, and each query keeps or
drops such rows exactly as the GORM scope or the raw SQL of the source does.

The outcome of every step the model cannot compute is a parameter:

- directory, file and copy results;
- whether an insert or a ledger transaction commits;
- random bytes, the UUID and the stored path;
- the password hash, and whether a password matches a hash;
- token verification;
- the current time.

Times are integers: nanoseconds in the rate limiter, seconds elsewhere. Integers are
unbounded, and Go's truncating division is written out (`Text.GoDiv`).

The ledger invariant is stated as `Consistency.ConsistentFor`: a user's ledger row equals
the totals over that user's live attachments. Three lemmas prove it is kept:

- `Consistency.RunKeepsConsistency` proves it is kept by any sequence of uploads, deletes,
  restores and permanent deletes, provided every upload has a positive size and its ledger
  step commits;
- `Consistency.ZeroByteUploadBreaksConsistency` shows what happens when an upload has size 0;
- `Consistency.LedgerFailureBreaksConsistency` shows what happens when the ledger step fails.

### Facts about the code the model follows

- A soft delete releases the attachment's bytes from the ledger at once
  (`internal/services/file_service.go:75-79`), so the ledger counts live rows only.
- An upload inserts the attachment row first and updates the ledger afterwards, in a
  transaction of its own whose failure is only logged (`internal/services/file_service.go:320-330`
  and `:379`).
- A failed copy returns an error and leaves the created file in place
  (`internal/services/file_service.go:354-356`); only a failed insert removes it (`:374-377`).
- The configured type lists are applied by the handler (`internal/handlers/file.go:127-146`);
  the service's image flag comes from its own fixed list of five extensions
  (`internal/services/file_service.go:388-396`).
- The quota check in the handler (`internal/handlers/file.go:53-68`) holds no lock.
- `RecalculateUserStorage` writes the totals with a struct `Updates`
  (`internal/services/file_service.go:234-242`), which skips zero-valued columns and
  creates no missing row; see Findings.
- The schema migration gives `categories.parent_id` a foreign key through the `Parent`
  association (`internal/models/category.go:22`), so the database refuses an update whose
  parent names no category.

## Model

| member | source | states |
|---|---|---|
| Ledger.UpdateUserStorage | internal/services/file_service.go:247-317 | a missing row is created zeroed; used bytes become `max(used + delta, 0)`; the file counter and the image or document counter move by one, up only for a positive delta and down (floored at 0) for zero or negative; no other user's row changes |
| Ledger.StepKeepsNonNegative | internal/services/file_service.go:247-317 | every ledger step keeps a non-negative row non-negative |
| Ledger.ReleaseThenCharge | internal/services/file_service.go:247-317 | releasing and re-charging the same size restores the row if and only if the row held at least that many bytes, at least one file and at least one file of the kind |
| Ledger.CheckUserStorage | internal/services/file_service.go:185-193 | an error exactly when the user has no row; otherwise admits exactly when `used + size <= max` |
| Files.IsImageType | internal/services/file_service.go:388-396 | true exactly for the five hard-coded lower-case image extensions; a match has no upper-case letter and 3 or 4 characters |
| UploadHandler.ServiceImageFlagMatchesDefaults | internal/services/file_service.go:358-359 | with the default image list, the service's fixed flag on the lower-cased extension agrees with the handler's configured image check |
| Files.NewAttachment | internal/services/file_service.go:339-372 | the stored name is the UUID plus the original extension; the type is the lower-cased extension without its dot; the image flag follows the fixed list |
| Files.UploadFile | internal/services/file_service.go:333-386 | no change unless the caller owns the live note; failed directory or file creation writes nothing; a failed copy leaves the file; a failed insert removes it; on success the row is appended and the ledger is charged only if its transaction commits, and the upload succeeds either way |
| Files.DeleteAttachment | internal/services/file_service.go:33-89 | only the caller's first live row with the id qualifies; it is soft-deleted and its size released from the caller's row; the blob stays |
| Files.RestoreAttachment | internal/services/file_service.go:113-137 | only the caller's soft-deleted row qualifies; the mark is cleared and the size charged back |
| Files.PermanentlyDeleteAttachment | internal/services/file_service.go:92-110 | only a soft-deleted row, of any owner, qualifies; the row goes whether or not the blob removal works; the ledger is untouched |
| Files.GetAttachments | internal/services/file_service.go:140-159 | exactly the live rows of a note the caller owns |
| Files.RecalculateUserStorage | internal/services/file_service.go:206-244 | the computed totals are written column by column, except that a zero total keeps the old value and a missing row stays missing |
| Files.Reconcile | internal/services/file_service.go:206-244 | the intended upsert: the user's row becomes the computed totals, so it is consistent with the attachments afterwards; no other row changes |
| Accounting.Totals | internal/services/file_service.go:213-231 | the used bytes, files, images and documents summed over the user's live attachments, all non-negative |
| Accounting.TotalsConcat | internal/services/file_service.go:213-231 | the totals of two row lists joined are the sums of their totals |
| LedgerSteps.UploadStep | internal/services/file_service.go:379 | charging a new live attachment moves each user's ledger row exactly as the totals move |
| LedgerSteps.DeleteStep | internal/services/file_service.go:40-86 | releasing a live attachment moves each user's ledger row exactly as the totals move when the row is soft-deleted |
| LedgerSteps.RestoreStep | internal/services/file_service.go:113-137 | charging a restored attachment moves each user's ledger row exactly as the totals move |
| LedgerSteps.PurgeStep | internal/services/file_service.go:92-110 | removing a soft-deleted row leaves every user's totals unchanged |
| Text.Ext | internal/services/file_service.go:339 | the final dot-suffix of the last path element, or empty when that element has no dot |
| Text.ExtOfSuffix | internal/services/file_service.go:339 | a name ending in a dot and a dot-free, slash-free suffix has exactly that suffix as extension |
| Text.ToLowerIdempotent | internal/config/config.go:288 | lower-casing leaves no upper-case letter, so doing it twice equals doing it once |
| Text.SplitFirstJoin | internal/middleware/auth.go:73 | splitting at the first separator gives back the part before it and the rest |
| Text.GoDiv | internal/handlers/file.go:133-139 | division truncating toward zero, as Go's integer division |
| Text.ParseUint32RoundTrip | internal/handlers/file.go:34 | every 32-bit unsigned value written in decimal parses back to itself |
| Text.AtoiItoa | internal/config/config.go:120 | every 64-bit value written in decimal parses back to itself |
| Text.HexRoundTrip | internal/handlers/share.go:256 | hex encoding is undone by decoding |
| Consistency.UploadKeepsConsistency | internal/services/file_service.go:333-386 | a positive-size upload whose ledger step commits keeps every user's ledger equal to the totals |
| Consistency.DeleteKeepsConsistency | internal/services/file_service.go:33-89 | a soft delete keeps every user's ledger equal to the totals |
| Consistency.RestoreKeepsConsistency | internal/services/file_service.go:113-137 | a restore keeps every user's ledger equal to the totals when sizes are positive |
| Consistency.PurgeKeepsConsistency | internal/services/file_service.go:92-110 | a permanent delete keeps every user's ledger equal to the totals |
| Consistency.RunKeepsConsistency | internal/services/file_service.go:33-137 | any sequence of the four lifecycle operations keeps the ledger consistent, under the two conditions above |
| Consistency.ZeroByteUploadBreaksConsistency | internal/services/file_service.go:269-299 | a zero-byte upload is counted as a removal, so the ledger's file count falls behind |
| Consistency.LedgerFailureBreaksConsistency | internal/services/file_service.go:320-330 | an upload whose ledger transaction fails still succeeds, and the ledger misses the file |
| Consistency.DeleteNoteBreaksConsistency | internal/services/note_service.go:165-222 | deleting a note holding a live attachment of positive size leaves the owner's ledger above the totals |
| Consistency.ReconcileRepairs | internal/services/file_service.go:206-244 | the intended recalculation makes the user consistent, keeps others consistent, and is idempotent |
| Consistency.ReconcileRepairsDeleteNote | internal/services/note_service.go:165-222 | after a note deletion, recalculating the owner restores consistency for every user |
| Consistency.RecalculateKeepsStaleBytes | internal/services/file_service.go:230-243 | the recalculation as written leaves a stale positive byte count when the true total is zero |
| Consistency.RecalculateRepairsNonZeroTotals | internal/services/file_service.go:206-244 | the recalculation as written does repair a row whose computed totals are all non-zero |
| Consistency.RecalculateIdempotent | internal/services/file_service.go:206-244 | running the recalculation twice equals running it once |
| Consistency.DeleteThenRestore | internal/services/file_service.go:33-137 | a soft delete followed by a restore returns every table to where it was, when the release was not clamped |
| Notes.DeleteNote | internal/services/note_service.go:165-222 | only the owner's live note qualifies; tag links cleared, attachments soft-deleted, share links and visits removed, note soft-deleted; ledger and blobs untouched |
| Notes.RecordView | internal/services/note_service.go:256-292 | a missing note is an error; the owner's view and a repeat within the hour change nothing; any other view appends one visit and adds one to the counter |
| Notes.ViewCountedOncePerHour | internal/services/note_service.go:256-292 | after a counted view, the same viewer, IP and hash change nothing for the rest of the hour |
| Notes.Offset | internal/services/note_service.go:53 | the skipped rows are non-negative and end where the page begins |
| Notes.PageCount | internal/services/note_service.go:54 | the smallest page count covering all rows; zero exactly for zero rows |
| Notes.OrderClause | internal/services/note_service.go:56-63 | "created_at DESC" without a sort; otherwise the sort text verbatim, then ASC exactly when the order is "asc" |
| Notes.NoteCounts | internal/services/note_service.go:224-254 | counts the user's live notes; the public count is the live notes with `is_public` set and the private count those without, so the two add up to the total |
| Notes.DeleteNoteLowersCounts | internal/services/note_service.go:165-254 | deleting a note lowers its owner's total and the count of its kind by one and leaves the other count |
| Notes.SoftDeleteLeavesCounts | internal/services/note_service.go:224-254 | soft-deleting an owned live note removes it from the live set and from the flag set it was in |
| NoteQuery.Normalize | internal/handlers/note.go:39-54 | page at least 1; limit defaults to 20 and is capped at 100; empty sort and order become "created_at" and "desc"; set values are kept |
| NoteQuery.NormalizeIdempotent | internal/handlers/note.go:39-54 | normalising twice equals normalising once |
| NoteQuery.NormalizedPaging | internal/handlers/note.go:39-54 | after normalising, the offset and page-count arithmetic of the service is always defined |
| NoteQuery.EmptyQueryIsNewestFirst | internal/handlers/note.go:39-54 | an empty query is ordered "created_at DESC", 20 to a page |
| NoteQuery.AnySortReachesOrderClause | internal/services/note_service.go:56-63 | any non-empty sort text becomes the head of the order clause |
| NoteQuery.InjectedSortIsAccepted | internal/models/note.go:54 | a sort value outside the declared columns reaches the order clause unchanged |
| NoteQuery.NormalizeChecked | internal/models/note.go:54-55 | the normalisation plus the declared `oneof` rules: passes exactly for a listed column and direction |
| NoteQuery.CheckedOrderClauseIsListed | internal/models/note.go:54-55 | a checked query yields one of the eight listed order clauses |
| NoteQuery.CheckedAgreesOnListedColumns | internal/handlers/note.go:39-54 | on listed values, the checked normalisation equals the plain one |
| UploadHandler.Status | internal/handlers/file.go:30-75 | 200 only for a stored upload, 413 only for exhausted quota, 400 exactly for the request errors |
| UploadHandler.ValidateFile | internal/handlers/file.go:127-146 | passes exactly for an extension in a configured list within the limit of each list it is in; the image limit is checked before the document limit; the limits are reported in whole MiB |
| UploadHandler.ValidatedExtensionIsRecorded | internal/handlers/file.go:127-129 | the validated extension is the type the service records |
| UploadHandler.DefaultLimitMessages | internal/handlers/file.go:132-139 | with the default limits the messages name 10 MB and 50 MB |
| UploadHandler.HandleUpload | internal/handlers/file.go:30-75 | the note id, the form, the validation and the quota are checked in that order; each failure has its own response (bad id, bad form, no file, invalid file, quota lookup error, insufficient storage); nothing changes unless all pass; then the service's transition is taken and its error or attachment is returned |
| UploadHandler.AdmittedUploadWithinQuota | internal/handlers/file.go:53-68 | a stored upload passed validation and leaves the uploader within the quota when the ledger step commits |
| UploadHandler.ConfiguredImageCountedAsDocument | internal/services/file_service.go:358-359 | an extension configured as an image type outside the fixed list is admitted under the image limit but counted as a document |
| Config.SetDefaults | internal/config/config.go:235-275 | every zero or empty field receives its default, set fields are kept, and the result is fully filled |
| Config.SetDefaultsFixedPoint | internal/config/config.go:235-275 | the defaults leave a configuration unchanged exactly when it is already filled |
| Config.SetDefaultsIdempotent | internal/config/config.go:235-275 | applying the defaults twice equals applying them once |
| Config.Allowed | internal/config/config.go:287-305 | true exactly when some listed entry without upper-case letters equals the input up to letter case |
| Config.UpperCaseEntriesNeverMatch | internal/config/config.go:287-305 | an entry with an upper-case letter never matches, and the answer ignores the input's case |
| Config.DefaultListsDisjoint | internal/config/config.go:254-269 | with the default lists no extension is both an image and a document type |
| Config.GetDsn | internal/config/config.go:277-285 | the URL verbatim when set; otherwise the six key=value pairs in order |
| Config.DsnRoundTrip | internal/config/config.go:277-285 | the key=value string reads back to the configured fields when no field but the last holds a space |
| Config.PairsRoundTrip | internal/config/config.go:277-285 | joined key=value pairs read back to their values |
| Config.GetEnvOrDefault | internal/config/config.go:307-312 | the variable's value, or the default when it is unset or empty |
| Config.PortFromEnv | internal/config/config.go:119-125 | 5432 when unset, the parsed value when it parses, otherwise the current port |
| Config.ConfigureLocal | internal/config/config.go:110-133 | host, user, password and database name are the `LOCAL_DB_*` variables or the defaults "postgres", "notes_user", "notes_password_2024", "notes_db"; the port follows the local port rule; SSL disabled, no URL; nothing else changes |
| Config.ConfigureVercel | internal/config/config.go:135-161 | a URL wins with SSL required; otherwise host, user, password and database name are read from their `VERCEL_POSTGRES_*` variables, the port is 5432, and host and user must be set |
| Config.ConfigureCustom | internal/config/config.go:163-196 | like the Vercel mode with the `CUSTOM_DB_*` variables, but the SSL mode comes from the environment and the port follows the local port rule; a URL replaces only the URL and SSL mode and leaves every other field as it was |
| Config.VercelConnectionString | internal/config/config.go:135-161 | the Vercel mode's connection string is the URL when one is set; otherwise it reads back to the Vercel host, port 5432, user, password, database and required SSL when those hold no space |
| Config.CustomConnectionString | internal/config/config.go:163-196 | the custom mode's connection string is the URL when one is set; otherwise it reads back to the custom host, port, user, password, database name and SSL mode when those hold no space |
| Config.ConfigureDatabaseByMode | internal/config/config.go:90-108 | dispatches on the mode; an unknown mode is an error |
| Config.MissingModeIsLocal | internal/config/config.go:91-100 | an unset or empty mode selects the local mode, which never fails |
| Config.LocalPortRoundTrip | internal/config/config.go:119-122 | a port written in decimal into the variable is the port configured |
| Shares.GenerateRandomString | internal/handlers/share.go:251-257 | an even-length lower-case hex code from which the random bytes read back |
| Shares.CreateShareLink | internal/handlers/share.go:35-116 | only the caller's public note; an active link is updated with the non-null fields and keeps its code; otherwise a new active link is inserted whose code is the generated random string, which no link already holds; a failed random read or a taken code is an internal error |
| Shares.CreateKeepsInvariant | internal/handlers/share.go:62-106 | at most one active link per note, and unique codes, are kept |
| Shares.CreateLeavesOneActiveLink | internal/handlers/share.go:62-115 | after success the note has exactly one active link, carrying the reported code |
| Shares.DeleteShareLink | internal/handlers/share.go:162-196 | succeeds exactly for the caller's note with an active link; every active link of the note is then deactivated; not-found exactly when none was active; nothing else changes |
| Shares.DeleteKeepsInvariant | internal/handlers/share.go:162-196 | deactivation keeps both invariants |
| Shares.GetShareInfo | internal/handlers/share.go:119-159 | a bad id and a foreign note give their own errors; succeeds exactly when the caller's note has an active link, and reports the stored code, password and expiry of its first active link |
| Shares.PublicAccess | internal/handlers/share.go:199-248 | an active link, then not expired, then the password if one is stored, then a live public note, in that order; access is granted exactly when all four hold |
| Shares.DeletedLinkDeniesAccess | internal/handlers/share.go:162-248 | after the owner deletes the link, no code of that note opens it |
| Shares.NewOpenLinkGrantsAccess | internal/handlers/share.go:87-248 | a new link without password or expiry opens the public note for anyone at any time |
| Shares.UpdateResponseMisreportsPassword | internal/handlers/share.go:66-81 | re-sharing with an empty body reports no password while the stored password still locks visitors out |
| Shares.CreateShareLinkReported | internal/handlers/share.go:35-116 | the same transition, with the response read from the stored link |
| Shares.ReportedResponseMatchesShareInfo | internal/handlers/share.go:119-159 | the corrected response always equals what the info endpoint reports next |
| RateLimit.WholeMinutes | internal/middleware/rate_limit.go:79-80 | elapsed time truncated to whole minutes toward zero |
| RateLimit.Refill | internal/middleware/rate_limit.go:78-88 | a positive addition sets the tokens to `min(capacity, tokens + whole minutes * rate)` and resets the refill time; otherwise the bucket is unchanged |
| RateLimit.BucketAllow | internal/middleware/rate_limit.go:74-96 | on a valid bucket, grants exactly when it holds a token or a whole minute has passed with a positive rate and capacity; a grant spends one refilled token; the bucket stays valid |
| RateLimit.BucketAllowKeepsValid | internal/middleware/rate_limit.go:74-96 | tokens stay between zero and the capacity |
| RateLimit.RefillDiscardsFraction | internal/middleware/rate_limit.go:82-88 | the fractional minute is lost when a refill resets the clock |
| RateLimit.BurstIsBoundedByTokens | internal/middleware/rate_limit.go:74-96 | within a minute of the last refill, a series of calls is granted exactly `min(calls, tokens)` times |
| RateLimit.Allow | internal/middleware/rate_limit.go:52-72 | a first request is decided by a new full bucket sized by the current limit; a known visitor is decided by its own bucket; last-seen becomes now; other visitors untouched |
| RateLimit.AllowKeepsValid | internal/middleware/rate_limit.go:52-96 | with a non-negative limit every bucket stays valid |
| RateLimit.Sweep | internal/middleware/rate_limit.go:98-110 | keeps exactly the visitors seen within the last ten minutes, unchanged |
| RateLimit.SweptVisitorStartsOver | internal/middleware/rate_limit.go:52-110 | a swept address starts over with a full bucket |
| AuthMiddleware.ExtractToken | internal/middleware/auth.go:69-86 | the rest of a "Bearer" header, else the query token |
| AuthMiddleware.BearerHeaderWins | internal/middleware/auth.go:69-86 | a bearer header yields exactly its token |
| AuthMiddleware.OtherSchemeFallsBackToQuery | internal/middleware/auth.go:69-86 | any other scheme word, "bearer" included, falls back to the query |
| AuthMiddleware.Authenticate | internal/middleware/auth.go:14-47 | a missing token, a failed verification, and a missing or inactive user are rejected in that order, each with its own error |
| AuthMiddleware.AdminCheck | internal/middleware/auth.go:49-67 | admits exactly a logged-in user whose role is "admin" |
| AuthMiddleware.AdminRoutesNeedActiveAdmin | internal/middleware/auth.go:14-67 | behind both guards a request passes exactly when its token verifies to an active user whose role is "admin" |
| Validation.HexColorAccepts | pkg/validator/validator.go:31-45 | accepted exactly when '#' is followed by six hex digits of either case |
| Validation.LowerHexColorAccepted | pkg/validator/validator.go:31-45 | any three bytes in lower-case hex after '#' are accepted |
| Validation.BuiltinHexColorAccepts | internal/handlers/tag.go:22 | the library rule the tag handler applies accepts exactly '#' and 3, 4, 6 or 8 hex digits |
| Validation.CustomRuleIsStricter | pkg/validator/validator.go:31-45 | the custom rule accepts exactly the built-in rule's seven-character colours; "#fff" passes only the built-in rule |
| Validation.JsonFieldName | pkg/validator/validator.go:17-23 | the JSON tag up to its first comma; "-" gives no name |
| Validation.JsonFieldNameIgnoresOptions | pkg/validator/validator.go:17-23 | options after the comma never change the name |
| Tags.CreateTag | internal/services/tag_service.go:53-76 | refused exactly when a live tag of the user has the name; otherwise a live tag of the caller under the next id |
| Tags.UpdateTag | internal/services/tag_service.go:78-111 | succeeds exactly for the caller's live tag; only name and colour change |
| Tags.DeleteTag | internal/services/tag_service.go:113-121 | succeeds exactly for the caller's live tag, which is soft-deleted; nothing else changes |
| Tags.CreateKeepsUniqueNames | internal/services/tag_service.go:53-76 | creation keeps each user's live tag names unique |
| Tags.DeleteKeepsUniqueNames | internal/services/tag_service.go:113-121 | deletion keeps each user's live tag names unique |
| Tags.DeletedNameIsReusable | internal/services/tag_service.go:53-121 | after deletion the same name can be created again |
| Tags.DeletedTagIsGone | internal/services/tag_service.go:78-121 | a deleted tag can be neither updated nor deleted again |
| Tags.UpdateCanDuplicateName | internal/services/tag_service.go:78-91 | renaming to another live tag's name succeeds and breaks uniqueness |
| Tags.UpdateTagChecked | internal/services/tag_service.go:55-60 | the update with creation's name check: refused exactly when another live tag of the user has the name; otherwise it is the plain update and succeeds |
| Tags.CheckedUpdateKeepsUniqueNames | internal/services/tag_service.go:55-60 | the checked update keeps live names unique |
| Tags.ValidatedWritesFitColumns | internal/models/tag.go:12-13 | a validated write keeps names within 50 and colours within 7 characters exactly when the colour is not the 9-character 8-digit form |
| Tags.EightDigitColourTooLong | internal/models/tag.go:13 | an 8-digit colour passes the tag validation and is longer than the column |
| Categories.CreateCategory | internal/services/category_service.go:67-119 | a named parent must be the caller's; the name must be free among the caller's siblings, root included; creation succeeds exactly when both hold; the new category has sort order 0 |
| Categories.UpdateCategory | internal/services/category_service.go:121-153 | a missing or foreign category is not found; a category cannot be its own parent; a parent that is no category is refused by the foreign key; otherwise name, parent and description are overwritten; owner and sort order kept |
| Categories.UpdateKeepsParentsExist | internal/models/category.go:22 | thanks to the foreign key, an update keeps every named parent present |
| Categories.DeleteCategory | internal/services/category_service.go:155-192 | refused while any category names it as parent or any note is filed under it, before ownership is checked; then only the caller's category is removed |
| Categories.CreateKeepsWellFormed | internal/services/category_service.go:67-119 | creation keeps parents present and same-owner, sibling names unique, and the forest acyclic |
| Categories.DeleteKeepsWellFormed | internal/services/category_service.go:155-192 | deletion keeps the forest well formed and every note's category present |
| Categories.Relink | internal/services/category_service.go:133-144 | re-linking a category under a parent whose ancestors exclude it keeps the forest acyclic |
| Categories.UpdateClosesCycle | internal/services/category_service.go:133-136 | making a category the child of its own child succeeds and closes a cycle |
| Categories.UpdateAcceptsForeignParent | internal/services/category_service.go:121-153 | the update accepts another user's category as parent |
| Categories.UpdateAcceptsSiblingName | internal/services/category_service.go:121-153 | the update accepts a sibling's name |
| Categories.UpdateCategoryChecked | internal/services/category_service.go:133-136 | the update with creation's checks and a descendant check: an accepted parent is the caller's and has no ancestor equal to the category; an owned category with no clashing sibling and an owned parent whose walk up avoids it within the table's size is updated as the plain update does |
| Categories.CheckedUpdateKeepsWellFormed | internal/services/category_service.go:133-136 | the checked update keeps the forest well formed |
| Categories.AvoidsWithinExact | internal/services/category_service.go:133-136 | on a well-formed table the bounded walk up from a category, with the table's size as bound, avoids a target exactly when no ancestor at any depth is the target |
| Categories.AvoidsComplete | internal/services/category_service.go:133-136 | a walk whose ancestors never meet the target and lie in a set of at most `fuel` ids avoids the target within `fuel` steps |
| Categories.CheckedUpdateAccepts | internal/services/category_service.go:121-153 | on a well-formed table an owned category with no clashing sibling name and an owned parent that does not descend from it is always accepted, with the plain update's result |
| Accounts.Register | internal/services/auth_service.go:19-69 | username checked before email; an active "user" account under the next id; a zeroed ledger row; when that insert fails or the row exists the account stays and the storage error is returned |
| Accounts.Login | internal/services/auth_service.go:71-98 | only an active account is looked up by email; unknown email, inactive account and wrong password give the same error |
| Accounts.RegisterKeepsUnique | internal/services/auth_service.go:19-66 | registration keeps usernames and emails unique and ids fresh |
| Accounts.RegisterThenLogin | internal/services/auth_service.go:19-98 | a completed registration logs in at once with its password |
| Accounts.HalfRegisteredAccount | internal/services/auth_service.go:58-66 | after a failed ledger insert the account cannot re-register, can log in, and its quota lookup fails |
| Accounts.InactiveAccountCannotLogIn | internal/services/auth_service.go:73-83 | a deactivated account cannot log in, even with the right password |
| Accounts.ById | internal/middleware/auth.go:32 | the account table keyed by primary key: its keys are exactly the stored ids, each mapping to an account with that id |
| Accounts.ByIdFindsEachUser | internal/middleware/auth.go:32 | with distinct ids, the lookup by id finds every account |
| Accounts.RegisteredUserAuthenticates | internal/services/auth_service.go:19-69 | a completed registration passes the authentication guard for a token naming the new id |

## Left out

- Concurrency: the mutexes of the rate limiter, the check-then-act race between the quota check and the upload, and the view-count goroutine of the public share page are not modelled. Calls are sequential.
- File system and randomness: directory and file creation, copying and removal are parameters, and so are the UUID, the stored path and the random bytes of share codes.
- Database errors other than the modelled ones (a lost connection, a failed `Count` or `Scan`) are not modelled.
- The JSON binding of requests, the HTTP response bodies and logging are not modelled; only the status and the outcome are.
- Password hashing (bcrypt) and JWT signing and verification are parameters.
- `ServeFile`, `DownloadFile`, `GetAttachmentByID`, `GetUserStorageInfo` and `GetUserByID` only read a row and are not modelled.
- `GetCategoriesTree` is not modelled; the forest invariant and the acyclicity lemmas state what the tree walk relies on.
- The second `TagService` at the end of `internal/services/category_service.go` repeats the rules of `tag_service.go` and is not modelled separately.
- Tags.CreateTag: the database's refusal of a colour longer than the 7-character column is not modelled, so an 8-digit colour is stored; Tags.ValidatedWritesFitColumns and Tags.EightDigitColourTooLong state which validated colours exceed the column.
- Validation.BuiltinHexColor: follows the current version 10 of the validator library, which accepts 3, 4, 6 and 8 digits; the exact library version is not part of this model, and older version 10 releases accept only 3 and 6.
- Foreign keys other than `categories.parent_id` are not modelled: every modelled operation checks the referenced row first, or removes only rows nothing refers to.
- Tags.UpdateTag: the re-read of the tag with its note count is not modelled; the result is the updated row.
- `Load` (YAML reading) and `overrideFromEnv` are not modelled; only `setDefaults` and the database modes are.
- Text.ToLower: lower-cases ASCII letters only, whereas Go's `strings.ToLower` also lower-cases other Unicode letters.
- Ledger.UpdateUserStorage: integers are unbounded, so 64-bit overflow of the byte counter is not modelled.
- Notes.Offset: integers are unbounded, so `(page - 1) * limit` never overflows, whereas the page number is not capped and the 64-bit product in the source can wrap.
- Notes.PageCount: computes the ceiling exactly in integers, whereas the source divides in floating point.
- RateLimit.WholeMinutes: truncates an exact nanosecond count, whereas the source converts to floating-point minutes first.
- Shares.PublicAccess: returns the note shown, but does not model the visit counter, which is incremented in a goroutine.

## Findings

| source | as written | input that shows it | evidently intended | confidence | as-written member | corrected member |
|---|---|---|---|---|---|---|
| internal/services/file_service.go:230-243 | the recalculation writes with a struct update, which skips zero-valued columns and creates no missing row | a user whose ledger says 300 bytes while no live attachment remains | the ledger row becomes the computed totals ("update or create") | high, not executed | Consistency.RecalculateKeepsStaleBytes | Consistency.ReconcileRepairs |
| internal/handlers/share.go:76-81 | re-sharing a note with an existing active link answers with the request's password and expiry, not the stored ones | an active link with password "pw", re-shared with an empty body: the answer says no password, and visitors without "pw" are refused | the response reports the link as stored | medium, not executed | Shares.UpdateResponseMisreportsPassword | Shares.ReportedResponseMatchesShareInfo |
| internal/services/category_service.go:133-136 | only a category named as its own direct parent is refused | category 1 at the root with child 2; update 1 with parent 2: a cycle 1, 2, 1 | no category may become the child of its own descendant | high, not executed | Categories.UpdateClosesCycle | Categories.CheckedUpdateKeepsWellFormed |
| internal/services/category_service.go:121-153 | the update does not repeat creation's parent and sibling-name checks | user 7 sets the parent of its category to user 8's category, or renames it to a sibling's name | the new parent is the caller's, and sibling names stay unique, as at creation | medium, not executed | Categories.UpdateAcceptsForeignParent | Categories.CheckedUpdateKeepsWellFormed |
| internal/services/tag_service.go:78-91 | the update has no name check, although creation has one and the model notes a composite unique index | user 7 with live tags "go" and "rust" renames "rust" to "go" | a user's live tag names stay unique | medium, not executed | Tags.UpdateCanDuplicateName | Tags.CheckedUpdateKeepsUniqueNames |
| internal/services/note_service.go:56-63 | the sort parameter is written into the order clause verbatim; the declared `oneof` rule is never applied | sort `id; DROP TABLE notes; --` | only the four declared columns can be sorted on | high, not executed | NoteQuery.InjectedSortIsAccepted | NoteQuery.CheckedOrderClauseIsListed |

=== FILE: accounting.dfy ===
/**
 * Ground truth for the ledger: the totals `RecalculateUserStorage` computes from the
 * attachments table. An attachment counts for a user when it is not soft-deleted and
 * its note (soft-deleted or not: the join is on the raw notes table) belongs to the user.
 */
module Accounting {
  import opened Models

  predicate Live(a: Attachment, notes: map<Id, Note>, user: Id) {
    !a.deleted && a.noteId in notes && notes[a.noteId].owner == user
  }

  function Plus(x: UserStorage, y: UserStorage): UserStorage {
    UserStorage(x.used + y.used, x.files + y.files, x.images + y.images, x.documents + y.documents)
  }

  /** What one attachment adds to its owner's totals: its size, one file, one image or one document. */
  function Contribution(a: Attachment, notes: map<Id, Note>, user: Id): (c: UserStorage)
    ensures !Live(a, notes, user) ==> c == EmptyStorage()
    ensures Live(a, notes, user) ==> c.used == a.size && c.files == 1 && c.images + c.documents == 1
    ensures Live(a, notes, user) ==> (c.images == 1 <==> a.isImage)
  {
    if !Live(a, notes, user) then EmptyStorage()
    else UserStorage(a.size, 1, if a.isImage then 1 else 0, if a.isImage then 0 else 1)
  }

  /**
   * The loop of `RecalculateUserStorage`: the sum of sizes and the numbers of files,
   * images and documents over the user's live attachments.
   */
  function Totals(rows: seq<Attachment>, notes: map<Id, Note>, user: Id): (t: UserStorage)
    ensures t.used >= 0 && t.images >= 0 && t.documents >= 0
    ensures t.files == t.images + t.documents
    ensures t.files <= |rows|
  {
    if |rows| == 0 then EmptyStorage()
    else Plus(Totals(rows[..|rows| - 1], notes, user), Contribution(rows[|rows| - 1], notes, user))
  }

  /** Totals over a concatenation add up. */
  lemma {:induction false} TotalsConcat(xs: seq<Attachment>, ys: seq<Attachment>, notes: map<Id, Note>, user: Id)
    ensures Totals(xs + ys, notes, user) == Plus(Totals(xs, notes, user), Totals(ys, notes, user))
    decreases |ys|
  {
    if |ys| == 0 {
      assert xs + ys == xs;
      PlusEmpty(Totals(xs, notes, user));
    } else {
      var zs, init, last := xs + ys, ys[..|ys| - 1], ys[|ys| - 1];
      var c := Contribution(last, notes, user);
      var tx, ti := Totals(xs, notes, user), Totals(init, notes, user);
      assert Totals(zs, notes, user) == Plus(Totals(xs + init, notes, user), c) by {
        assert zs[..|zs| - 1] == xs + init && zs[|zs| - 1] == last;
      }
      assert Totals(ys, notes, user) == Plus(ti, c);
      TotalsConcat(xs, init, notes, user);
      PlusAssoc(tx, ti, c);
    }
  }

  lemma PlusEmpty(x: UserStorage)
    ensures Plus(x, EmptyStorage()) == x
  {
  }

  lemma PlusAssoc(x: UserStorage, y: UserStorage, z: UserStorage)
    ensures Plus(Plus(x, y), z) == Plus(x, Plus(y, z))
  {
  }

  /** Replacing row `i` swaps its contribution for that of the new row. */
  lemma TotalsUpdate(rows: seq<Attachment>, i: nat, b: Attachment, notes: map<Id, Note>, user: Id)
    requires i < |rows|
    ensures Plus(Totals(rows[i := b], notes, user), Contribution(rows[i], notes, user))
         == Plus(Totals(rows, notes, user), Contribution(b, notes, user))
  {
    var pre, post, rows' := rows[..i], rows[i + 1..], rows[i := b];
    var tPre, tPost := Totals(pre, notes, user), Totals(post, notes, user);
    var ca, cb := Contribution(rows[i], notes, user), Contribution(b, notes, user);
    assert Totals(rows, notes, user) == Plus(Plus(tPre, ca), tPost) by {
      TotalsSplit(rows, i, notes, user);
    }
    assert Totals(rows', notes, user) == Plus(Plus(tPre, cb), tPost) by {
      assert rows'[..i] == pre && rows'[i] == b && rows'[i + 1..] == post;
      TotalsSplit(rows', i, notes, user);
    }
  }

  /** Totals split around row `i`. */
  lemma TotalsSplit(rows: seq<Attachment>, i: nat, notes: map<Id, Note>, user: Id)
    requires i < |rows|
    ensures Totals(rows, notes, user)
         == Plus(Plus(Totals(rows[..i], notes, user), Contribution(rows[i], notes, user)), Totals(rows[i + 1..], notes, user))
  {
    var pre, post := rows[..i], rows[i + 1..];
    assert rows == (pre + [rows[i]]) + post;
    TotalsConcat(pre + [rows[i]], post, notes, user);
    TotalsAppend(pre, rows[i], notes, user);
  }

  /** Removing row `i` removes exactly its contribution. */
  lemma TotalsRemove(rows: seq<Attachment>, i: nat, notes: map<Id, Note>, user: Id)
    requires i < |rows|
    ensures Plus(Totals(rows[..i] + rows[i + 1..], notes, user), Contribution(rows[i], notes, user))
         == Totals(rows, notes, user)
  {
    var pre, post := rows[..i], rows[i + 1..];
    var tPre, tPost, c := Totals(pre, notes, user), Totals(post, notes, user), Contribution(rows[i], notes, user);
    assert Totals(rows, notes, user) == Plus(Plus(tPre, c), tPost) by {
      TotalsSplit(rows, i, notes, user);
    }
    assert Totals(pre + post, notes, user) == Plus(tPre, tPost) by {
      TotalsConcat(pre, post, notes, user);
    }
  }

  /** Appending a row adds exactly its contribution. */
  lemma TotalsAppend(rows: seq<Attachment>, a: Attachment, notes: map<Id, Note>, user: Id)
    ensures Totals(rows + [a], notes, user) == Plus(Totals(rows, notes, user), Contribution(a, notes, user))
  {
    assert (rows + [a])[..|rows|] == rows;
  }

  /** Totals depend on the notes only through the owner of each note. */
  lemma {:induction false} TotalsSameOwners(rows: seq<Attachment>, notes: map<Id, Note>, notes': map<Id, Note>, user: Id)
    requires notes.Keys == notes'.Keys
    requires forall n :: n in notes ==> notes'[n].owner == notes[n].owner
    ensures Totals(rows, notes', user) == Totals(rows, notes, user)
  {
    if |rows| > 0 {
      TotalsSameOwners(rows[..|rows| - 1], notes, notes', user);
    }
  }

  /** Totals agree when the rows contribute alike, position by position. */
  lemma {:induction false} TotalsPointwise(rows: seq<Attachment>, rows': seq<Attachment>, notes: map<Id, Note>, user: Id)
    requires |rows'| == |rows|
    requires forall k :: 0 <= k < |rows| ==> Contribution(rows'[k], notes, user) == Contribution(rows[k], notes, user)
    ensures Totals(rows', notes, user) == Totals(rows, notes, user)
  {
    if |rows| > 0 {
      var n := |rows| - 1;
      assert Totals(rows', notes, user) == Plus(Totals(rows'[..n], notes, user), Contribution(rows'[n], notes, user));
      assert Totals(rows, notes, user) == Plus(Totals(rows[..n], notes, user), Contribution(rows[n], notes, user));
      TotalsPointwise(rows[..n], rows'[..n], notes, user);
    }
  }

  /** Totals cannot grow in bytes when no row grows its contribution. */
  lemma {:induction false} TotalsShrink(rows: seq<Attachment>, rows': seq<Attachment>, notes: map<Id, Note>, user: Id)
    requires |rows'| == |rows|
    requires forall k :: 0 <= k < |rows| ==> Contribution(rows'[k], notes, user).used <= Contribution(rows[k], notes, user).used
    ensures Totals(rows', notes, user).used <= Totals(rows, notes, user).used
  {
    if |rows| > 0 {
      var n := |rows| - 1;
      assert Totals(rows', notes, user) == Plus(Totals(rows'[..n], notes, user), Contribution(rows'[n], notes, user));
      assert Totals(rows, notes, user) == Plus(Totals(rows[..n], notes, user), Contribution(rows[n], notes, user));
      TotalsShrink(rows[..n], rows'[..n], notes, user);
    }
  }

  /** ... and they shrink strictly when one row strictly shrinks its contribution. */
  lemma TotalsShrinkStrictly(rows: seq<Attachment>, rows': seq<Attachment>, notes: map<Id, Note>, user: Id, i: nat)
    requires |rows'| == |rows| && i < |rows|
    requires forall k :: 0 <= k < |rows| ==> Contribution(rows'[k], notes, user).used <= Contribution(rows[k], notes, user).used
    requires Contribution(rows'[i], notes, user).used < Contribution(rows[i], notes, user).used
    ensures Totals(rows', notes, user).used < Totals(rows, notes, user).used
  {
    var pre, pre', post, post' := rows[..i], rows'[..i], rows[i + 1..], rows'[i + 1..];
    assert Totals(pre', notes, user).used <= Totals(pre, notes, user).used by {
      assert forall k :: 0 <= k < i ==> pre[k] == rows[k] && pre'[k] == rows'[k];
      TotalsShrink(pre, pre', notes, user);
    }
    assert Totals(post', notes, user).used <= Totals(post, notes, user).used by {
      assert forall k :: 0 <= k < |post| ==> post[k] == rows[i + 1 + k] && post'[k] == rows'[i + 1 + k];
      TotalsShrink(post, post', notes, user);
    }
    TotalsSplit(rows, i, notes, user);
    TotalsSplit(rows', i, notes, user);
  }
}

=== FILE: accounts.dfy ===
/**
 * Registration and login of `internal/services/auth_service.go`. Password hashing and
 * checking are parameters: the hash a registration stores is given, and so is the
 * predicate that says whether a password matches a stored hash.
 */
module Accounts {
  import opened Wrappers
  import opened Models
  import opened Ledger
  import AuthMiddleware

  /** The `users` table in insertion order, the `user_storage` table, and the next user id. */
  datatype AccountDb = AccountDb(users: seq<User>, storage: Ledgers, nextId: Id)

  /** `UserRegisterRequest`. */
  datatype RegisterRequest = RegisterRequest(username: string, email: string, password: string)

  datatype AuthError = UsernameTaken | EmailTaken | HashFailed | StorageInitFailed | BadCredentials

  predicate UsernameInUse(users: seq<User>, name: string) {
    exists i :: 0 <= i < |users| && users[i].username == name
  }

  predicate EmailInUse(users: seq<User>, email: string) {
    exists i :: 0 <= i < |users| && users[i].email == email
  }

  /** No two accounts share a username, and none share an email. */
  predicate UniqueAccounts(users: seq<User>) {
    forall i, j :: 0 <= i < |users| && 0 <= j < |users| && i != j ==>
      users[i].username != users[j].username && users[i].email != users[j].email
  }

  /** Every user id lies below the next id, and so does every ledger row's key. */
  predicate IdsBelowNext(db: AccountDb) {
    && (forall i :: 0 <= i < |db.users| ==> db.users[i].id < db.nextId)
    && (forall id :: id in db.storage ==> id < db.nextId)
  }

  /**
   * `Register`: the username is checked before the email, whatever the state of the
   * matching account. The account is inserted as an active "user" under the next id;
   * then a zeroed ledger row is inserted in a separate statement. That insert fails when
   * the database refuses it or a row with that key exists, and then the account stays in
   * place while the caller receives an error.
   */
  function Register(db: AccountDb, req: RegisterRequest, hash: Option<string>, storageInsertOk: bool)
    : (out: (AccountDb, Result<User, AuthError>))
    ensures out.1 == Err(UsernameTaken) <==> UsernameInUse(db.users, req.username)
    ensures out.1 == Err(EmailTaken) <==> !UsernameInUse(db.users, req.username) && EmailInUse(db.users, req.email)
    ensures out.1 == Err(UsernameTaken) || out.1 == Err(EmailTaken) || out.1 == Err(HashFailed) ==> out.0 == db
    ensures out.1.Ok? || out.1 == Err(StorageInitFailed) ==>
      && hash.Some?
      && out.0.users == db.users + [User(db.nextId, req.username, req.email, hash.value, "user", true)]
      && out.0.nextId == db.nextId + 1
    ensures out.1.Ok? <==>
      !UsernameInUse(db.users, req.username) && !EmailInUse(db.users, req.email) && hash.Some?
      && storageInsertOk && db.nextId !in db.storage
    ensures out.1.Ok? ==>
      out.1.value == out.0.users[|db.users|] && out.0.storage == db.storage[db.nextId := EmptyStorage()]
    ensures out.1 == Err(StorageInitFailed) ==> out.0.storage == db.storage
    ensures (&& !UsernameInUse(db.users, req.username) && !EmailInUse(db.users, req.email) && hash.Some?
             && (!storageInsertOk || db.nextId in db.storage)) ==> out.1 == Err(StorageInitFailed)
    ensures hash.None? && !UsernameInUse(db.users, req.username) && !EmailInUse(db.users, req.email) ==>
      out.1 == Err(HashFailed)
  {
    if UsernameInUse(db.users, req.username) then (db, Err(UsernameTaken))
    else if EmailInUse(db.users, req.email) then (db, Err(EmailTaken))
    else match hash
      case None => (db, Err(HashFailed))
      case Some(h) =>
        var u := User(db.nextId, req.username, req.email, h, "user", true);
        var withUser := AccountDb(db.users + [u], db.storage, db.nextId + 1);
        if !storageInsertOk || u.id in db.storage then (withUser, Err(StorageInitFailed))
        else (withUser.(storage := db.storage[u.id := EmptyStorage()]), Ok(u))
  }

  /** The first row of an active account with this email, as the login query returns it. */
  function FindActiveByEmail(users: seq<User>, email: string): (r: Option<nat>)
    ensures r.Some? ==> r.value < |users| && users[r.value].email == email && users[r.value].isActive
    ensures r.Some? ==> forall i :: 0 <= i < r.value ==> !(users[i].email == email && users[i].isActive)
    ensures r.None? ==> forall i :: 0 <= i < |users| ==> !(users[i].email == email && users[i].isActive)
  {
    if |users| == 0 then None
    else if users[0].email == email && users[0].isActive then Some(0)
    else match FindActiveByEmail(users[1..], email)
      case None => None
      case Some(i) => Some(i + 1)
  }

  /**
   * `Login`: only an active account is looked up by email, and an unknown email, an
   * inactive account and a wrong password all produce the same error.
   */
  function Login(users: seq<User>, email: string, password: string, matches: (string, string) -> bool)
    : (r: Result<User, AuthError>)
    ensures r.Err? ==> r.error == BadCredentials
    ensures r.Ok? <==>
      FindActiveByEmail(users, email).Some? && matches(password, users[FindActiveByEmail(users, email).value].passwordHash)
    ensures r.Ok? ==>
      && r.value.email == email && r.value.isActive && matches(password, r.value.passwordHash)
      && exists i :: 0 <= i < |users| && users[i] == r.value
  {
    match FindActiveByEmail(users, email)
    case None => Err(BadCredentials)
    case Some(i) => if matches(password, users[i].passwordHash) then Ok(users[i]) else Err(BadCredentials)
  }

  /** Registration keeps usernames and emails unique and ids fresh, whether or not the ledger row is created. */
  lemma RegisterKeepsUnique(db: AccountDb, req: RegisterRequest, hash: Option<string>, storageInsertOk: bool)
    requires UniqueAccounts(db.users) && IdsBelowNext(db)
    ensures UniqueAccounts(Register(db, req, hash, storageInsertOk).0.users)
    ensures IdsBelowNext(Register(db, req, hash, storageInsertOk).0)
  {
    var out := Register(db, req, hash, storageInsertOk);
    if out.0 != db {
      var users := out.0.users;
      assert forall i :: 0 <= i < |db.users| ==> users[i] == db.users[i];
      assert forall i :: 0 <= i < |db.users| ==> db.users[i].username != req.username && db.users[i].email != req.email;
    }
  }

  /** A completed registration can log in at once with the password it registered. */
  lemma RegisterThenLogin(db: AccountDb, req: RegisterRequest, hash: string, matches: (string, string) -> bool)
    requires Register(db, req, Some(hash), true).1.Ok?
    requires matches(req.password, hash)
    ensures Login(Register(db, req, Some(hash), true).0.users, req.email, req.password, matches)
         == Register(db, req, Some(hash), true).1
  {
    var out := Register(db, req, Some(hash), true);
    var users := out.0.users;
    assert forall i :: 0 <= i < |db.users| ==> users[i] == db.users[i] && db.users[i].email != req.email;
    assert FindActiveByEmail(users, req.email) == Some(|db.users|);
  }

  /**
   * A registration whose ledger row could not be created leaves an account that cannot
   * be registered again, that can log in, and whose quota lookup fails.
   */
  lemma HalfRegisteredAccount(db: AccountDb, req: RegisterRequest, hash: string, matches: (string, string) -> bool,
                              maxStorage: int, size: int)
    requires db.nextId !in db.storage && matches(req.password, hash)
    requires Register(db, req, Some(hash), false).1 == Err(StorageInitFailed)
    ensures var after := Register(db, req, Some(hash), false).0;
      && Register(after, req, Some(hash), true).1 == Err(UsernameTaken)
      && Login(after.users, req.email, req.password, matches).Ok?
      && CheckUserStorage(after.storage, maxStorage, db.nextId, size).Err?
  {
    var after := Register(db, req, Some(hash), false).0;
    var users := after.users;
    assert users[|db.users|].username == req.username;
    assert forall i :: 0 <= i < |db.users| ==> users[i] == db.users[i] && db.users[i].email != req.email;
    assert FindActiveByEmail(users, req.email) == Some(|db.users|);
  }

  /** A deactivated account cannot log in, even with the right password. */
  lemma InactiveAccountCannotLogIn(users: seq<User>, i: nat, password: string, matches: (string, string) -> bool)
    requires i < |users| && !users[i].isActive && UniqueAccounts(users)
    ensures Login(users, users[i].email, password, matches) == Err(BadCredentials)
  {
    assert forall j :: 0 <= j < |users| && j != i ==> users[j].email != users[i].email;
  }

  // ----- The same table as the authentication guard reads it -----

  /**
   * The `users` table looked up by primary key, which is how the authentication guard
   * reads it: every stored id maps to an account with that id, the last one inserted.
   */
  function ById(users: seq<User>): (m: map<Id, User>)
    ensures m.Keys == set i | 0 <= i < |users| :: users[i].id
    ensures forall id :: id in m ==> m[id].id == id
    ensures |users| > 0 ==> m[users[|users| - 1].id] == users[|users| - 1]
  {
    if |users| == 0 then map[]
    else
      var init := users[..|users| - 1];
      var m := ById(init);
      assert forall i :: 0 <= i < |init| ==> init[i] == users[i];
      m[users[|users| - 1].id := users[|users| - 1]]
  }

  /** An account no later account shares its id with is what the lookup by its id finds. */
  lemma {:induction false} ByIdFindsLastWithId(users: seq<User>, i: nat)
    requires i < |users|
    requires forall j :: i < j < |users| ==> users[j].id != users[i].id
    ensures ById(users)[users[i].id] == users[i]
    decreases |users|
  {
    var n := |users| - 1;
    if i < n {
      var init := users[..n];
      assert init[i] == users[i];
      assert forall j :: i < j < |init| ==> init[j] == users[j];
      ByIdFindsLastWithId(init, i);
      assert users[n].id != users[i].id;
    }
  }

  /** With distinct ids, the lookup finds every account of the sequence. */
  lemma ByIdFindsEachUser(users: seq<User>)
    requires forall i, j :: 0 <= i < j < |users| ==> users[i].id != users[j].id
    ensures forall i :: 0 <= i < |users| ==> ById(users)[users[i].id] == users[i]
  {
    forall i | 0 <= i < |users|
      ensures ById(users)[users[i].id] == users[i]
    {
      ByIdFindsLastWithId(users, i);
    }
  }

  /**
   * A completed registration passes the authentication guard at once: a token that
   * verifies to the new id admits exactly the new account.
   */
  lemma RegisteredUserAuthenticates(db: AccountDb, req: RegisterRequest, hash: Option<string>, storageInsertOk: bool,
                                    header: string, query: string, verify: string -> Option<Id>)
    requires Register(db, req, hash, storageInsertOk).1.Ok?
    requires AuthMiddleware.ExtractToken(header, query) != ""
    requires verify(AuthMiddleware.ExtractToken(header, query)) == Some(db.nextId)
    ensures AuthMiddleware.Authenticate(ById(Register(db, req, hash, storageInsertOk).0.users), header, query, verify)
         == Ok(Register(db, req, hash, storageInsertOk).1.value)
  {
  }
}

=== FILE: auth_middleware.dfy ===
/**
 * The request guards of `internal/middleware/auth.go`: where the access token is taken
 * from, the authentication chain, and the administrator check. Token signatures are not
 * modelled; verifying a token is a parameter that yields the user id it names, if any.
 */
module AuthMiddleware {
  import opened Wrappers
  import opened Text
  import opened Models

  const Bearer: string := "Bearer"

  /**
   * `extractToken`: an `Authorization` header of the form "Bearer <rest>" yields the rest,
   * spaces included; otherwise the `token` query parameter; otherwise "". An absent
   * header or parameter reads as "".
   */
  function ExtractToken(header: string, query: string): (token: string)
    ensures header != "" && SplitFirst(header, ' ').1.Some? && SplitFirst(header, ' ').0 == Bearer ==>
      token == SplitFirst(header, ' ').1.value
    ensures !(SplitFirst(header, ' ').1.Some? && SplitFirst(header, ' ').0 == Bearer) ==> token == query
  {
    var parts := SplitFirst(header, ' ');
    if header != "" && parts.1.Some? && parts.0 == Bearer then parts.1.value
    else if query != "" then query
    else ""
  }

  /** A bearer header yields exactly its token, even an empty one, and the query is never read. */
  lemma BearerHeaderWins(token: string, query: string)
    ensures ExtractToken(Bearer + " " + token, query) == token
  {
    SplitFirstJoin(Bearer, ' ', token);
    assert Bearer + [' '] + token == Bearer + " " + token;
  }

  /** Any other scheme word, "bearer" included, makes the header count for nothing. */
  lemma OtherSchemeFallsBackToQuery(scheme: string, rest: string, query: string)
    requires ' ' !in scheme && scheme != Bearer
    ensures ExtractToken(scheme + " " + rest, query) == query
  {
    SplitFirstJoin(scheme, ' ', rest);
    assert scheme + [' '] + rest == scheme + " " + rest;
  }

  datatype AuthError = MissingToken | InvalidToken | UserMissingOrDisabled

  /**
   * `AuthMiddleware`: a token must be present, must verify, and must name an active user;
   * the request then proceeds as that user.
   */
  function Authenticate(users: map<Id, User>, header: string, query: string,
                        verify: string -> Option<Id>): (r: Result<User, AuthError>)
    ensures ExtractToken(header, query) == "" ==> r == Err(MissingToken)
    ensures r.Ok? ==>
      var token := ExtractToken(header, query);
      && token != "" && verify(token).Some?
      && verify(token).value in users && r.value == users[verify(token).value] && r.value.isActive
    ensures ExtractToken(header, query) != "" && verify(ExtractToken(header, query)).None? ==> r == Err(InvalidToken)
    ensures ExtractToken(header, query) != "" && verify(ExtractToken(header, query)).Some? ==>
      (r.Ok? <==> verify(ExtractToken(header, query)).value in users
                  && users[verify(ExtractToken(header, query)).value].isActive)
    ensures ExtractToken(header, query) != "" && verify(ExtractToken(header, query)).Some? && r.Err? ==>
      r == Err(UserMissingOrDisabled)
  {
    var token := ExtractToken(header, query);
    if token == "" then Err(MissingToken)
    else match verify(token)
      case None => Err(InvalidToken)
      case Some(id) =>
        if id in users && users[id].isActive then Ok(users[id]) else Err(UserMissingOrDisabled)
  }

  datatype AdminDecision = NotLoggedIn | Forbidden | Admitted

  /** `AdminMiddleware`: only a logged-in user whose role is exactly "admin" passes. */
  function AdminCheck(user: Option<User>): (d: AdminDecision)
    ensures d == Admitted <==> user.Some? && user.value.role == "admin"
    ensures d == NotLoggedIn <==> user.None?
  {
    match user
    case None => NotLoggedIn
    case Some(u) => if u.role != "admin" then Forbidden else Admitted
  }

  /**
   * Behind both guards a request passes exactly when its token verifies to the id of an
   * active user whose role is "admin".
   */
  lemma AdminRoutesNeedActiveAdmin(users: map<Id, User>, header: string, query: string, verify: string -> Option<Id>)
    ensures var auth := Authenticate(users, header, query, verify);
      var token := ExtractToken(header, query);
      AdminCheck(if auth.Ok? then Some(auth.value) else None) == Admitted <==>
        && token != "" && verify(token).Some? && verify(token).value in users
        && users[verify(token).value].isActive && users[verify(token).value].role == "admin"
  {
  }
}

=== FILE: categories.dfy ===
/**
 * The category rules of `internal/services/category_service.go`. Categories form a forest
 * through their optional parent; creation checks the parent and the sibling names, an
 * update checks only that a category is not made its own direct parent, and a deletion
 * is refused while anything still points at the category. The raw SQL of this service
 * ignores soft deletion, and its DELETE removes the row.
 */
module Categories {
  import opened Wrappers
  import opened Models

  /** The `categories` table keyed by id, and the next id the sequence hands out. */
  datatype CategoryDb = CategoryDb(categories: map<Id, Category>, nextId: Id)

  /** `CategoryCreateRequest`, used for creation and update alike. */
  datatype CategoryRequest = CategoryRequest(name: string, parentId: Option<Id>, description: Option<string>)

  datatype CategoryError =
    | ParentMissing
    | SiblingNameTaken
    | CategoryNotFound
    | OwnParent
    /** The database refuses a `parent_id` that names no row (the foreign key of the `Parent` association). */
    | ParentForeignKey
    | NewParentIsDescendant
    | HasChildren
    | HasNotes
    | NotFoundOrForbidden

  predicate Owns(db: CategoryDb, id: Id, user: Id) {
    id in db.categories && db.categories[id].owner == user
  }

  /** A category of the user with this name already sits under this parent (or at the root). */
  predicate SiblingNameInUse(db: CategoryDb, user: Id, name: string, parent: Option<Id>) {
    exists id :: id in db.categories && db.categories[id].owner == user
      && db.categories[id].name == name && db.categories[id].parentId == parent
  }

  /**
   * `CreateCategory`: a named parent must exist and belong to the caller; no sibling of
   * the caller may bear the name; the new category starts with sort order 0.
   */
  function CreateCategory(db: CategoryDb, user: Id, req: CategoryRequest): (out: (CategoryDb, Result<Id, CategoryError>))
    ensures out.1 == Err(ParentMissing) <==> req.parentId.Some? && !Owns(db, req.parentId.value, user)
    ensures out.1 == Err(SiblingNameTaken) <==>
      (req.parentId.None? || Owns(db, req.parentId.value, user)) && SiblingNameInUse(db, user, req.name, req.parentId)
    ensures out.1.Ok? <==>
      (req.parentId.None? || Owns(db, req.parentId.value, user)) && !SiblingNameInUse(db, user, req.name, req.parentId)
    ensures out.1.Err? ==> out.0 == db
    ensures out.1.Ok? ==>
      && out.1.value == db.nextId
      && out.0.nextId == db.nextId + 1
      && out.0.categories == db.categories[db.nextId := Category(user, req.name, req.parentId, 0, req.description)]
  {
    if req.parentId.Some? && !Owns(db, req.parentId.value, user) then (db, Err(ParentMissing))
    else if SiblingNameInUse(db, user, req.name, req.parentId) then (db, Err(SiblingNameTaken))
    else
      var c := Category(user, req.name, req.parentId, 0, req.description);
      (CategoryDb(db.categories[db.nextId := c], db.nextId + 1), Ok(db.nextId))
  }

  /**
   * `UpdateCategory`: the category must belong to the caller, and it may not name itself
   * as its parent; then name, parent and description are overwritten. Owner and sort
   * order are kept. The service checks nothing else about the new parent, but the
   * foreign key that the schema migration puts on `parent_id` refuses a parent that is
   * not a row of the table.
   */
  function UpdateCategory(db: CategoryDb, categoryId: Id, user: Id, req: CategoryRequest)
    : (out: (CategoryDb, Result<Category, CategoryError>))
    ensures !Owns(db, categoryId, user) ==> out == (db, Err(CategoryNotFound))
    ensures Owns(db, categoryId, user) && req.parentId == Some(categoryId) ==> out == (db, Err(OwnParent))
    ensures (&& Owns(db, categoryId, user) && req.parentId != Some(categoryId)
             && req.parentId.Some? && req.parentId.value !in db.categories) ==> out == (db, Err(ParentForeignKey))
    ensures out.1.Ok? <==>
      && Owns(db, categoryId, user) && req.parentId != Some(categoryId)
      && (req.parentId.None? || req.parentId.value in db.categories)
    ensures out.1.Ok? ==>
      && out.0.nextId == db.nextId
      && out.0.categories.Keys == db.categories.Keys
      && out.0.categories[categoryId] == out.1.value
      && out.1.value.owner == user && out.1.value.sortOrder == db.categories[categoryId].sortOrder
      && out.1.value.name == req.name && out.1.value.parentId == req.parentId
      && out.1.value.description == req.description
      && (forall id :: id in db.categories && id != categoryId ==> out.0.categories[id] == db.categories[id])
  {
    if !Owns(db, categoryId, user) then (db, Err(CategoryNotFound))
    else if req.parentId == Some(categoryId) then (db, Err(OwnParent))
    else if req.parentId.Some? && req.parentId.value !in db.categories then (db, Err(ParentForeignKey))
    else
      var c := db.categories[categoryId].(name := req.name, parentId := req.parentId, description := req.description);
      (db.(categories := db.categories[categoryId := c]), Ok(c))
  }

  /** Some category, of any user, names this one as its parent. */
  predicate HasChild(db: CategoryDb, id: Id) {
    exists c :: c in db.categories && db.categories[c].parentId == Some(id)
  }

  /** Some note, of any user and deleted or not, is filed under this category. */
  predicate HasNote(notes: map<Id, Note>, id: Id) {
    exists n :: n in notes && notes[n].categoryId == Some(id)
  }

  /**
   * `DeleteCategory`: refused while a child or a note points at the category, whoever
   * owns them, and these checks come before ownership; then only the caller's own
   * category is removed, and no matching row is an error.
   */
  function DeleteCategory(db: CategoryDb, notes: map<Id, Note>, categoryId: Id, user: Id): (r: Result<CategoryDb, CategoryError>)
    ensures r == Err(HasChildren) <==> HasChild(db, categoryId)
    ensures r == Err(HasNotes) <==> !HasChild(db, categoryId) && HasNote(notes, categoryId)
    ensures r.Ok? <==> !HasChild(db, categoryId) && !HasNote(notes, categoryId) && Owns(db, categoryId, user)
    ensures r.Ok? ==> r.value == CategoryDb(db.categories - {categoryId}, db.nextId)
  {
    if HasChild(db, categoryId) then Err(HasChildren)
    else if HasNote(notes, categoryId) then Err(HasNotes)
    else if !Owns(db, categoryId, user) then Err(NotFoundOrForbidden)
    else Ok(CategoryDb(db.categories - {categoryId}, db.nextId))
  }

  // ----- The shape of the forest -----

  function Parent(cats: map<Id, Category>, id: Id): (p: Option<Id>)
    ensures p.Some? ==> id in cats && cats[id].parentId == p
  {
    if id in cats then cats[id].parentId else None
  }

  /** The `k`-th ancestor of `id`, if the chain of parents is that long. */
  function Up(cats: map<Id, Category>, id: Id, k: nat): (r: Option<Id>)
    ensures k == 0 ==> r == Some(id)
    decreases k
  {
    if k == 0 then Some(id)
    else match Parent(cats, id)
      case None => None
      case Some(p) => Up(cats, p, k - 1)
  }

  /** No category is its own ancestor. */
  ghost predicate NoCycle(cats: map<Id, Category>) {
    forall id: Id, k: nat :: 1 <= k ==> Up(cats, id, k) != Some(id)
  }

  predicate IdsBelowNext(db: CategoryDb) {
    forall id :: id in db.categories ==> id < db.nextId
  }

  /** Every named parent exists. */
  predicate ParentsExist(cats: map<Id, Category>) {
    forall id :: id in cats && cats[id].parentId.Some? ==> cats[id].parentId.value in cats
  }

  /** A parent belongs to the owner of its children. */
  predicate ParentsShareOwner(cats: map<Id, Category>) {
    forall id :: id in cats && cats[id].parentId.Some? && cats[id].parentId.value in cats ==>
      cats[cats[id].parentId.value].owner == cats[id].owner
  }

  /** Siblings of one owner have distinct names. */
  predicate SiblingNamesUnique(cats: map<Id, Category>) {
    forall a, b ::
      (a in cats && b in cats && cats[a].owner == cats[b].owner
       && cats[a].name == cats[b].name && cats[a].parentId == cats[b].parentId) ==> a == b
  }

  /** Every category a note is filed under exists. */
  predicate NotesFiled(cats: map<Id, Category>, notes: map<Id, Note>) {
    forall n :: n in notes && notes[n].categoryId.Some? ==> notes[n].categoryId.value in cats
  }

  /** The invariant the service keeps when updates are checked as creation checks. */
  ghost predicate WellFormed(db: CategoryDb) {
    && IdsBelowNext(db)
    && ParentsExist(db.categories)
    && ParentsShareOwner(db.categories)
    && SiblingNamesUnique(db.categories)
    && NoCycle(db.categories)
  }

  // ----- Lemmas about ancestor chains -----

  /** Walking `i` steps and then `j` more is walking `i + j` steps. */
  lemma {:induction false} UpCompose(cats: map<Id, Category>, x: Id, i: nat, j: nat)
    requires Up(cats, x, i).Some?
    ensures Up(cats, x, i + j) == Up(cats, Up(cats, x, i).value, j)
    decreases i
  {
    if i > 0 {
      var p := Parent(cats, x).value;
      UpCompose(cats, p, i - 1, j);
    }
  }

  /**
   * Two tables whose parent links agree everywhere except at `c` give the same chain from
   * `x` for as long as the chain in `m` has not reached `c`.
   */
  lemma {:induction false} UpAgrees(m: map<Id, Category>, m': map<Id, Category>, c: Id, x: Id, k: nat)
    requires forall y :: y != c ==> Parent(m', y) == Parent(m, y)
    requires forall i: nat :: i < k ==> Up(m, x, i) != Some(c)
    ensures Up(m', x, k) == Up(m, x, k)
    decreases k
  {
    if k > 0 {
      assert Up(m, x, 0) != Some(c);
      match Parent(m, x)
      case None => {}
      case Some(p) =>
        assert forall i: nat :: i < k - 1 ==> Up(m, p, i) == Up(m, x, i + 1);
        UpAgrees(m, m', c, p, k - 1);
    }
  }

  /** With every parent present, every ancestor of a category is a category. */
  lemma {:induction false} AncestorsExist(cats: map<Id, Category>, x: Id, k: nat)
    requires ParentsExist(cats) && x in cats
    ensures Up(cats, x, k).Some? ==> Up(cats, x, k).value in cats
    decreases k
  {
    if k > 0 {
      match Parent(cats, x)
      case None => {}
      case Some(p) => AncestorsExist(cats, p, k - 1);
    }
  }

  /**
   * Re-linking `c` keeps the forest acyclic when the chain of its new parent never meets
   * `c`: a cycle through the new link would need that chain to come back to `c`, and a
   * cycle avoiding `c` was already there.
   */
  lemma Relink(m: map<Id, Category>, m': map<Id, Category>, c: Id)
    requires NoCycle(m)
    requires forall y :: y != c ==> Parent(m', y) == Parent(m, y)
    requires Parent(m', c).Some? ==> forall j: nat :: Up(m, Parent(m', c).value, j) != Some(c)
    ensures NoCycle(m')
  {
    forall x: Id, k: nat | 1 <= k
      ensures Up(m', x, k) != Some(x)
    {
      RelinkAt(m, m', c, x, k);
    }
  }

  lemma RelinkAt(m: map<Id, Category>, m': map<Id, Category>, c: Id, x: Id, k: nat)
    requires NoCycle(m) && 1 <= k
    requires forall y :: y != c ==> Parent(m', y) == Parent(m, y)
    requires Parent(m', c).Some? ==> forall j: nat :: Up(m, Parent(m', c).value, j) != Some(c)
    ensures Up(m', x, k) != Some(x)
  {
    if exists i: nat :: i < k && Up(m', x, i) == Some(c) {
      var i: nat :| i < k && Up(m', x, i) == Some(c);
      UpCompose(m', x, i, k - i);
      assert Up(m', x, k) == Up(m', c, k - i);
      match Parent(m', c)
      case None => {}
      case Some(p) =>
        assert Up(m', c, k - i) == Up(m', p, k - i - 1);
        UpAgrees(m, m', c, p, k - i - 1);
        if Up(m', x, k) == Some(x) {
          // Then x lies on the chain of p in m, so the chain of x in m never meets c either.
          var d := k - i - 1;
          assert Up(m, p, d) == Some(x);
          forall j: nat | j <= i
            ensures Up(m, x, j) != Some(c)
          {
            UpCompose(m, p, d, j);
          }
          UpAgrees(m, m', c, x, i);
        }
    } else {
      UpAgrees(m', m, c, x, k);
    }
  }

  /** Removing a category only cuts chains short: every ancestor after removal was one before. */
  lemma {:induction false} UpAfterRemoval(cats: map<Id, Category>, d: Id, x: Id, k: nat)
    ensures Up(cats - {d}, x, k).Some? ==> Up(cats - {d}, x, k) == Up(cats, x, k)
    decreases k
  {
    if k > 0 && x != d {
      assert Parent(cats - {d}, x) == Parent(cats, x);
      match Parent(cats, x)
      case None => {}
      case Some(p) => UpAfterRemoval(cats, d, p, k - 1);
    }
  }

  // ----- What the operations keep -----

  /** Creation keeps the table well formed: the new leaf hangs under an existing category of its owner. */
  lemma CreateKeepsWellFormed(db: CategoryDb, user: Id, req: CategoryRequest)
    requires WellFormed(db)
    ensures WellFormed(CreateCategory(db, user, req).0)
  {
    var out := CreateCategory(db, user, req);
    if out.1.Ok? {
      var n := db.nextId;
      var m, m' := db.categories, out.0.categories;
      assert forall id :: id in m ==> m'[id] == m[id];
      assert forall y :: y != n ==> Parent(m', y) == Parent(m, y);
      if req.parentId.Some? {
        forall j: nat
          ensures Up(m, req.parentId.value, j) != Some(n)
        {
          AncestorsExist(m, req.parentId.value, j);
        }
      }
      Relink(m, m', n);
      assert forall id :: id in m && m[id].owner == user && m[id].parentId == req.parentId ==> m[id].name != req.name;
    }
  }

  /** Deletion keeps the table well formed and every note filed under an existing category. */
  lemma DeleteKeepsWellFormed(db: CategoryDb, notes: map<Id, Note>, categoryId: Id, user: Id)
    requires WellFormed(db) && NotesFiled(db.categories, notes)
    requires DeleteCategory(db, notes, categoryId, user).Ok?
    ensures WellFormed(DeleteCategory(db, notes, categoryId, user).value)
    ensures NotesFiled(DeleteCategory(db, notes, categoryId, user).value.categories, notes)
  {
    var m := db.categories;
    var m' := m - {categoryId};
    forall x: Id, k: nat | 1 <= k
      ensures Up(m', x, k) != Some(x)
    {
      UpAfterRemoval(m, categoryId, x, k);
    }
  }

  /** The foreign key alone keeps every named parent present across an update. */
  lemma UpdateKeepsParentsExist(db: CategoryDb, categoryId: Id, user: Id, req: CategoryRequest)
    requires ParentsExist(db.categories)
    ensures ParentsExist(UpdateCategory(db, categoryId, user, req).0.categories)
  {
    var out := UpdateCategory(db, categoryId, user, req);
    if out.1.Ok? {
      assert forall id :: id in db.categories && id != categoryId ==> out.0.categories[id] == db.categories[id];
    }
  }

  /**
   * The update checks only for the category itself: making a category the child of its
   * own child succeeds and closes a cycle.
   */
  lemma UpdateClosesCycle()
    ensures var db := CategoryDb(map[1 := Category(7, "work", None, 0, None), 2 := Category(7, "go", Some(1), 0, None)], 3);
      && WellFormed(db)
      && UpdateCategory(db, 1, 7, CategoryRequest("work", Some(2), None)).1.Ok?
      && !NoCycle(UpdateCategory(db, 1, 7, CategoryRequest("work", Some(2), None)).0.categories)
  {
    var db := CategoryDb(map[1 := Category(7, "work", None, 0, None), 2 := Category(7, "go", Some(1), 0, None)], 3);
    forall id: Id, k: nat | 1 <= k
      ensures Up(db.categories, id, k) != Some(id)
    {
      if k >= 2 && id == 2 {
        assert Up(db.categories, 2, k) == Up(db.categories, 1, k - 1);
      }
    }
    var after := UpdateCategory(db, 1, 7, CategoryRequest("work", Some(2), None)).0.categories;
    assert Up(after, 1, 2) == Some(1);
  }

  /** Three categories, two of user 7 at the root and one of user 8: a well-formed table. */
  function Sample(): CategoryDb {
    CategoryDb(map[1 := Category(7, "work", None, 0, None), 2 := Category(8, "home", None, 0, None),
                   3 := Category(7, "home", None, 0, None)], 4)
  }

  lemma SampleWellFormed()
    ensures WellFormed(Sample())
  {
    forall id: Id, k: nat | 1 <= k
      ensures Up(Sample().categories, id, k) == None
    {
    }
  }

  /** Nor does the update repeat the checks of creation: it accepts a parent of another user, */
  lemma UpdateAcceptsForeignParent()
    ensures WellFormed(Sample())
    ensures !ParentsShareOwner(UpdateCategory(Sample(), 1, 7, CategoryRequest("work", Some(2), None)).0.categories)
  {
    SampleWellFormed();
    var after := UpdateCategory(Sample(), 1, 7, CategoryRequest("work", Some(2), None)).0.categories;
    assert after[1].parentId == Some(2) && after[2].owner == 8;
  }

  /** and the name of a sibling. */
  lemma UpdateAcceptsSiblingName()
    ensures WellFormed(Sample())
    ensures !SiblingNamesUnique(UpdateCategory(Sample(), 1, 7, CategoryRequest("home", None, None)).0.categories)
  {
    SampleWellFormed();
    var after := UpdateCategory(Sample(), 1, 7, CategoryRequest("home", None, None)).0.categories;
    assert after[1].name == after[3].name && after[1].parentId == after[3].parentId && after[1].owner == after[3].owner;
  }

  /**
   * Walking up from `start`, a root is reached within `fuel` steps without meeting
   * `target`.
   */
  function AvoidsWithin(cats: map<Id, Category>, start: Id, target: Id, fuel: nat): (ok: bool)
    decreases fuel
  {
    start != target &&
    match Parent(cats, start)
    case None => true
    case Some(p) => fuel > 0 && AvoidsWithin(cats, p, target, fuel - 1)
  }

  /** A chain that reaches a root without meeting `target` never meets it. */
  lemma {:induction false} AvoidsNeverMeets(cats: map<Id, Category>, start: Id, target: Id, fuel: nat, j: nat)
    requires AvoidsWithin(cats, start, target, fuel)
    ensures Up(cats, start, j) != Some(target)
    decreases fuel
  {
    if j > 0 {
      match Parent(cats, start)
      case None => {}
      case Some(p) => AvoidsNeverMeets(cats, p, target, fuel - 1, j - 1);
    }
  }

  /**
   * The update with the checks creation makes, and with the descendant check the source
   * describes: the new parent must exist, belong to the caller, and not lie below the
   * category; the new name must be free among the new siblings.
   */
  function UpdateCategoryChecked(db: CategoryDb, categoryId: Id, user: Id, req: CategoryRequest)
    : (out: (CategoryDb, Result<Category, CategoryError>))
    ensures !Owns(db, categoryId, user) ==> out == (db, Err(CategoryNotFound))
    ensures out.1.Ok? ==> out == UpdateCategory(db, categoryId, user, req)
    ensures out.1.Ok? && req.parentId.Some? ==>
      Owns(db, req.parentId.value, user) && forall j: nat :: Up(db.categories, req.parentId.value, j) != Some(categoryId)
    ensures out.1.Ok? ==>
      forall id ::
        (id in db.categories && id != categoryId && db.categories[id].owner == user
         && db.categories[id].parentId == req.parentId) ==> db.categories[id].name != req.name
    ensures out.1.Err? ==> out.0 == db
    ensures (&& Owns(db, categoryId, user) && req.parentId != Some(categoryId)
             && (req.parentId.Some? ==>
                   Owns(db, req.parentId.value, user)
                   && AvoidsWithin(db.categories, req.parentId.value, categoryId, |db.categories|))
             && !(exists id :: id in db.categories && id != categoryId && db.categories[id].owner == user
                              && db.categories[id].name == req.name && db.categories[id].parentId == req.parentId))
            ==> out.1.Ok? && out == UpdateCategory(db, categoryId, user, req)
  {
    if !Owns(db, categoryId, user) then (db, Err(CategoryNotFound))
    else if req.parentId == Some(categoryId) then (db, Err(OwnParent))
    else if req.parentId.Some? && !Owns(db, req.parentId.value, user) then (db, Err(ParentMissing))
    else if req.parentId.Some? && !AvoidsWithin(db.categories, req.parentId.value, categoryId, |db.categories|) then
      (db, Err(NewParentIsDescendant))
    else if exists id :: id in db.categories && id != categoryId && db.categories[id].owner == user
                        && db.categories[id].name == req.name && db.categories[id].parentId == req.parentId then
      (db, Err(SiblingNameTaken))
    else
      var out := UpdateCategory(db, categoryId, user, req);
      assert req.parentId.Some? ==> forall j: nat :: Up(db.categories, req.parentId.value, j) != Some(categoryId) by {
        if req.parentId.Some? {
          forall j: nat
            ensures Up(db.categories, req.parentId.value, j) != Some(categoryId)
          {
            AvoidsNeverMeets(db.categories, req.parentId.value, categoryId, |db.categories|, j);
          }
        }
      }
      out
  }

  /**
   * In an acyclic table whose parents exist, the walk from `x` reaches a root without
   * meeting `target` within as many steps as there are candidate ancestors left in `S`.
   */
  lemma {:induction false} AvoidsComplete(cats: map<Id, Category>, x: Id, target: Id, fuel: nat, S: set<Id>)
    requires NoCycle(cats)
    requires forall j: nat :: Up(cats, x, j) != Some(target)
    requires forall j: nat :: 1 <= j && Up(cats, x, j).Some? ==> Up(cats, x, j).value in S
    requires |S| <= fuel
    ensures AvoidsWithin(cats, x, target, fuel)
    decreases fuel
  {
    assert Up(cats, x, 0) != Some(target);
    match Parent(cats, x)
    case None => {}
    case Some(p) =>
      assert Up(cats, x, 1) == Some(p);
      assert forall j: nat :: Up(cats, p, j) == Up(cats, x, j + 1);
      var S' := S - {p};
      assert S == S' + {p};
      forall j: nat | 1 <= j && Up(cats, p, j).Some?
        ensures Up(cats, p, j).value in S'
      {
        assert Up(cats, p, j) != Some(p);
      }
      AvoidsComplete(cats, p, target, fuel - 1, S');
  }

  /**
   * The fuel of the descendant check suffices: in a well-formed table the walk up from an
   * existing category avoids `target` within the table's size exactly when no ancestor is
   * `target`.
   */
  lemma AvoidsWithinExact(cats: map<Id, Category>, start: Id, target: Id)
    requires NoCycle(cats) && ParentsExist(cats) && start in cats
    ensures AvoidsWithin(cats, start, target, |cats|) <==> NeverMeets(cats, start, target)
  {
    if NeverMeets(cats, start, target) {
      AvoidsWhenNeverMet(cats, start, target);
    } else {
      var j: nat :| Up(cats, start, j) == Some(target);
      if AvoidsWithin(cats, start, target, |cats|) {
        AvoidsNeverMeets(cats, start, target, |cats|, j);
      }
    }
  }

  /** No ancestor of `start`, nor `start` itself, is `target`. */
  ghost predicate NeverMeets(cats: map<Id, Category>, start: Id, target: Id) {
    forall j: nat :: Up(cats, start, j) != Some(target)
  }

  lemma AvoidsWhenNeverMet(cats: map<Id, Category>, start: Id, target: Id)
    requires NoCycle(cats) && ParentsExist(cats) && start in cats
    requires NeverMeets(cats, start, target)
    ensures AvoidsWithin(cats, start, target, |cats|)
  {
    forall j: nat | 1 <= j && Up(cats, start, j).Some?
      ensures Up(cats, start, j).value in cats.Keys
    {
      AncestorsExist(cats, start, j);
    }
    assert |cats.Keys| == |cats|;
    AvoidsComplete(cats, start, target, |cats|, cats.Keys);
  }

  /**
   * On a well-formed table the checked update accepts every request that passes the
   * checks creation makes and does not put the category below itself.
   */
  lemma CheckedUpdateAccepts(db: CategoryDb, categoryId: Id, user: Id, req: CategoryRequest)
    requires WellFormed(db)
    requires Owns(db, categoryId, user)
    requires req.parentId.Some? ==>
      Owns(db, req.parentId.value, user) && NeverMeets(db.categories, req.parentId.value, categoryId)
    requires !(exists id :: id in db.categories && id != categoryId && db.categories[id].owner == user
                           && db.categories[id].name == req.name && db.categories[id].parentId == req.parentId)
    ensures UpdateCategoryChecked(db, categoryId, user, req) == UpdateCategory(db, categoryId, user, req)
    ensures UpdateCategoryChecked(db, categoryId, user, req).1.Ok?
  {
    if req.parentId.Some? {
      assert Up(db.categories, req.parentId.value, 0) != Some(categoryId);
      AvoidsWithinExact(db.categories, req.parentId.value, categoryId);
    }
  }

  /** With the checks in place an update keeps the table well formed. */
  lemma CheckedUpdateKeepsWellFormed(db: CategoryDb, categoryId: Id, user: Id, req: CategoryRequest)
    requires WellFormed(db)
    ensures WellFormed(UpdateCategoryChecked(db, categoryId, user, req).0)
  {
    var out := UpdateCategoryChecked(db, categoryId, user, req);
    if out.1.Ok? {
      var m, m' := db.categories, out.0.categories;
      assert forall y :: y != categoryId ==> Parent(m', y) == Parent(m, y);
      Relink(m, m', categoryId);
    }
  }
}

=== FILE: config.dfy ===
/**
 * The parts of `internal/config/config.go` the rest of the system consults: the
 * configuration records, the defaults filled in after loading, the file-type
 * classifiers, the database connection string and the database-mode selection, with
 * the process environment passed in as a map.
 */
module Config {
  import opened Wrappers
  import opened Text

  datatype ServerConfig = ServerConfig(port: int, mode: string)

  datatype DatabaseConfig = DatabaseConfig(
    host: string,
    port: int,
    user: string,
    password: string,
    dbName: string,
    sslMode: string,
    url: string)

  datatype JwtConfig = JwtConfig(secret: string, expireHours: int)

  datatype FileConfig = FileConfig(
    uploadPath: string,
    maxImageSize: int,
    maxDocumentSize: int,
    maxUserStorage: int,
    allowedImageTypes: seq<string>,
    allowedDocumentTypes: seq<string>)

  datatype BackupConfig = BackupConfig(enabled: bool, path: string, schedule: string, keepDays: int)

  datatype LogConfig = LogConfig(level: string, file: string, maxSize: int, maxAge: int, maxBackups: int)

  datatype FrontendConfig = FrontendConfig(baseUrl: string)

  datatype Config = Config(
    server: ServerConfig,
    database: DatabaseConfig,
    jwt: JwtConfig,
    file: FileConfig,
    backup: BackupConfig,
    log: LogConfig,
    frontend: FrontendConfig)

  // ---------------------------------------------------------------------------
  // Defaults
  // ---------------------------------------------------------------------------

  const DefaultPort: int := 9191
  const DefaultMode: string := "debug"
  const DefaultExpireHours: int := 24
  const DefaultUploadPath: string := "./uploads"
  const DefaultMaxImageSize: int := 10485760
  const DefaultMaxDocumentSize: int := 52428800
  const DefaultMaxUserStorage: int := 524288000
  const DefaultImageTypes: seq<string> := ["jpg", "jpeg", "png", "gif", "webp"]
  const DefaultDocumentTypes: seq<string> := ["pdf", "doc", "docx", "xls", "xlsx"]
  const DefaultLogLevel: string := "info"
  const DefaultLogFile: string := "./logs/app.log"
  const DefaultBaseUrl: string := "https://huage.api.withgo.cn"

  /** Every field `setDefaults` looks at holds a non-zero, non-empty value. */
  predicate Filled(c: Config) {
    && c.server.port != 0 && c.server.mode != ""
    && c.jwt.expireHours != 0
    && c.file.uploadPath != "" && c.file.maxImageSize != 0 && c.file.maxDocumentSize != 0
    && c.file.maxUserStorage != 0
    && |c.file.allowedImageTypes| != 0 && |c.file.allowedDocumentTypes| != 0
    && c.log.level != "" && c.log.file != ""
    && c.frontend.baseUrl != ""
  }

  /** `r` agrees with `c` on every field `c` already set and on every field `setDefaults` never looks at. */
  predicate KeepsSetFields(c: Config, r: Config) {
    && (c.server.port != 0 ==> r.server.port == c.server.port)
    && (c.server.mode != "" ==> r.server.mode == c.server.mode)
    && (c.jwt.expireHours != 0 ==> r.jwt.expireHours == c.jwt.expireHours)
    && (c.file.uploadPath != "" ==> r.file.uploadPath == c.file.uploadPath)
    && (c.file.maxImageSize != 0 ==> r.file.maxImageSize == c.file.maxImageSize)
    && (c.file.maxDocumentSize != 0 ==> r.file.maxDocumentSize == c.file.maxDocumentSize)
    && (c.file.maxUserStorage != 0 ==> r.file.maxUserStorage == c.file.maxUserStorage)
    && (|c.file.allowedImageTypes| != 0 ==> r.file.allowedImageTypes == c.file.allowedImageTypes)
    && (|c.file.allowedDocumentTypes| != 0 ==> r.file.allowedDocumentTypes == c.file.allowedDocumentTypes)
    && (c.log.level != "" ==> r.log.level == c.log.level)
    && (c.log.file != "" ==> r.log.file == c.log.file)
    && (c.frontend.baseUrl != "" ==> r.frontend.baseUrl == c.frontend.baseUrl)
    && r.database == c.database && r.backup == c.backup && r.jwt.secret == c.jwt.secret
    && r.log.maxSize == c.log.maxSize && r.log.maxAge == c.log.maxAge && r.log.maxBackups == c.log.maxBackups
  }

  /** Every field `c` left at its zero value holds the documented default in `r`. */
  predicate DefaultsWhereUnset(c: Config, r: Config) {
    && (c.server.port == 0 ==> r.server.port == DefaultPort)
    && (c.server.mode == "" ==> r.server.mode == DefaultMode)
    && (c.jwt.expireHours == 0 ==> r.jwt.expireHours == DefaultExpireHours)
    && (c.file.uploadPath == "" ==> r.file.uploadPath == DefaultUploadPath)
    && (c.file.maxImageSize == 0 ==> r.file.maxImageSize == DefaultMaxImageSize)
    && (c.file.maxDocumentSize == 0 ==> r.file.maxDocumentSize == DefaultMaxDocumentSize)
    && (c.file.maxUserStorage == 0 ==> r.file.maxUserStorage == DefaultMaxUserStorage)
    && (|c.file.allowedImageTypes| == 0 ==> r.file.allowedImageTypes == DefaultImageTypes)
    && (|c.file.allowedDocumentTypes| == 0 ==> r.file.allowedDocumentTypes == DefaultDocumentTypes)
    && (c.log.level == "" ==> r.log.level == DefaultLogLevel)
    && (c.log.file == "" ==> r.log.file == DefaultLogFile)
    && (c.frontend.baseUrl == "" ==> r.frontend.baseUrl == DefaultBaseUrl)
  }

  function OrInt(x: int, d: int): int {
    if x == 0 then d else x
  }

  function OrString(s: string, d: string): string {
    if s == "" then d else s
  }

  function OrList(l: seq<string>, d: seq<string>): seq<string> {
    if |l| == 0 then d else l
  }

  /**
   * `setDefaults`: fills each zero or empty field with its default. Negative numbers
   * count as set; only zero is replaced.
   */
  function SetDefaults(c: Config): (r: Config)
    ensures Filled(r)
    ensures KeepsSetFields(c, r)
    ensures DefaultsWhereUnset(c, r)
  {
    Config(
      ServerConfig(OrInt(c.server.port, DefaultPort), OrString(c.server.mode, DefaultMode)),
      c.database,
      c.jwt.(expireHours := OrInt(c.jwt.expireHours, DefaultExpireHours)),
      FileConfig(
        OrString(c.file.uploadPath, DefaultUploadPath),
        OrInt(c.file.maxImageSize, DefaultMaxImageSize),
        OrInt(c.file.maxDocumentSize, DefaultMaxDocumentSize),
        OrInt(c.file.maxUserStorage, DefaultMaxUserStorage),
        OrList(c.file.allowedImageTypes, DefaultImageTypes),
        OrList(c.file.allowedDocumentTypes, DefaultDocumentTypes)),
      c.backup,
      c.log.(level := OrString(c.log.level, DefaultLogLevel), file := OrString(c.log.file, DefaultLogFile)),
      FrontendConfig(OrString(c.frontend.baseUrl, DefaultBaseUrl)))
  }

  /** A configuration is left alone by `setDefaults` exactly when it is already filled. */
  lemma SetDefaultsFixedPoint(c: Config)
    ensures SetDefaults(c) == c <==> Filled(c)
  {
    if Filled(c) {
      var r := SetDefaults(c);
      assert r.server == c.server && r.jwt == c.jwt && r.file == c.file && r.log == c.log && r.frontend == c.frontend;
    }
  }

  /** Applying `setDefaults` twice is the same as applying it once. */
  lemma SetDefaultsIdempotent(c: Config)
    ensures SetDefaults(SetDefaults(c)) == SetDefaults(c)
  {
    SetDefaultsFixedPoint(SetDefaults(c));
  }

  // ---------------------------------------------------------------------------
  // File-type classification
  // ---------------------------------------------------------------------------

  /**
   * The loop of `IsImageType`/`IsDocumentType`. Only the input is lower-cased, so the
   * comparison ignores the input's case and matches only the entries written without an
   * upper-case letter.
   */
  function Allowed(allowed: seq<string>, fileType: string): (r: bool)
    ensures r <==> exists i :: 0 <= i < |allowed| && !HasUpper(allowed[i]) && ToLower(allowed[i]) == ToLower(fileType)
  {
    ToLowerIdempotent(fileType);
    assert forall i :: 0 <= i < |allowed| && !HasUpper(allowed[i]) ==> ToLower(allowed[i]) == allowed[i];
    ToLower(fileType) in allowed
  }

  function IsImageType(c: Config, fileType: string): (r: bool) {
    Allowed(c.file.allowedImageTypes, fileType)
  }

  function IsDocumentType(c: Config, fileType: string): (r: bool) {
    Allowed(c.file.allowedDocumentTypes, fileType)
  }

  /**
   * Only the input is lower-cased: a configured entry holding an upper-case letter never
   * matches anything, so the list behaves as if those entries were absent; and the
   * answer does not depend on the case of the input.
   */
  lemma UpperCaseEntriesNeverMatch(allowed: seq<string>, fileType: string)
    ensures Allowed(allowed, fileType) <==>
      exists i :: 0 <= i < |allowed| && !HasUpper(allowed[i]) && allowed[i] == ToLower(fileType)
    ensures Allowed(allowed, fileType) == Allowed(allowed, ToLower(fileType))
  {
    ToLowerIdempotent(fileType);
  }

  /** With the default lists no extension is both an image and a document type. */
  lemma DefaultListsDisjoint(c: Config, fileType: string)
    requires c.file.allowedImageTypes == DefaultImageTypes
    requires c.file.allowedDocumentTypes == DefaultDocumentTypes
    ensures !(IsImageType(c, fileType) && IsDocumentType(c, fileType))
  {
  }

  // ---------------------------------------------------------------------------
  // Connection string
  // ---------------------------------------------------------------------------

  function Pair(key: string, value: string): string {
    key + "=" + value
  }

  /** The keys of the key=value connection string, in the order `GetDSN` writes them. */
  const DsnKeys: seq<string> := ["host", "port", "user", "password", "dbname", "sslmode"]

  /** `key1=value1 key2=value2 ...`: the pairs joined by single spaces. */
  function JoinPairs(keys: seq<string>, values: seq<string>): string
    requires |keys| == |values| > 0
    decreases |keys|
  {
    if |keys| == 1 then Pair(keys[0], values[0])
    else Pair(keys[0], values[0]) + " " + JoinPairs(keys[1..], values[1..])
  }

  /**
   * `GetDSN`: the URL verbatim when one is set; otherwise host, port, user, password,
   * dbname and sslmode as key=value pairs, the port in decimal.
   */
  function GetDsn(c: Config): (r: string)
    ensures c.database.url != "" ==> r == c.database.url
  {
    var db := c.database;
    if db.url != "" then db.url
    else JoinPairs(DsnKeys, [db.host, Itoa(db.port), db.user, db.password, db.dbName, db.sslMode])
  }

  /** The value of `key` at the head of `s`, when `s` starts with `key=`. */
  function StripKey(key: string, s: string): (r: Option<string>)
    ensures r.Some? ==> s == Pair(key, r.value)
  {
    var prefix := key + "=";
    if |prefix| <= |s| && s[..|prefix|] == prefix then Some(s[|prefix|..]) else None
  }

  lemma StripKeyPair(key: string, value: string)
    ensures StripKey(key, Pair(key, value)) == Some(value)
  {
    var prefix := key + "=";
    assert Pair(key, value)[..|prefix|] == prefix;
  }

  /** The value of `key` in the first space-separated pair of `s`, and what follows the space. */
  function TakePair(key: string, s: string): (r: Option<(string, string)>)
    ensures r.Some? ==> ' ' !in r.value.0 && s == Pair(key, r.value.0) + " " + r.value.1
  {
    match SplitFirst(s, ' ')
    case (_, None) => None
    case (pair, Some(rest)) =>
      match StripKey(key, pair)
      case None => None
      case Some(v) => Some((v, rest))
  }

  lemma TakePairJoin(key: string, value: string, rest: string)
    requires ' ' !in key && ' ' !in value
    ensures TakePair(key, Pair(key, value) + " " + rest) == Some((value, rest))
  {
    var pair := Pair(key, value);
    assert ' ' !in pair by {
      assert forall k :: 0 <= k < |pair| ==> pair[k] == (key + "=" + value)[k];
    }
    SplitFirstJoin(pair, ' ', rest);
    assert pair + [' '] + rest == pair + " " + rest;
    StripKeyPair(key, value);
  }

  /** Reads the values of the given keys, in order, from a string of space-separated pairs. */
  function ParsePairs(keys: seq<string>, s: string): (r: Option<seq<string>>)
    requires |keys| > 0
    decreases |keys|
    ensures r.Some? ==> |r.value| == |keys|
  {
    if |keys| == 1 then
      match StripKey(keys[0], s)
      case None => None
      case Some(v) => Some([v])
    else
      match TakePair(keys[0], s)
      case None => None
      case Some((v, rest)) =>
        match ParsePairs(keys[1..], rest)
        case None => None
        case Some(vs) => Some([v] + vs)
  }

  /** Reading back joined pairs yields the values when no key and no value but the last holds a space. */
  lemma {:induction false} PairsRoundTrip(keys: seq<string>, values: seq<string>)
    requires |keys| == |values| > 0
    requires forall i :: 0 <= i < |keys| ==> ' ' !in keys[i]
    requires forall i :: 0 <= i < |values| - 1 ==> ' ' !in values[i]
    decreases |keys|
    ensures ParsePairs(keys, JoinPairs(keys, values)) == Some(values)
  {
    if |keys| == 1 {
      StripKeyPair(keys[0], values[0]);
      assert values == [values[0]];
    } else {
      var rest := JoinPairs(keys[1..], values[1..]);
      TakePairJoin(keys[0], values[0], rest);
      PairsRoundTrip(keys[1..], values[1..]);
      assert values == [values[0]] + values[1..];
    }
  }

  /** The connection fields a key=value connection string carries. */
  datatype DsnFields = DsnFields(host: string, port: int, user: string, password: string, dbName: string, sslMode: string)

  /** Reads a key=value connection string in the order `GetDsn` writes it. */
  function ParseDsn(s: string): (r: Option<DsnFields>)
  {
    match ParsePairs(DsnKeys, s)
    case None => None
    case Some(v) =>
      match Atoi(v[1])
      case None => None
      case Some(port) => Some(DsnFields(v[0], port, v[2], v[3], v[4], v[5]))
  }

  /**
   * The key=value form loses nothing: when no field but the last holds a space and the
   * port is a 64-bit integer, reading the string back yields the configured fields.
   */
  lemma DsnRoundTrip(c: Config)
    requires c.database.url == ""
    requires ' ' !in c.database.host && ' ' !in c.database.user
    requires ' ' !in c.database.password && ' ' !in c.database.dbName
    requires MinInt64 <= c.database.port <= MaxInt64
    ensures ParseDsn(GetDsn(c)) ==
      Some(DsnFields(c.database.host, c.database.port, c.database.user, c.database.password,
                     c.database.dbName, c.database.sslMode))
  {
    var db := c.database;
    var values := [db.host, Itoa(db.port), db.user, db.password, db.dbName, db.sslMode];
    PairsRoundTrip(DsnKeys, values);
    AtoiItoa(db.port);
  }

  // ---------------------------------------------------------------------------
  // Environment and database mode
  // ---------------------------------------------------------------------------

  /** The process environment; an unset variable reads as "" like `os.Getenv`. */
  type Env = map<string, string>

  function Getenv(env: Env, key: string): string {
    if key in env then env[key] else ""
  }

  /** `getEnvOrDefault`: the variable's value, with an empty value treated like a missing one. */
  function GetEnvOrDefault(env: Env, key: string, default: string): (r: string)
    ensures Getenv(env, key) != "" ==> r == Getenv(env, key)
    ensures Getenv(env, key) == "" ==> r == default
    ensures r == "" <==> Getenv(env, key) == "" && default == ""
  {
    var v := Getenv(env, key);
    if v != "" then v else default
  }

  datatype ConfigError = UnknownMode(mode: string) | VercelIncomplete | CustomIncomplete

  /**
   * The port rule shared by the local and custom modes: 5432 when the variable is unset
   * or empty, the parsed value when it parses, otherwise the port already configured.
   */
  function PortFromEnv(env: Env, key: string, current: int): (port: int)
    ensures Getenv(env, key) == "" ==> port == 5432
    ensures Getenv(env, key) != "" && Atoi(Getenv(env, key)).Some? ==> port == Atoi(Getenv(env, key)).value
    ensures Getenv(env, key) != "" && Atoi(Getenv(env, key)).None? ==> port == current
  {
    var portStr := Getenv(env, key);
    if portStr != "" then Atoi(portStr).GetOr(current) else 5432
  }

  /** `configureLocalDatabase`: environment values over fixed defaults; never fails. */
  function ConfigureLocal(c: Config, env: Env): (r: Config)
    ensures r.database.url == "" && r.database.sslMode == "disable"
    ensures r.database.host != "" && r.database.user != "" && r.database.dbName != ""
    ensures r.database.host == GetEnvOrDefault(env, "LOCAL_DB_HOST", "postgres")
    ensures r.database.user == GetEnvOrDefault(env, "LOCAL_DB_USER", "notes_user")
    ensures r.database.password == GetEnvOrDefault(env, "LOCAL_DB_PASSWORD", "notes_password_2024")
    ensures r.database.dbName == GetEnvOrDefault(env, "LOCAL_DB_NAME", "notes_db")
    ensures r.database.port == PortFromEnv(env, "LOCAL_DB_PORT", c.database.port)
    ensures r.(database := c.database) == c
  {
    var db := c.database.(
      host := GetEnvOrDefault(env, "LOCAL_DB_HOST", "postgres"),
      user := GetEnvOrDefault(env, "LOCAL_DB_USER", "notes_user"),
      password := GetEnvOrDefault(env, "LOCAL_DB_PASSWORD", "notes_password_2024"),
      dbName := GetEnvOrDefault(env, "LOCAL_DB_NAME", "notes_db"),
      sslMode := "disable",
      port := PortFromEnv(env, "LOCAL_DB_PORT", c.database.port),
      url := "");
    c.(database := db)
  }

  /**
   * `configureVercelDatabase`: a URL, when given, is used with SSL required and nothing
   * else changes; otherwise the separate variables are read and host and user must be set.
   */
  function ConfigureVercel(c: Config, env: Env): (r: Result<Config, ConfigError>)
    ensures r.Ok? ==> r.value.(database := c.database) == c && r.value.database.sslMode == "require"
    ensures Getenv(env, "VERCEL_POSTGRES_URL") != "" ==>
      r == Ok(c.(database := c.database.(url := Getenv(env, "VERCEL_POSTGRES_URL"), sslMode := "require")))
    ensures Getenv(env, "VERCEL_POSTGRES_URL") == "" ==>
      (r.Err? <==> Getenv(env, "VERCEL_POSTGRES_HOST") == "" || Getenv(env, "VERCEL_POSTGRES_USER") == "")
    ensures Getenv(env, "VERCEL_POSTGRES_URL") == "" && r.Ok? ==>
      && r.value.database.url == "" && r.value.database.port == 5432
      && r.value.database.host == Getenv(env, "VERCEL_POSTGRES_HOST")
      && r.value.database.user == Getenv(env, "VERCEL_POSTGRES_USER")
      && r.value.database.password == Getenv(env, "VERCEL_POSTGRES_PASSWORD")
      && r.value.database.dbName == Getenv(env, "VERCEL_POSTGRES_DATABASE")
  {
    var url := Getenv(env, "VERCEL_POSTGRES_URL");
    if url != "" then
      Ok(c.(database := c.database.(url := url, sslMode := "require")))
    else
      var db := DatabaseConfig(
        Getenv(env, "VERCEL_POSTGRES_HOST"), 5432, Getenv(env, "VERCEL_POSTGRES_USER"),
        Getenv(env, "VERCEL_POSTGRES_PASSWORD"), Getenv(env, "VERCEL_POSTGRES_DATABASE"), "require", "");
      if db.host == "" || db.user == "" then Err(VercelIncomplete) else Ok(c.(database := db))
  }

  /**
   * `configureCustomDatabase`: like the Vercel mode, but the SSL mode comes from the
   * environment (default "disable") and the port follows the local-mode rule.
   */
  function ConfigureCustom(c: Config, env: Env): (r: Result<Config, ConfigError>)
    ensures r.Ok? ==> r.value.(database := c.database) == c
    ensures r.Ok? ==> r.value.database.sslMode == GetEnvOrDefault(env, "CUSTOM_DB_SSLMODE", "disable")
    ensures Getenv(env, "CUSTOM_DB_URL") != "" ==>
      r == Ok(c.(database := c.database.(url := Getenv(env, "CUSTOM_DB_URL"),
                                         sslMode := GetEnvOrDefault(env, "CUSTOM_DB_SSLMODE", "disable"))))
    ensures Getenv(env, "CUSTOM_DB_URL") != "" ==> r.value.database.port == c.database.port
    ensures Getenv(env, "CUSTOM_DB_URL") == "" ==>
      (r.Err? <==> Getenv(env, "CUSTOM_DB_HOST") == "" || Getenv(env, "CUSTOM_DB_USER") == "")
    ensures Getenv(env, "CUSTOM_DB_URL") == "" && r.Ok? ==>
      && r.value.database.url == "" && r.value.database.port == PortFromEnv(env, "CUSTOM_DB_PORT", c.database.port)
      && r.value.database.host == Getenv(env, "CUSTOM_DB_HOST")
      && r.value.database.user == Getenv(env, "CUSTOM_DB_USER")
      && r.value.database.password == Getenv(env, "CUSTOM_DB_PASSWORD")
      && r.value.database.dbName == Getenv(env, "CUSTOM_DB_NAME")
  {
    var sslMode := GetEnvOrDefault(env, "CUSTOM_DB_SSLMODE", "disable");
    var url := Getenv(env, "CUSTOM_DB_URL");
    if url != "" then
      Ok(c.(database := c.database.(url := url, sslMode := sslMode)))
    else
      var db := DatabaseConfig(
        Getenv(env, "CUSTOM_DB_HOST"), PortFromEnv(env, "CUSTOM_DB_PORT", c.database.port),
        Getenv(env, "CUSTOM_DB_USER"), Getenv(env, "CUSTOM_DB_PASSWORD"), Getenv(env, "CUSTOM_DB_NAME"),
        sslMode, "");
      if db.host == "" || db.user == "" then Err(CustomIncomplete) else Ok(c.(database := db))
  }

  /** `DB_MODE`, with an unset or empty value meaning "local". */
  function DbMode(env: Env): string {
    GetEnvOrDefault(env, "DB_MODE", "local")
  }

  /** `configureDatabaseByMode`: dispatches on the mode; any other mode is an error. */
  function ConfigureDatabaseByMode(c: Config, env: Env): (r: Result<Config, ConfigError>)
    ensures DbMode(env) !in {"local", "vercel", "custom"} ==> r == Err(UnknownMode(DbMode(env)))
    ensures DbMode(env) == "local" ==> r == Ok(ConfigureLocal(c, env))
    ensures DbMode(env) == "vercel" ==> r == ConfigureVercel(c, env)
    ensures DbMode(env) == "custom" ==> r == ConfigureCustom(c, env)
    ensures r.Ok? ==> r.value.(database := c.database) == c
  {
    match DbMode(env)
    case "local" => Ok(ConfigureLocal(c, env))
    case "vercel" => ConfigureVercel(c, env)
    case "custom" => ConfigureCustom(c, env)
    case mode => Err(UnknownMode(mode))
  }

  /** Without `DB_MODE` (or with it empty) the local mode is chosen, which never fails. */
  lemma MissingModeIsLocal(c: Config, env: Env)
    requires Getenv(env, "DB_MODE") == ""
    ensures ConfigureDatabaseByMode(c, env) == Ok(ConfigureLocal(c, env))
    ensures ConfigureDatabaseByMode(c, env) == ConfigureDatabaseByMode(c, env["DB_MODE" := "local"])
  {
    assert DbMode(env["DB_MODE" := "local"]) == "local";
  }

  /** A port written in decimal into `LOCAL_DB_PORT` is the port the local mode configures. */
  lemma LocalPortRoundTrip(c: Config, env: Env, port: int)
    requires MinInt64 <= port <= MaxInt64
    requires Getenv(env, "LOCAL_DB_PORT") == Itoa(port)
    ensures ConfigureLocal(c, env).database.port == port
  {
    AtoiItoa(port);
  }

  /** No string of the list holds a space. */
  predicate SpaceFree(values: seq<string>) {
    forall i :: 0 <= i < |values| ==> ' ' !in values[i]
  }

  /**
   * What the Vercel mode hands to the driver: the URL verbatim when it is set; otherwise a
   * key=value string that reads back to the `VERCEL_POSTGRES_*` variables, port 5432 and
   * SSL required, whenever those variables hold no space.
   */
  lemma VercelConnectionString(c: Config, env: Env)
    requires ConfigureVercel(c, env).Ok?
    ensures Getenv(env, "VERCEL_POSTGRES_URL") != "" ==>
      GetDsn(ConfigureVercel(c, env).value) == Getenv(env, "VERCEL_POSTGRES_URL")
    ensures (&& Getenv(env, "VERCEL_POSTGRES_URL") == ""
             && SpaceFree([Getenv(env, "VERCEL_POSTGRES_HOST"), Getenv(env, "VERCEL_POSTGRES_USER"),
                           Getenv(env, "VERCEL_POSTGRES_PASSWORD"), Getenv(env, "VERCEL_POSTGRES_DATABASE")])) ==>
      ParseDsn(GetDsn(ConfigureVercel(c, env).value)) ==
        Some(DsnFields(Getenv(env, "VERCEL_POSTGRES_HOST"), 5432, Getenv(env, "VERCEL_POSTGRES_USER"),
                       Getenv(env, "VERCEL_POSTGRES_PASSWORD"), Getenv(env, "VERCEL_POSTGRES_DATABASE"), "require"))
  {
    var r := ConfigureVercel(c, env).value;
    if Getenv(env, "VERCEL_POSTGRES_URL") == "" {
      var vs := [Getenv(env, "VERCEL_POSTGRES_HOST"), Getenv(env, "VERCEL_POSTGRES_USER"),
                 Getenv(env, "VERCEL_POSTGRES_PASSWORD"), Getenv(env, "VERCEL_POSTGRES_DATABASE")];
      if SpaceFree(vs) {
        assert ' ' !in vs[0] && ' ' !in vs[1] && ' ' !in vs[2] && ' ' !in vs[3];
        DsnRoundTrip(r);
      }
    }
  }

  /**
   * The same for the custom mode, with the `CUSTOM_DB_*` variables, the port of the local
   * port rule and the configured SSL mode, when the port already configured is a 64-bit
   * integer.
   */
  lemma CustomConnectionString(c: Config, env: Env)
    requires ConfigureCustom(c, env).Ok?
    ensures Getenv(env, "CUSTOM_DB_URL") != "" ==>
      GetDsn(ConfigureCustom(c, env).value) == Getenv(env, "CUSTOM_DB_URL")
    ensures (&& Getenv(env, "CUSTOM_DB_URL") == ""
             && MinInt64 <= c.database.port <= MaxInt64
             && SpaceFree([Getenv(env, "CUSTOM_DB_HOST"), Getenv(env, "CUSTOM_DB_USER"),
                           Getenv(env, "CUSTOM_DB_PASSWORD"), Getenv(env, "CUSTOM_DB_NAME")])) ==>
      ParseDsn(GetDsn(ConfigureCustom(c, env).value)) ==
        Some(DsnFields(Getenv(env, "CUSTOM_DB_HOST"), PortFromEnv(env, "CUSTOM_DB_PORT", c.database.port),
                       Getenv(env, "CUSTOM_DB_USER"), Getenv(env, "CUSTOM_DB_PASSWORD"), Getenv(env, "CUSTOM_DB_NAME"),
                       GetEnvOrDefault(env, "CUSTOM_DB_SSLMODE", "disable")))
  {
    var r := ConfigureCustom(c, env).value;
    if Getenv(env, "CUSTOM_DB_URL") == "" && MinInt64 <= c.database.port <= MaxInt64 {
      var vs := [Getenv(env, "CUSTOM_DB_HOST"), Getenv(env, "CUSTOM_DB_USER"),
                 Getenv(env, "CUSTOM_DB_PASSWORD"), Getenv(env, "CUSTOM_DB_NAME")];
      if SpaceFree(vs) {
        assert ' ' !in vs[0] && ' ' !in vs[1] && ' ' !in vs[2] && ' ' !in vs[3];
        DsnRoundTrip(r);
      }
    }
  }
}

=== FILE: consistency.dfy ===
/**
 * The central ledger property: every user's ledger row equals the totals a recalculation
 * computes from the attachments table. Upload, soft delete, restore and permanent delete
 * keep it when every attachment has a positive size; a zero-byte upload, a swallowed
 * ledger failure and a note deletion break it; only an overwriting recalculation repairs it.
 */
module Consistency {
  import opened Wrappers
  import opened Models
  import opened Ledger
  import opened Accounting
  import opened Files
  import opened Notes
  import opened LedgerSteps

  /** The ledger row of `user` (a missing row reads as zero) equals the recalculated totals. */
  predicate ConsistentFor(st: Store, user: Id) {
    Row(st.ledger, user) == Totals(st.attachments, st.notes, user)
  }

  ghost predicate Consistent(st: Store) {
    forall u :: ConsistentFor(st, u)
  }

  predicate PositiveSizes(rows: seq<Attachment>) {
    forall i :: 0 <= i < |rows| ==> rows[i].size > 0
  }

  /** Attachment ids are unique and below the next id to hand out. */
  predicate IdsFresh(rows: seq<Attachment>, nextId: Id) {
    && (forall i :: 0 <= i < |rows| ==> rows[i].id < nextId)
    && (forall i, j :: 0 <= i < j < |rows| ==> rows[i].id != rows[j].id)
  }

  ghost predicate Invariant(st: Store) {
    Consistent(st) && PositiveSizes(st.attachments) && IdsFresh(st.attachments, st.nextId)
  }

  /** Appending a positive-size row that takes the next id keeps sizes positive and ids fresh and unique. */
  lemma AppendKeepsShape(rows: seq<Attachment>, nextId: Id, a: Attachment)
    requires PositiveSizes(rows) && IdsFresh(rows, nextId) && a.size > 0 && a.id == nextId
    ensures PositiveSizes(rows + [a]) && IdsFresh(rows + [a], nextId + 1)
  {
    var rows' := rows + [a];
    assert forall k :: 0 <= k < |rows| ==> rows'[k] == rows[k];
  }

  /** Rewriting a row without touching its id or size keeps sizes positive and ids fresh and unique. */
  lemma UpdateKeepsShape(rows: seq<Attachment>, nextId: Id, i: nat, b: Attachment)
    requires i < |rows| && PositiveSizes(rows) && IdsFresh(rows, nextId)
    requires b.id == rows[i].id && b.size == rows[i].size
    ensures PositiveSizes(rows[i := b]) && IdsFresh(rows[i := b], nextId)
  {
  }

  /** Removing one row keeps sizes positive and ids fresh and unique. */
  lemma RemoveKeepsShape(rows: seq<Attachment>, nextId: Id, i: nat)
    requires i < |rows| && PositiveSizes(rows) && IdsFresh(rows, nextId)
    ensures PositiveSizes(rows[..i] + rows[i + 1..]) && IdsFresh(rows[..i] + rows[i + 1..], nextId)
  {
    var rows' := rows[..i] + rows[i + 1..];
    forall k | 0 <= k < |rows'|
      ensures rows'[k] == rows[if k < i then k else k + 1]
    {
    }
  }

  /** A positive-size upload whose ledger step commits keeps the invariant. */
  lemma UploadKeepsConsistency(st: Store, noteId: Id, user: Id, filename: string, size: nat, contentType: string,
                               uuid: string, path: string, io: UploadIo)
    requires Invariant(st) && size > 0 && io.ledgerOk
    ensures Invariant(UploadFile(st, noteId, user, filename, size, contentType, uuid, path, io).0)
  {
    var out := UploadFile(st, noteId, user, filename, size, contentType, uuid, path, io);
    if out.1.Ok? {
      var a := out.1.value;
      forall u
        ensures ConsistentFor(out.0, u)
      {
        assert ConsistentFor(st, u);
        UploadStep(st.ledger, st.attachments, st.notes, a, user, u);
      }
      AppendKeepsShape(st.attachments, st.nextId, a);
    } else {
      forall u
        ensures ConsistentFor(out.0, u)
      {
        assert ConsistentFor(st, u);
      }
    }
  }

  /** A soft delete keeps the invariant, whatever the sizes. */
  lemma DeleteKeepsConsistency(st: Store, id: Id, user: Id)
    requires Invariant(st)
    ensures DeleteAttachment(st, id, user).Ok? ==> Invariant(DeleteAttachment(st, id, user).value)
  {
    var r := DeleteAttachment(st, id, user);
    if r.Ok? {
      var i := FindRow(st.attachments, st.notes, id, Some(user), false).value;
      forall u
        ensures ConsistentFor(r.value, u)
      {
        assert ConsistentFor(st, u);
        DeleteStep(st.ledger, st.attachments, st.notes, i, user, u);
      }
      UpdateKeepsShape(st.attachments, st.nextId, i, st.attachments[i].(deleted := true));
    }
  }

  /** A restore keeps the invariant: it is here that every size must be positive. */
  lemma RestoreKeepsConsistency(st: Store, id: Id, user: Id)
    requires Invariant(st)
    ensures RestoreAttachment(st, id, user).Ok? ==> Invariant(RestoreAttachment(st, id, user).value)
  {
    var r := RestoreAttachment(st, id, user);
    if r.Ok? {
      var i := FindRow(st.attachments, st.notes, id, Some(user), true).value;
      forall u
        ensures ConsistentFor(r.value, u)
      {
        assert ConsistentFor(st, u);
        RestoreStep(st.ledger, st.attachments, st.notes, i, user, u);
      }
      UpdateKeepsShape(st.attachments, st.nextId, i, st.attachments[i].(deleted := false));
    }
  }

  /** A permanent delete removes only a soft-deleted row, which no total counts. */
  lemma PurgeKeepsConsistency(st: Store, id: Id, removeOk: bool)
    requires Invariant(st)
    ensures PermanentlyDeleteAttachment(st, id, removeOk).Ok? ==> Invariant(PermanentlyDeleteAttachment(st, id, removeOk).value)
  {
    var r := PermanentlyDeleteAttachment(st, id, removeOk);
    if r.Ok? {
      var i := FindRow(st.attachments, st.notes, id, None, true).value;
      forall u
        ensures ConsistentFor(r.value, u)
      {
        assert ConsistentFor(st, u);
        PurgeStep(st.attachments, st.notes, i, u);
      }
      RemoveKeepsShape(st.attachments, st.nextId, i);
    }
  }

  /** The lifecycle operations a user or an operator can invoke. */
  datatype Op =
    | Upload(noteId: Id, user: Id, filename: string, size: nat, contentType: string, uuid: string, path: string, io: UploadIo)
    | Delete(id: Id, user: Id)
    | Restore(id: Id, user: Id)
    | Purge(id: Id, removeOk: bool)

  /** One operation; a failed operation leaves the tables as its error path does. */
  function Apply(st: Store, op: Op): Store {
    match op
    case Upload(n, u, f, s, c, id, p, io) => UploadFile(st, n, u, f, s, c, id, p, io).0
    case Delete(id, u) => DeleteAttachment(st, id, u).GetOr(st)
    case Restore(id, u) => RestoreAttachment(st, id, u).GetOr(st)
    case Purge(id, ok) => PermanentlyDeleteAttachment(st, id, ok).GetOr(st)
  }

  function Run(st: Store, ops: seq<Op>): Store
    decreases |ops|
  {
    if |ops| == 0 then st else Run(Apply(st, ops[0]), ops[1..])
  }

  /** The uploads the invariant tolerates: a positive size and a committed ledger step. */
  predicate Admissible(op: Op) {
    op.Upload? ==> op.size > 0 && op.io.ledgerOk
  }

  /**
   * Any sequence of uploads, deletes, restores and permanent deletes keeps every user's
   * ledger equal to the recalculated totals, provided every upload has a positive size and
   * its ledger step commits.
   */
  lemma {:induction false} RunKeepsConsistency(st: Store, ops: seq<Op>)
    requires Invariant(st)
    requires forall k :: 0 <= k < |ops| ==> Admissible(ops[k])
    ensures Invariant(Run(st, ops))
    decreases |ops|
  {
    if |ops| > 0 {
      var op := ops[0];
      match op {
        case Upload(n, u, f, s, c, id, p, io) => UploadKeepsConsistency(st, n, u, f, s, c, id, p, io);
        case Delete(id, u) => DeleteKeepsConsistency(st, id, u);
        case Restore(id, u) => RestoreKeepsConsistency(st, id, u);
        case Purge(id, ok) => PurgeKeepsConsistency(st, id, ok);
      }
      RunKeepsConsistency(Apply(st, op), ops[1..]);
    }
  }

  /**
   * A zero-byte upload breaks the ledger: the step reads a zero delta as a removal, so the
   * file counter goes down (or stays at zero) while the recalculated count goes up.
   */
  lemma ZeroByteUploadBreaksConsistency(st: Store, noteId: Id, user: Id, filename: string, contentType: string,
                                        uuid: string, path: string, io: UploadIo)
    requires ConsistentFor(st, user) && io.ledgerOk
    requires UploadFile(st, noteId, user, filename, 0, contentType, uuid, path, io).1.Ok?
    ensures !ConsistentFor(UploadFile(st, noteId, user, filename, 0, contentType, uuid, path, io).0, user)
  {
    var out := UploadFile(st, noteId, user, filename, 0, contentType, uuid, path, io);
    var a, t := out.1.value, Totals(st.attachments, st.notes, user);
    assert Totals(out.0.attachments, out.0.notes, user).files == t.files + 1 by {
      TotalsAppend(st.attachments, a, st.notes, user);
      ContributionOfLive(a, st.notes, user, user);
    }
    assert Row(out.0.ledger, user).files == Floor0(t.files - 1);
  }

  /** An upload whose ledger transaction fails still succeeds, and the ledger misses the file. */
  lemma LedgerFailureBreaksConsistency(st: Store, noteId: Id, user: Id, filename: string, size: nat, contentType: string,
                                       uuid: string, path: string, io: UploadIo)
    requires ConsistentFor(st, user) && !io.ledgerOk
    requires UploadFile(st, noteId, user, filename, size, contentType, uuid, path, io).1.Ok?
    ensures !ConsistentFor(UploadFile(st, noteId, user, filename, size, contentType, uuid, path, io).0, user)
  {
    var out := UploadFile(st, noteId, user, filename, size, contentType, uuid, path, io);
    var a, t := out.1.value, Totals(st.attachments, st.notes, user);
    assert Totals(out.0.attachments, out.0.notes, user).files == t.files + 1 by {
      TotalsAppend(st.attachments, a, st.notes, user);
      ContributionOfLive(a, st.notes, user, user);
    }
  }

  /**
   * `DeleteNote` breaks the ledger: it soft-deletes the note's attachments without releasing
   * their bytes, so a note holding a live attachment of positive size leaves its owner's
   * ledger above the recalculated total.
   */
  lemma DeleteNoteBreaksConsistency(db: NoteDb, noteId: Id, user: Id, i: nat)
    requires ConsistentFor(db.store, user)
    requires OwnsNote(db.store.notes, noteId, user)
    requires i < |db.store.attachments| && db.store.attachments[i].noteId == noteId
    requires !db.store.attachments[i].deleted && db.store.attachments[i].size > 0
    ensures !ConsistentFor(DeleteNote(db, noteId, user).value.store, user)
  {
    var after := DeleteNote(db, noteId, user).value.store;
    var rows, notes := db.store.attachments, db.store.notes;
    var rows' := after.attachments;
    assert Totals(rows', after.notes, user) == Totals(rows', notes, user) by {
      TotalsSameOwners(rows', notes, after.notes, user);
    }
    assert Totals(rows', notes, user).used < Totals(rows, notes, user).used by {
      forall k | 0 <= k < |rows|
        ensures Contribution(rows'[k], notes, user).used <= Contribution(rows[k], notes, user).used
      {
        if rows[k].noteId == noteId {
          ContributionOfDeleted(rows'[k], notes, user);
        }
      }
      ContributionOfDeleted(rows'[i], notes, user);
      ContributionOfLive(rows[i], notes, user, user);
      TotalsShrinkStrictly(rows, rows', notes, user, i);
    }
  }

  /** The evidently intended recalculation makes the user's row consistent and touches no other row. */
  lemma ReconcileRepairs(st: Store, user: Id)
    ensures ConsistentFor(Reconcile(st, user), user)
    ensures forall u :: u != user && ConsistentFor(st, u) ==> ConsistentFor(Reconcile(st, user), u)
    ensures Reconcile(Reconcile(st, user), user) == Reconcile(st, user)
  {
  }

  /**
   * After a note deletion, recalculating the owner's row restores consistency for every user:
   * the deletion changed no other user's totals.
   */
  lemma ReconcileRepairsDeleteNote(db: NoteDb, noteId: Id, user: Id)
    requires Consistent(db.store)
    requires OwnsNote(db.store.notes, noteId, user)
    ensures Consistent(Reconcile(DeleteNote(db, noteId, user).value.store, user))
  {
    var after := DeleteNote(db, noteId, user).value.store;
    var fixed := Reconcile(after, user);
    var rows, notes := db.store.attachments, db.store.notes;
    forall u
      ensures ConsistentFor(fixed, u)
    {
      if u != user {
        assert ConsistentFor(db.store, u);
        assert Totals(after.attachments, after.notes, u) == Totals(after.attachments, notes, u) by {
          TotalsSameOwners(after.attachments, notes, after.notes, u);
        }
        assert Totals(after.attachments, notes, u) == Totals(rows, notes, u) by {
          forall k | 0 <= k < |rows|
            ensures Contribution(after.attachments[k], notes, u) == Contribution(rows[k], notes, u)
          {
            if rows[k].noteId == noteId {
              ContributionOfDeleted(after.attachments[k], notes, u);
            }
          }
          TotalsPointwise(rows, after.attachments, notes, u);
        }
      }
    }
  }

  /**
   * The recalculation as written cannot repair a ledger whose true byte total is zero: the
   * zero is skipped by the struct update, so a stale positive value survives.
   */
  lemma RecalculateKeepsStaleBytes(st: Store, user: Id)
    requires user in st.ledger && st.ledger[user].used > 0
    requires Totals(st.attachments, st.notes, user).used == 0
    ensures !ConsistentFor(RecalculateUserStorage(st, user), user)
  {
  }

  /** The recalculation as written does repair a row when every computed total is non-zero. */
  lemma RecalculateRepairsNonZeroTotals(st: Store, user: Id)
    requires user in st.ledger
    requires var t := Totals(st.attachments, st.notes, user); t.used != 0 && t.images != 0 && t.documents != 0
    ensures ConsistentFor(RecalculateUserStorage(st, user), user)
  {
  }

  /** Running the recalculation as written twice gives what running it once gives. */
  lemma RecalculateIdempotent(st: Store, user: Id)
    ensures RecalculateUserStorage(RecalculateUserStorage(st, user), user) == RecalculateUserStorage(st, user)
  {
  }

  /**
   * Soft delete followed by restore of the same attachment returns the tables exactly to
   * where they were, when the release was not clamped and ids are unique.
   */
  lemma DeleteThenRestore(st: Store, id: Id, user: Id)
    requires IdsFresh(st.attachments, st.nextId) && user in st.ledger
    requires DeleteAttachment(st, id, user).Ok?
    requires var a := st.attachments[FindRow(st.attachments, st.notes, id, Some(user), false).value];
             && a.size > 0 && st.ledger[user].used >= a.size && st.ledger[user].files >= 1
             && (if a.isImage then st.ledger[user].images >= 1 else st.ledger[user].documents >= 1)
    ensures RestoreAttachment(DeleteAttachment(st, id, user).value, id, user) == Ok(st)
  {
    var i := FindRow(st.attachments, st.notes, id, Some(user), false).value;
    var a := st.attachments[i];
    var mid := DeleteAttachment(st, id, user).value;
    assert Matches(mid.attachments[i], mid.notes, id, Some(user), true);
    var j := FindRow(mid.attachments, mid.notes, id, Some(user), true).value;
    assert j == i;
    assert mid.attachments[i := a] == st.attachments;
    ReleaseThenCharge(st.ledger, user, a.size, a.isImage);
  }
}

=== FILE: ledger.dfy ===
/**
 * The per-user storage ledger of `file_service.go`: the quota admission test
 * (`CheckUserStorage`) and the in-transaction ledger step (`updateUserStorageInTx`).
 */
module Ledger {
  import opened Wrappers
  import opened Models

  type Ledgers = map<Id, UserStorage>

  datatype LedgerError = StorageRecordNotFound

  /** The row of `user`, or the zeroed row the ledger step creates when none exists. */
  function Row(ledger: Ledgers, user: Id): UserStorage {
    if user in ledger then ledger[user] else EmptyStorage()
  }

  /** SQL `GREATEST(x, 0)`. */
  function Floor0(x: int): int {
    if x < 0 then 0 else x
  }

  predicate NonNegative(s: UserStorage) {
    s.used >= 0 && s.files >= 0 && s.images >= 0 && s.documents >= 0
  }

  /**
   * `updateUserStorageInTx`: create a zeroed row if the user has none, set the used bytes
   * to `GREATEST(used + delta, 0)`, and move the file counter and the image or document
   * counter by one: up when `delta > 0`, down (floored at zero) otherwise, a zero delta
   * included. No other user's row changes.
   */
  function UpdateUserStorage(ledger: Ledgers, user: Id, delta: int, isImage: bool): (r: Ledgers)
    ensures user in r && r.Keys == ledger.Keys + {user}
    ensures forall u :: u in ledger && u != user ==> r[u] == ledger[u]
    ensures r[user].used >= 0
    ensures Row(ledger, user).used + delta >= 0 ==> r[user].used == Row(ledger, user).used + delta
    ensures Row(ledger, user).used + delta < 0 ==> r[user].used == 0
    ensures delta > 0 ==>
      && r[user].files == Row(ledger, user).files + 1
      && r[user].images == Row(ledger, user).images + (if isImage then 1 else 0)
      && r[user].documents == Row(ledger, user).documents + (if isImage then 0 else 1)
    ensures delta <= 0 ==>
      && r[user].files == Floor0(Row(ledger, user).files - 1)
      && r[user].images == (if isImage then Floor0(Row(ledger, user).images - 1) else Row(ledger, user).images)
      && r[user].documents == (if isImage then Row(ledger, user).documents else Floor0(Row(ledger, user).documents - 1))
  {
    var row := Row(ledger, user);
    var used := Floor0(row.used + delta);
    var next :=
      if delta > 0 then
        if isImage then row.(used := used, files := row.files + 1, images := row.images + 1)
        else row.(used := used, files := row.files + 1, documents := row.documents + 1)
      else
        if isImage then row.(used := used, files := Floor0(row.files - 1), images := Floor0(row.images - 1))
        else row.(used := used, files := Floor0(row.files - 1), documents := Floor0(row.documents - 1));
    ledger[user := next]
  }

  /** Every ledger step keeps a non-negative row non-negative. */
  lemma StepKeepsNonNegative(ledger: Ledgers, user: Id, delta: int, isImage: bool)
    requires NonNegative(Row(ledger, user))
    ensures NonNegative(UpdateUserStorage(ledger, user, delta, isImage)[user])
  {
  }

  /**
   * Releasing `size` bytes and then charging them again restores the user's row exactly
   * when the release was not clamped: the row held at least `size` bytes and at least one
   * file of the kind. A clamped byte count or counter comes back too high.
   */
  lemma ReleaseThenCharge(ledger: Ledgers, user: Id, size: int, isImage: bool)
    requires user in ledger && size > 0
    ensures UpdateUserStorage(UpdateUserStorage(ledger, user, -size, isImage), user, size, isImage) == ledger
        <==> (&& ledger[user].used >= size && ledger[user].files >= 1
              && (if isImage then ledger[user].images >= 1 else ledger[user].documents >= 1))
  {
    var once := UpdateUserStorage(ledger, user, -size, isImage);
    var twice := UpdateUserStorage(once, user, size, isImage);
    var row := ledger[user];
    if row.used >= size && row.files >= 1 && (if isImage then row.images >= 1 else row.documents >= 1) {
      assert twice[user] == row;
      assert twice.Keys == ledger.Keys;
    } else if row.used < size {
      assert twice[user].used == size;
    } else if row.files < 1 {
      assert twice[user].files == 1;
    } else if isImage {
      assert twice[user].images == 1;
    } else {
      assert twice[user].documents == 1;
    }
  }

  /**
   * `CheckUserStorage`: an error when the user has no ledger row; otherwise whether the
   * used bytes plus the candidate size stay within the quota, equality admitted.
   */
  function CheckUserStorage(ledger: Ledgers, maxStorage: int, user: Id, size: int): (r: Result<bool, LedgerError>)
    ensures r.Err? <==> user !in ledger
    ensures r.Ok? ==> (r.value <==> ledger[user].used + size <= maxStorage)
  {
    if user !in ledger then Err(StorageRecordNotFound)
    else Ok(ledger[user].used + size <= maxStorage)
  }
}

=== FILE: lifecycle.dfy ===
/**
 * The attachment lifecycle of `file_service.go`: upload, soft delete, restore, permanent
 * delete, listing and ledger recalculation, as pure transitions over an in-memory image
 * of the database (notes, attachments, ledger rows) and of the upload directory (a set of
 * stored paths).
 */
module Files {
  import opened Wrappers
  import opened Text
  import opened Models
  import opened Ledger
  import opened Accounting

  /** The tables and the file store one lifecycle operation reads and writes. */
  datatype Store = Store(
    notes: map<Id, Note>,
    attachments: seq<Attachment>,
    ledger: Ledgers,
    blobs: set<string>,
    nextId: Id)

  datatype FileError =
    | NoteNotFoundOrForbidden
    | DirectoryFailed
    | FileCreateFailed
    | FileCopyFailed
    | RecordFailed
    | AttachmentNotFoundOrForbidden
    | RecordNotFound

  /** How writing the uploaded bytes to disk went (`MkdirAll`, `os.Create`, `io.Copy`). */
  datatype WriteOutcome = Written | MkdirFailed | CreateFailed | CopyFailed

  /** The outcomes of the steps of an upload that the model does not compute. */
  datatype UploadIo = UploadIo(write: WriteOutcome, recordOk: bool, removeOk: bool, ledgerOk: bool)

  /** The image extensions `FileService.isImageType` hard-codes (the configured list is not consulted). */
  function ImageTypes(): seq<string> {
    ["jpg", "jpeg", "png", "gif", "webp"]
  }

  /**
   * `isImageType`: one of five lower-case extensions, compared exactly. The callers pass
   * the lower-cased extension, so an upper-case spelling never reaches the comparison.
   */
  function IsImageType(ext: string): (r: bool)
    ensures r <==> ext in {"jpg", "jpeg", "png", "gif", "webp"}
    ensures r ==> !HasUpper(ext) && 3 <= |ext| <= 4
  {
    ext in ImageTypes()
  }

  /** The note lookup of `UploadFile`: the note exists, is not soft-deleted and belongs to the caller. */
  predicate OwnsNote(notes: map<Id, Note>, noteId: Id, user: Id) {
    noteId in notes && notes[noteId].owner == user && !notes[noteId].deleted
  }

  /**
   * The attachment query of delete, restore and permanent delete: the id, the soft-delete
   * state, and, when `owner` is given, the join through the note's owner (the join reads
   * the raw notes table, so a soft-deleted note still joins).
   */
  predicate Matches(a: Attachment, notes: map<Id, Note>, id: Id, owner: Option<Id>, deleted: bool) {
    && a.id == id
    && a.deleted == deleted
    && (owner.Some? ==> a.noteId in notes && notes[a.noteId].owner == owner.value)
  }

  /** `First(&attachment)`: the first matching row. */
  function FindRow(rows: seq<Attachment>, notes: map<Id, Note>, id: Id, owner: Option<Id>, deleted: bool): (r: Option<nat>)
    ensures r.Some? ==> r.value < |rows| && Matches(rows[r.value], notes, id, owner, deleted)
    ensures r.Some? ==> forall j :: 0 <= j < r.value ==> !Matches(rows[j], notes, id, owner, deleted)
    ensures r.None? ==> forall j :: 0 <= j < |rows| ==> !Matches(rows[j], notes, id, owner, deleted)
  {
    if |rows| == 0 then None
    else if Matches(rows[0], notes, id, owner, deleted) then Some(0)
    else match FindRow(rows[1..], notes, id, owner, deleted)
      case None => None
      case Some(k) => Some(k + 1)
  }

  /** The row `UploadFile` inserts. */
  function NewAttachment(st: Store, noteId: Id, filename: string, size: nat, contentType: string, uuid: string, path: string): (a: Attachment)
    ensures a.id == st.nextId && a.noteId == noteId && a.size == size && !a.deleted
    ensures a.originalFilename == filename && a.filename == uuid + Ext(filename) && a.path == path
    ensures a.fileType == ToLower(TrimDot(Ext(filename)))
    ensures a.isImage <==> a.fileType in ImageTypes()
  {
    var ext := ToLower(TrimDot(Ext(filename)));
    Attachment(st.nextId, noteId, uuid + Ext(filename), filename, path, size, ext, contentType, IsImageType(ext), false)
  }

  /**
   * `UploadFile`. Fails with no change unless the note is the caller's. A failed directory
   * or file creation writes nothing; a failed copy leaves the created file behind. A failed
   * insert removes the written file (if that removal works) and leaves the ledger alone.
   * On success the row is appended and the ledger is charged the declared size in a
   * separate transaction whose failure is ignored: the upload succeeds either way.
   */
  function UploadFile(st: Store, noteId: Id, user: Id, filename: string, size: nat, contentType: string,
                      uuid: string, path: string, io: UploadIo): (out: (Store, Result<Attachment, FileError>))
    ensures !OwnsNote(st.notes, noteId, user) ==> out == (st, Err(NoteNotFoundOrForbidden))
    ensures out.1.Ok? <==> OwnsNote(st.notes, noteId, user) && io.write == Written && io.recordOk
    ensures out.0.notes == st.notes
    ensures out.1.Err? ==> out.0.attachments == st.attachments && out.0.ledger == st.ledger && out.0.nextId == st.nextId
    ensures out.1.Err? && io.write == CopyFailed && OwnsNote(st.notes, noteId, user) ==> out.0.blobs == st.blobs + {path}
    ensures out.1.Err? && io.write in {MkdirFailed, CreateFailed} ==> out.0.blobs == st.blobs
    ensures out.1.Err? && io.write == Written && OwnsNote(st.notes, noteId, user) ==>
      out.0.blobs == if io.removeOk then st.blobs - {path} else st.blobs + {path}
    ensures out.1.Ok? ==>
      && out.1.value == NewAttachment(st, noteId, filename, size, contentType, uuid, path)
      && out.0.attachments == st.attachments + [out.1.value]
      && out.0.blobs == st.blobs + {path}
      && out.0.nextId == st.nextId + 1
      && out.0.ledger == if io.ledgerOk then UpdateUserStorage(st.ledger, user, size, out.1.value.isImage) else st.ledger
  {
    if !OwnsNote(st.notes, noteId, user) then (st, Err(NoteNotFoundOrForbidden))
    else match io.write
      case MkdirFailed => (st, Err(DirectoryFailed))
      case CreateFailed => (st, Err(FileCreateFailed))
      case CopyFailed => (st.(blobs := st.blobs + {path}), Err(FileCopyFailed))
      case Written =>
        var written := st.blobs + {path};
        if !io.recordOk then
          (st.(blobs := if io.removeOk then written - {path} else written), Err(RecordFailed))
        else
          var a := NewAttachment(st, noteId, filename, size, contentType, uuid, path);
          var ledger := if io.ledgerOk then UpdateUserStorage(st.ledger, user, size, a.isImage) else st.ledger;
          (st.(attachments := st.attachments + [a], blobs := written, ledger := ledger, nextId := st.nextId + 1), Ok(a))
  }

  /**
   * `DeleteAttachment`: soft-deletes the caller's first live row with this id and releases
   * its size from the caller's ledger row in the same transaction. The stored file stays.
   */
  function DeleteAttachment(st: Store, id: Id, user: Id): (r: Result<Store, FileError>)
    ensures r.Err? <==> forall j :: 0 <= j < |st.attachments| ==> !Matches(st.attachments[j], st.notes, id, Some(user), false)
    ensures r.Err? ==> r.error == AttachmentNotFoundOrForbidden
    ensures r.Ok? ==>
      var i := FindRow(st.attachments, st.notes, id, Some(user), false).value;
      var a := st.attachments[i];
      && r.value.attachments == st.attachments[i := a.(deleted := true)]
      && r.value.ledger == UpdateUserStorage(st.ledger, user, 0 - a.size, a.isImage)
      && r.value.blobs == st.blobs && r.value.notes == st.notes && r.value.nextId == st.nextId
  {
    match FindRow(st.attachments, st.notes, id, Some(user), false)
    case None => Err(AttachmentNotFoundOrForbidden)
    case Some(i) =>
      var a := st.attachments[i];
      Ok(st.(attachments := st.attachments[i := a.(deleted := true)],
             ledger := UpdateUserStorage(st.ledger, user, 0 - a.size, a.isImage)))
  }

  /**
   * `RestoreAttachment`: clears the soft-delete mark of the caller's first deleted row with
   * this id and charges its size back to the caller's ledger row.
   */
  function RestoreAttachment(st: Store, id: Id, user: Id): (r: Result<Store, FileError>)
    ensures r.Err? <==> forall j :: 0 <= j < |st.attachments| ==> !Matches(st.attachments[j], st.notes, id, Some(user), true)
    ensures r.Err? ==> r.error == AttachmentNotFoundOrForbidden
    ensures r.Ok? ==>
      var i := FindRow(st.attachments, st.notes, id, Some(user), true).value;
      var a := st.attachments[i];
      && r.value.attachments == st.attachments[i := a.(deleted := false)]
      && r.value.ledger == UpdateUserStorage(st.ledger, user, a.size, a.isImage)
      && r.value.blobs == st.blobs && r.value.notes == st.notes && r.value.nextId == st.nextId
  {
    match FindRow(st.attachments, st.notes, id, Some(user), true)
    case None => Err(AttachmentNotFoundOrForbidden)
    case Some(i) =>
      var a := st.attachments[i];
      Ok(st.(attachments := st.attachments[i := a.(deleted := false)],
             ledger := UpdateUserStorage(st.ledger, user, a.size, a.isImage)))
  }

  /**
   * `PermanentlyDeleteAttachment`: only a soft-deleted row qualifies, whoever owns it. The
   * stored file is removed when removal works; the row goes regardless; the ledger is not
   * touched.
   */
  function PermanentlyDeleteAttachment(st: Store, id: Id, removeOk: bool): (r: Result<Store, FileError>)
    ensures r.Err? <==> forall j :: 0 <= j < |st.attachments| ==> !Matches(st.attachments[j], st.notes, id, None, true)
    ensures r.Err? ==> r.error == RecordNotFound
    ensures r.Ok? ==>
      var i := FindRow(st.attachments, st.notes, id, None, true).value;
      && st.attachments[i].deleted
      && r.value.attachments == st.attachments[..i] + st.attachments[i + 1..]
      && r.value.blobs == (if removeOk then st.blobs - {st.attachments[i].path} else st.blobs)
      && r.value.ledger == st.ledger && r.value.notes == st.notes && r.value.nextId == st.nextId
  {
    match FindRow(st.attachments, st.notes, id, None, true)
    case None => Err(RecordNotFound)
    case Some(i) =>
      var a := st.attachments[i];
      Ok(st.(attachments := st.attachments[..i] + st.attachments[i + 1..],
             blobs := if removeOk then st.blobs - {a.path} else st.blobs))
  }

  predicate Listed(a: Attachment, notes: map<Id, Note>, noteId: Id, user: Id) {
    a.noteId == noteId && !a.deleted && noteId in notes && notes[noteId].owner == user
  }

  /** `GetAttachments`: the live rows of the note when the caller owns the note. */
  function GetAttachments(rows: seq<Attachment>, notes: map<Id, Note>, noteId: Id, user: Id): (r: seq<Attachment>)
    ensures forall a :: a in r <==> a in rows && Listed(a, notes, noteId, user)
    ensures |r| <= |rows|
  {
    if |rows| == 0 then []
    else
      var rest := GetAttachments(rows[1..], notes, noteId, user);
      if Listed(rows[0], notes, noteId, user) then [rows[0]] + rest else rest
  }

  /** A GORM `Updates(&struct)` column write: a zero value is skipped and the old value stays. */
  function NonZeroOr(computed: int, current: int): int {
    if computed != 0 then computed else current
  }

  /**
   * `RecalculateUserStorage` as written: the totals of the user's live attachments are
   * written with `Updates(&struct)`, which skips zero-valued fields and creates no row.
   */
  function RecalculateUserStorage(st: Store, user: Id): (r: Store)
    ensures r.notes == st.notes && r.attachments == st.attachments && r.blobs == st.blobs && r.nextId == st.nextId
    ensures r.ledger.Keys == st.ledger.Keys
    ensures forall u :: u in st.ledger && u != user ==> r.ledger[u] == st.ledger[u]
    ensures user in st.ledger ==>
      var t, before, after := Totals(st.attachments, st.notes, user), st.ledger[user], r.ledger[user];
      && (t.used != 0 ==> after.used == t.used) && (t.used == 0 ==> after.used == before.used)
      && (t.files != 0 ==> after.files == t.files) && (t.files == 0 ==> after.files == before.files)
      && (t.images != 0 ==> after.images == t.images) && (t.images == 0 ==> after.images == before.images)
      && (t.documents != 0 ==> after.documents == t.documents) && (t.documents == 0 ==> after.documents == before.documents)
  {
    if user !in st.ledger then st
    else
      var t, before := Totals(st.attachments, st.notes, user), st.ledger[user];
      var row := UserStorage(NonZeroOr(t.used, before.used), NonZeroOr(t.files, before.files),
                             NonZeroOr(t.images, before.images), NonZeroOr(t.documents, before.documents));
      st.(ledger := st.ledger[user := row])
  }

  /**
   * The recalculation the code evidently intends ("update or create the storage record"):
   * an upsert that overwrites every column with the computed totals.
   */
  function Reconcile(st: Store, user: Id): (r: Store)
    ensures r.notes == st.notes && r.attachments == st.attachments && r.blobs == st.blobs && r.nextId == st.nextId
    ensures r.ledger.Keys == st.ledger.Keys + {user}
    ensures forall u :: u in st.ledger && u != user ==> r.ledger[u] == st.ledger[u]
    ensures r.ledger[user].used == Totals(st.attachments, st.notes, user).used
    ensures r.ledger[user].files == r.ledger[user].images + r.ledger[user].documents
    ensures Row(r.ledger, user) == Totals(r.attachments, r.notes, user)
  {
    st.(ledger := st.ledger[user := Totals(st.attachments, st.notes, user)])
  }
}

=== FILE: models.dfy ===
/**
 * The persisted entities, reduced to the columns the modelled rules read or write.
 * Identifiers are database keys; times are integer seconds; a soft-deleted row
 * (GORM's `deleted_at IS NOT NULL`) carries `deleted == true`.
 */
module Models {
  import opened Wrappers

  type Id = nat

  /** A note: owner, optional category, visibility, view counter, soft-delete mark. */
  datatype Note = Note(owner: Id, categoryId: Option<Id>, isPublic: bool, viewCount: int, deleted: bool)

  /** One uploaded file bound to a note. `size` is the byte count declared by the upload. */
  datatype Attachment = Attachment(
    id: Id,
    noteId: Id,
    filename: string,
    originalFilename: string,
    path: string,
    size: nat,
    fileType: string,
    mimeType: string,
    isImage: bool,
    deleted: bool)

  /** The per-user storage ledger row (`user_storage`). */
  datatype UserStorage = UserStorage(used: int, files: int, images: int, documents: int)

  /** The zeroed row a new account, or a missing row, stands for. */
  function EmptyStorage(): UserStorage {
    UserStorage(0, 0, 0, 0)
  }

  /** A public share link of a note; `expireTime` and `password` are nullable columns. */
  datatype ShareLink = ShareLink(
    id: Id,
    noteId: Id,
    code: string,
    password: Option<string>,
    expireTime: Option<int>,
    visitCount: int,
    active: bool)

  /** One recorded view of a note. */
  datatype Visit = Visit(noteId: Id, viewerId: Option<Id>, ip: string, userAgent: string, hash: string, visitedAt: int)

  datatype Category = Category(owner: Id, name: string, parentId: Option<Id>, sortOrder: int, description: Option<string>)

  datatype Tag = Tag(owner: Id, name: string, color: string, deleted: bool)

  datatype User = User(id: Id, username: string, email: string, passwordHash: string, role: string, isActive: bool)
}

=== FILE: note_query.dfy ===
/**
 * The list query of `internal/handlers/note.go`: the defaults and the cap the handler
 * applies to page, limit, sort and order before the note service builds its query.
 */
module NoteQuery {
  import opened Wrappers
  import Notes

  /** The part of `NoteListRequest` the handler normalises. */
  datatype ListQuery = ListQuery(page: int, limit: int, sort: string, order: string)

  const DefaultLimit: int := 20
  const MaxLimit: int := 100

  /** The columns and directions the request type declares in its `oneof` rules. */
  const SortColumns: seq<string> := ["created_at", "updated_at", "title", "view_count"]
  const Orders: seq<string> := ["asc", "desc"]

  /**
   * `GetNotes`: a page below 1 becomes 1; a limit below 1 becomes 20 and one above 100
   * becomes 100; an empty sort becomes "created_at" and an empty order "desc". Nothing
   * else is checked.
   */
  function Normalize(q: ListQuery): (r: ListQuery)
    ensures r.page >= 1 && 1 <= r.limit <= MaxLimit && r.sort != "" && r.order != ""
    ensures q.page >= 1 ==> r.page == q.page
    ensures 1 <= q.limit <= MaxLimit ==> r.limit == q.limit
    ensures q.limit > MaxLimit ==> r.limit == MaxLimit
    ensures q.limit < 1 ==> r.limit == DefaultLimit
    ensures q.sort != "" ==> r.sort == q.sort
    ensures q.order != "" ==> r.order == q.order
    ensures q.page < 1 ==> r.page == 1
    ensures q.sort == "" ==> r.sort == "created_at"
    ensures q.order == "" ==> r.order == "desc"
  {
    ListQuery(
      if q.page <= 0 then 1 else q.page,
      if q.limit <= 0 then DefaultLimit else if q.limit > MaxLimit then MaxLimit else q.limit,
      if q.sort == "" then "created_at" else q.sort,
      if q.order == "" then "desc" else q.order)
  }

  /** Normalising twice is normalising once. */
  lemma NormalizeIdempotent(q: ListQuery)
    ensures Normalize(Normalize(q)) == Normalize(q)
  {
  }

  /**
   * After normalising, the paging arithmetic is always defined: the skipped rows end
   * where the page begins, and the page count covers every row.
   */
  lemma NormalizedPaging(q: ListQuery, total: nat)
    ensures var r := Normalize(q);
      && Notes.Offset(r.page, r.limit) + r.limit == r.page * r.limit
      && Notes.PageCount(total, r.limit) * r.limit >= total
  {
  }

  /** An empty query lists the newest notes first, twenty to a page. */
  lemma EmptyQueryIsNewestFirst()
    ensures var r := Normalize(ListQuery(0, 0, "", ""));
      Notes.OrderClause(r.sort, r.order) == "created_at DESC" && r.limit == DefaultLimit
  {
  }

  /**
   * The sort value is never compared with the declared columns, so any text at all
   * reaches the head of the order clause the note service hands to the database.
   */
  lemma AnySortReachesOrderClause(q: ListQuery)
    requires q.sort != ""
    ensures var r := Normalize(q);
      && r.sort == q.sort
      && Notes.OrderClause(r.sort, r.order)[..|q.sort|] == q.sort
  {
  }

  /** The same, for a sort value that is a second SQL statement rather than a column. */
  lemma InjectedSortIsAccepted()
    ensures var q := ListQuery(1, 20, "id; DROP TABLE notes; --", "asc");
      && q.sort !in SortColumns
      && Notes.OrderClause(Normalize(q).sort, Normalize(q).order) == "id; DROP TABLE notes; -- ASC"
  {
  }

  datatype QueryError = UnknownSortColumn(sort: string) | UnknownOrder(order: string)

  /**
   * The normalisation followed by the `oneof` rules the request type declares for sort
   * and order: only the four listed columns and the two directions pass.
   */
  function NormalizeChecked(q: ListQuery): (r: Result<ListQuery, QueryError>)
    ensures r.Ok? <==> Normalize(q).sort in SortColumns && Normalize(q).order in Orders
    ensures r.Ok? ==> r.value == Normalize(q)
    ensures r.Err? && r.error.UnknownSortColumn? ==> r.error.sort == q.sort && q.sort !in SortColumns
  {
    var n := Normalize(q);
    if n.sort !in SortColumns then Err(UnknownSortColumn(n.sort))
    else if n.order !in Orders then Err(UnknownOrder(n.order))
    else Ok(n)
  }

  /** Only eight order clauses can come out of a checked query: a listed column and a direction. */
  lemma CheckedOrderClauseIsListed(q: ListQuery)
    requires NormalizeChecked(q).Ok?
    ensures exists i, d ::
      && 0 <= i < |SortColumns| && 0 <= d < 2
      && Notes.OrderClause(NormalizeChecked(q).value.sort, NormalizeChecked(q).value.order)
         == SortColumns[i] + " " + ["ASC", "DESC"][d]
  {
    var r := NormalizeChecked(q).value;
    var i :| 0 <= i < |SortColumns| && SortColumns[i] == r.sort;
    var d := if r.order == "asc" then 0 else 1;
    assert Notes.OrderClause(r.sort, r.order) == SortColumns[i] + " " + ["ASC", "DESC"][d];
  }

  /** A query that passes the checks is normalised exactly as before. */
  lemma CheckedAgreesOnListedColumns(q: ListQuery)
    requires (q.sort == "" || q.sort in SortColumns) && (q.order == "" || q.order in Orders)
    ensures NormalizeChecked(q) == Ok(Normalize(q))
  {
  }
}

=== FILE: notes.dfy ===
/**
 * Note-side rules of `note_service.go`: the delete cascade, hourly view de-duplication,
 * the pagination arithmetic and order clause of the list query, and the note counts of
 * the user statistics.
 */
module Notes {
  import opened Wrappers
  import opened Models
  import opened Files

  /** The tables a note deletion touches: the lifecycle store plus tag links, share links and visits. */
  datatype NoteDb = NoteDb(store: Store, noteTags: set<(Id, Id)>, shareLinks: seq<ShareLink>, visits: seq<Visit>)

  datatype NoteError = NoteMissingOrForbidden | NoteNotFound

  /** The rows of `s` that satisfy `keep`, in order. */
  function Filter<T(!new)>(s: seq<T>, keep: T -> bool): (r: seq<T>)
    ensures forall x :: x in r <==> x in s && keep(x)
    ensures |r| <= |s|
  {
    if |s| == 0 then []
    else if keep(s[0]) then [s[0]] + Filter(s[1..], keep)
    else Filter(s[1..], keep)
  }

  /** `Where("note_id = ?").Delete(&Attachment{})`: a soft delete of every row of the note. */
  function SoftDeleteNoteRows(rows: seq<Attachment>, noteId: Id): (r: seq<Attachment>)
    ensures |r| == |rows|
    ensures forall i :: 0 <= i < |rows| && rows[i].noteId == noteId ==> r[i] == rows[i].(deleted := true)
    ensures forall i :: 0 <= i < |rows| && rows[i].noteId != noteId ==> r[i] == rows[i]
  {
    if |rows| == 0 then []
    else
      var head := if rows[0].noteId == noteId then rows[0].(deleted := true) else rows[0];
      [head] + SoftDeleteNoteRows(rows[1..], noteId)
  }

  /**
   * `DeleteNote`, one transaction: only the owner's live note qualifies; its tag links are
   * cleared, its attachments soft-deleted, its share links and visits removed, and the note
   * soft-deleted. The storage ledger and the stored files are left as they were.
   */
  function DeleteNote(db: NoteDb, noteId: Id, user: Id): (r: Result<NoteDb, NoteError>)
    ensures r.Err? <==> !OwnsNote(db.store.notes, noteId, user)
    ensures r.Err? ==> r.error == NoteMissingOrForbidden
    ensures r.Ok? ==>
      var after := r.value;
      && after.noteTags == (set p | p in db.noteTags && p.0 != noteId)
      && after.store.attachments == SoftDeleteNoteRows(db.store.attachments, noteId)
      && (forall l :: l in after.shareLinks <==> l in db.shareLinks && l.noteId != noteId)
      && (forall v :: v in after.visits <==> v in db.visits && v.noteId != noteId)
      && after.store.notes == db.store.notes[noteId := db.store.notes[noteId].(deleted := true)]
      && after.store.ledger == db.store.ledger
      && after.store.blobs == db.store.blobs
      && after.store.nextId == db.store.nextId
  {
    if !OwnsNote(db.store.notes, noteId, user) then Err(NoteMissingOrForbidden)
    else
      var note := db.store.notes[noteId];
      var store := db.store.(attachments := SoftDeleteNoteRows(db.store.attachments, noteId),
                             notes := db.store.notes[noteId := note.(deleted := true)]);
      Ok(NoteDb(store,
                (set p | p in db.noteTags && p.0 != noteId),
                Filter(db.shareLinks, (l: ShareLink) => l.noteId != noteId),
                Filter(db.visits, (v: Visit) => v.noteId != noteId)))
  }

  /** The de-duplication window of `RecordView`, in seconds. */
  const ViewWindow: int := 3600

  /** A visit that makes a new view of the note a duplicate: same note, IP and hash, within the last hour. */
  predicate Recent(v: Visit, noteId: Id, ip: string, hash: string, now: int) {
    v.noteId == noteId && v.ip == ip && v.visitedAt > now - ViewWindow && v.hash == hash
  }

  /**
   * `RecordView`: a missing note is an error; the owner's own view and a view duplicating a
   * visit of the last hour change nothing; any other view appends one visit and adds one to
   * the note's view counter.
   */
  function RecordView(notes: map<Id, Note>, visits: seq<Visit>, noteId: Id, viewer: Id,
                      ip: string, userAgent: string, hash: string, now: int): (r: Result<(map<Id, Note>, seq<Visit>), NoteError>)
    ensures r.Err? <==> noteId !in notes || notes[noteId].deleted
    ensures r.Ok? && notes[noteId].owner == viewer ==> r.value == (notes, visits)
    ensures r.Ok? && (exists i :: 0 <= i < |visits| && Recent(visits[i], noteId, ip, hash, now)) ==> r.value == (notes, visits)
    ensures r.Ok? && notes[noteId].owner != viewer && (forall i :: 0 <= i < |visits| ==> !Recent(visits[i], noteId, ip, hash, now)) ==>
      && r.value.1 == visits + [Visit(noteId, Some(viewer), ip, userAgent, hash, now)]
      && r.value.0 == notes[noteId := notes[noteId].(viewCount := notes[noteId].viewCount + 1)]
  {
    if noteId !in notes || notes[noteId].deleted then Err(NoteNotFound)
    else
      var note := notes[noteId];
      if note.owner == viewer then Ok((notes, visits))
      else if exists i :: 0 <= i < |visits| && Recent(visits[i], noteId, ip, hash, now) then Ok((notes, visits))
      else
        Ok((notes[noteId := note.(viewCount := note.viewCount + 1)],
            visits + [Visit(noteId, Some(viewer), ip, userAgent, hash, now)]))
  }

  /**
   * A counted view is not counted again within the hour: once a view is recorded at `now`,
   * the same viewer, IP and hash at any time `later` before the hour is over changes nothing.
   */
  lemma ViewCountedOncePerHour(notes: map<Id, Note>, visits: seq<Visit>, noteId: Id, viewer: Id,
                               ip: string, userAgent: string, hash: string, now: int, later: int)
    requires now <= later < now + ViewWindow
    requires noteId in notes && !notes[noteId].deleted && notes[noteId].owner != viewer
    requires forall i :: 0 <= i < |visits| ==> !Recent(visits[i], noteId, ip, hash, now)
    ensures var once := RecordView(notes, visits, noteId, viewer, ip, userAgent, hash, now).value;
            RecordView(once.0, once.1, noteId, viewer, ip, userAgent, hash, later) == Ok(once)
  {
    var once := RecordView(notes, visits, noteId, viewer, ip, userAgent, hash, now).value;
    assert Recent(once.1[|visits|], noteId, ip, hash, later);
  }

  /** `(page - 1) * limit`, the number of rows the list query skips. */
  function Offset(page: int, limit: int): (r: int)
    requires page >= 1 && limit >= 1
    ensures r >= 0
    ensures r + limit == page * limit
  {
    (page - 1) * limit
  }

  /** `math.Ceil(total / limit)` in exact integer arithmetic: the number of pages holding `total` rows. */
  function PageCount(total: nat, limit: int): (pages: nat)
    requires limit >= 1
    ensures pages * limit >= total
    ensures pages > 0 ==> (pages - 1) * limit < total
    ensures pages == 0 <==> total == 0
  {
    (total + limit - 1) / limit
  }

  /**
   * The order clause of `GetNotes`: "created_at DESC" when no sort column is given;
   * otherwise the column, verbatim, followed by ASC exactly when the order is "asc".
   */
  function OrderClause(sort: string, order: string): (r: string)
    ensures sort == "" ==> r == "created_at DESC"
    ensures sort != "" ==> |r| > |sort| && r[..|sort|] == sort
    ensures sort != "" ==> (r[|sort|..] == " ASC" <==> order == "asc")
    ensures sort != "" ==> (r[|sort|..] == " DESC" <==> order != "asc")
  {
    if sort == "" then "created_at DESC"
    else sort + " " + (if order == "asc" then "ASC" else "DESC")
  }

  /** The note counts of `GetUserStats`; soft-deleted notes are not counted. */
  datatype NoteStats = NoteStats(total: nat, publicNotes: nat, privateNotes: nat)

  function OwnedNotes(notes: map<Id, Note>, user: Id): set<Id> {
    set n | n in notes && notes[n].owner == user && !notes[n].deleted
  }

  /** The user's live notes whose `is_public` flag is `isPublic`. */
  function OwnedWithFlag(notes: map<Id, Note>, user: Id, isPublic: bool): set<Id> {
    set n | n in OwnedNotes(notes, user) && notes[n].isPublic == isPublic
  }

  /** `GetUserStats`: the user's live notes, split by `is_public`. */
  function NoteCounts(notes: map<Id, Note>, user: Id): (r: NoteStats)
    ensures r.total == |OwnedNotes(notes, user)|
    ensures r.publicNotes == |OwnedWithFlag(notes, user, true)|
    ensures r.privateNotes == |OwnedWithFlag(notes, user, false)|
    ensures r.publicNotes + r.privateNotes == r.total
  {
    var owned := OwnedNotes(notes, user);
    var pub := OwnedWithFlag(notes, user, true);
    var priv := OwnedWithFlag(notes, user, false);
    assert owned == pub + priv && pub !! priv;
    NoteStats(|owned|, |pub|, |priv|)
  }

  /**
   * Deleting a note takes it out of its owner's counts: the total and the count of its
   * kind drop by one, the other count stays.
   */
  lemma DeleteNoteLowersCounts(db: NoteDb, noteId: Id, user: Id)
    requires DeleteNote(db, noteId, user).Ok?
    ensures var before := NoteCounts(db.store.notes, user);
      var after := NoteCounts(DeleteNote(db, noteId, user).value.store.notes, user);
      && after.total == before.total - 1
      && (db.store.notes[noteId].isPublic ==>
            after.publicNotes == before.publicNotes - 1 && after.privateNotes == before.privateNotes)
      && (!db.store.notes[noteId].isPublic ==>
            after.privateNotes == before.privateNotes - 1 && after.publicNotes == before.publicNotes)
  {
    var m := db.store.notes;
    assert DeleteNote(db, noteId, user).value.store.notes == m[noteId := m[noteId].(deleted := true)];
    SoftDeleteLeavesCounts(m, noteId, user, true);
    SoftDeleteLeavesCounts(m, noteId, user, false);
  }

  /** Soft-deleting an owned live note removes it from exactly the sets it was in. */
  lemma SoftDeleteLeavesCounts(m: map<Id, Note>, noteId: Id, user: Id, isPublic: bool)
    requires noteId in OwnedNotes(m, user)
    ensures var m' := m[noteId := m[noteId].(deleted := true)];
      && |OwnedNotes(m', user)| == |OwnedNotes(m, user)| - 1
      && |OwnedWithFlag(m', user, isPublic)|
         == |OwnedWithFlag(m, user, isPublic)| - (if m[noteId].isPublic == isPublic then 1 else 0)
  {
    var m' := m[noteId := m[noteId].(deleted := true)];
    assert OwnedNotes(m', user) == OwnedNotes(m, user) - {noteId};
    CardRemove(OwnedNotes(m, user), noteId);
    if m[noteId].isPublic == isPublic {
      assert OwnedWithFlag(m', user, isPublic) == OwnedWithFlag(m, user, isPublic) - {noteId};
      CardRemove(OwnedWithFlag(m, user, isPublic), noteId);
    } else {
      assert OwnedWithFlag(m', user, isPublic) == OwnedWithFlag(m, user, isPublic);
    }
  }

  lemma CardRemove<T>(s: set<T>, x: T)
    requires x in s
    ensures |s - {x}| == |s| - 1
  {
    assert s == (s - {x}) + {x};
  }
}

=== FILE: rate_limit.dfy ===
/**
 * The per-IP token buckets of `internal/middleware/rate_limit.go`, with time as an
 * integer count of nanoseconds and the mutexes replaced by sequential calls.
 */
module RateLimit {
  import opened Text

  const Minute: int := 60_000_000_000
  /** Visitors idle for longer than this are dropped by a sweep. */
  const IdleLimit: int := 10 * Minute

  datatype Bucket = Bucket(tokens: int, capacity: int, refillRate: int, lastRefill: int)

  datatype Visitor = Visitor(bucket: Bucket, lastSeen: int)

  type Visitors = map<string, Visitor>

  /** `int(elapsed.Minutes())`: whole minutes, truncated toward zero. */
  function WholeMinutes(elapsed: int): (m: int)
    ensures 0 <= elapsed < Minute ==> m == 0
    ensures elapsed >= Minute ==> m >= 1 && m * Minute <= elapsed < (m + 1) * Minute
    ensures elapsed < 0 ==> m <= 0
  {
    GoDiv(elapsed, Minute)
  }

  predicate Valid(b: Bucket) {
    0 <= b.tokens <= b.capacity
  }

  /**
   * The refill step of `tokenBucket.allow`: whole minutes since the last refill times the
   * rate, capped at capacity. Only a positive addition resets the refill time, so the
   * fractional minute is discarded and a bucket younger than a minute is left alone.
   */
  function Refill(b: Bucket, now: int): (r: Bucket)
    ensures r.capacity == b.capacity && r.refillRate == b.refillRate
    ensures WholeMinutes(now - b.lastRefill) * b.refillRate <= 0 ==> r == b
    ensures WholeMinutes(now - b.lastRefill) * b.refillRate > 0 ==>
      && r.lastRefill == now
      && (b.tokens <= b.capacity ==> r.tokens >= b.tokens)
      && r.tokens <= b.capacity
      && r.tokens <= b.tokens + WholeMinutes(now - b.lastRefill) * b.refillRate
      && (r.tokens == b.capacity || r.tokens == b.tokens + WholeMinutes(now - b.lastRefill) * b.refillRate)
  {
    var add := WholeMinutes(now - b.lastRefill) * b.refillRate;
    if add > 0 then
      var t := b.tokens + add;
      b.(tokens := if t > b.capacity then b.capacity else t, lastRefill := now)
    else b
  }

  /**
   * `tokenBucket.allow`: refill, then spend one token if there is one. On a valid bucket a
   * call is granted exactly when a token is left, or when at least a whole minute's refill
   * is due and the bucket can hold a token; each grant spends exactly one token, and the
   * bucket stays valid.
   */
  function BucketAllow(b: Bucket, now: int): (out: (Bucket, bool))
    ensures Valid(b) ==>
      (out.1 <==> b.tokens > 0 || (WholeMinutes(now - b.lastRefill) * b.refillRate > 0 && b.capacity > 0))
    ensures Valid(b) ==> Valid(out.0)
    ensures out.1 <==> Refill(b, now).tokens > 0
    ensures out.0.tokens == Refill(b, now).tokens - (if out.1 then 1 else 0)
    ensures out.0.capacity == b.capacity && out.0.refillRate == b.refillRate
    ensures out.0.lastRefill == Refill(b, now).lastRefill
  {
    var r := Refill(b, now);
    if r.tokens > 0 then (r.(tokens := r.tokens - 1), true) else (r, false)
  }

  /**
   * The fractional minute is lost: a refill at one minute and `d` nanoseconds adds one
   * minute's worth and restarts the clock, so at two minutes nothing more is added
   * although two whole minutes have passed since the original refill.
   */
  lemma RefillDiscardsFraction(b: Bucket, d: int)
    requires b.refillRate > 0 && 0 < d < Minute
    ensures var first := Refill(b, b.lastRefill + Minute + d);
      && first.lastRefill == b.lastRefill + Minute + d
      && Refill(first, b.lastRefill + 2 * Minute) == first
  {
    assert WholeMinutes(Minute + d) == 1;
  }

  /** Every call keeps the token count between zero and the capacity. */
  lemma BucketAllowKeepsValid(b: Bucket, now: int)
    requires Valid(b)
    ensures Valid(BucketAllow(b, now).0)
  {
  }

  /** The outcomes of a series of calls on one bucket, and the bucket afterwards. */
  function AllowAll(b: Bucket, times: seq<int>): (out: (Bucket, nat))
    decreases |times|
  {
    if |times| == 0 then (b, 0)
    else
      var (b', ok) := BucketAllow(b, times[0]);
      var (b'', n) := AllowAll(b', times[1..]);
      (b'', n + if ok then 1 else 0)
  }

  /**
   * Within a minute of the last refill no tokens are added, so a series of calls is
   * granted exactly as many times as there were tokens, and never more.
   */
  lemma {:induction false} BurstIsBoundedByTokens(b: Bucket, times: seq<int>)
    requires b.tokens >= 0
    requires forall k :: 0 <= k < |times| ==> b.lastRefill <= times[k] < b.lastRefill + Minute
    decreases |times|
    ensures AllowAll(b, times).1 == if |times| < b.tokens then |times| else b.tokens
  {
    if |times| > 0 {
      assert Refill(b, times[0]) == b;
      var b' := BucketAllow(b, times[0]).0;
      assert b'.lastRefill == b.lastRefill;
      BurstIsBoundedByTokens(b', times[1..]);
    }
  }

  /** The bucket a first request from an address gets: full, refilling at the same rate. */
  function NewBucket(requestsPerMinute: int, now: int): Bucket {
    Bucket(requestsPerMinute, requestsPerMinute, requestsPerMinute, now)
  }

  /**
   * `rateLimiter.allow`: a first request from `ip` creates a full bucket sized by the
   * current argument; later requests keep the bucket they have, whatever the argument,
   * and are decided by it. Either way the visitor's last-seen time becomes `now`.
   */
  function Allow(visitors: Visitors, ip: string, requestsPerMinute: int, now: int): (out: (Visitors, bool))
    ensures out.0.Keys == visitors.Keys + {ip}
    ensures forall other :: other in visitors && other != ip ==> out.0[other] == visitors[other]
    ensures out.0[ip].lastSeen == now
    ensures ip in visitors ==> out.0[ip].bucket.capacity == visitors[ip].bucket.capacity
    ensures ip !in visitors ==> out.0[ip].bucket.capacity == requestsPerMinute
    ensures ip !in visitors ==> (out.1 <==> requestsPerMinute > 0)
    ensures out.1 ==> out.0[ip].bucket.tokens >= 0
    ensures ip in visitors ==> (out.0[ip].bucket, out.1) == BucketAllow(visitors[ip].bucket, now)
    ensures ip !in visitors ==> (out.0[ip].bucket, out.1) == BucketAllow(NewBucket(requestsPerMinute, now), now)
  {
    var v := if ip in visitors then visitors[ip] else Visitor(NewBucket(requestsPerMinute, now), now);
    var (b, ok) := BucketAllow(v.bucket, now);
    (visitors[ip := Visitor(b, now)], ok)
  }

  predicate AllValid(visitors: Visitors) {
    forall ip :: ip in visitors ==> Valid(visitors[ip].bucket)
  }

  /** With a non-negative limit every bucket of the table stays valid. */
  lemma AllowKeepsValid(visitors: Visitors, ip: string, requestsPerMinute: int, now: int)
    requires AllValid(visitors) && requestsPerMinute >= 0
    ensures AllValid(Allow(visitors, ip, requestsPerMinute, now).0)
  {
    var v := if ip in visitors then visitors[ip] else Visitor(NewBucket(requestsPerMinute, now), now);
    BucketAllowKeepsValid(v.bucket, now);
  }

  /** One pass of `cleanupRoutine`: drops the visitors idle for more than ten minutes. */
  function Sweep(visitors: Visitors, now: int): (r: Visitors)
    ensures forall ip :: ip in r <==> ip in visitors && now - visitors[ip].lastSeen <= IdleLimit
    ensures forall ip :: ip in r ==> r[ip] == visitors[ip]
  {
    map ip | ip in visitors && now - visitors[ip].lastSeen <= IdleLimit :: visitors[ip]
  }

  /** An address dropped by a sweep starts over with a full bucket sized by the current limit. */
  lemma SweptVisitorStartsOver(visitors: Visitors, ip: string, sweptAt: int, requestsPerMinute: int, now: int)
    requires ip in visitors && sweptAt - visitors[ip].lastSeen > IdleLimit
    ensures var out := Allow(Sweep(visitors, sweptAt), ip, requestsPerMinute, now);
      out.0[ip].bucket == NewBucket(requestsPerMinute, now).(tokens := requestsPerMinute - if out.1 then 1 else 0)
  {
    var swept := Sweep(visitors, sweptAt);
    assert ip !in swept;
    assert Refill(NewBucket(requestsPerMinute, now), now) == NewBucket(requestsPerMinute, now);
  }
}

=== FILE: share.dfy ===
/**
 * Share links of `internal/handlers/share.go`: creating or updating the link of a public
 * note, deactivating it, reading it back, and the checks a visitor's request passes
 * through. A note has at most one active link, and share codes are unique (the table
 * carries a unique index on them).
 */
module Shares {
  import opened Wrappers
  import opened Text
  import opened Models

  /** The tables the share handler reads and writes. */
  datatype ShareDb = ShareDb(notes: map<Id, Note>, links: seq<ShareLink>, nextId: Id)

  /** The optional JSON body of a create request; a missing or unreadable body is all nulls. */
  datatype ShareRequest = ShareRequest(password: Option<string>, expireTime: Option<int>)

  datatype ShareResponse = ShareResponse(code: string, url: string, password: Option<string>, expireTime: Option<int>)

  datatype ShareError =
    | InvalidNoteId
    | NoteMissingOrNotPublic
    | NoteMissing
    | LinkMissing
    | LinkExpired
    | WrongPassword
    | InternalError

  /** The length `CreateShareLink` asks `generateRandomString` for. */
  const CodeLength: nat := 32
  const ShareUrlPrefix: string := "http://localhost:9191/public/notes/"

  /**
   * `generateRandomString`: `length / 2` random bytes (supplied here as `entropy`),
   * hex-encoded in lower case. The bytes can be read back from the code.
   */
  function GenerateRandomString(length: nat, entropy: seq<byte>): (r: string)
    requires |entropy| == length / 2
    ensures |r| == length - length % 2
    ensures forall i :: 0 <= i < |r| ==> IsLowerHex(r[i])
    ensures HexDecode(r) == entropy
  {
    HexRoundTrip(entropy);
    HexEncode(entropy)
  }

  /** The note lookup of `CreateShareLink`: the caller's own, public, not soft-deleted note. */
  predicate OwnsPublicNote(notes: map<Id, Note>, noteId: Id, user: Id) {
    noteId in notes && notes[noteId].owner == user && notes[noteId].isPublic && !notes[noteId].deleted
  }

  /** The note lookup of `GetShareInfo` and `DeleteShareLink`: public or not. */
  predicate OwnsNote(notes: map<Id, Note>, noteId: Id, user: Id) {
    noteId in notes && notes[noteId].owner == user && !notes[noteId].deleted
  }

  predicate ActiveFor(l: ShareLink, noteId: Id) {
    l.noteId == noteId && l.active
  }

  /** The first active link of a note. */
  function FindActive(links: seq<ShareLink>, noteId: Id): (r: Option<nat>)
    ensures r.Some? ==> r.value < |links| && ActiveFor(links[r.value], noteId)
    ensures r.Some? ==> forall j :: 0 <= j < r.value ==> !ActiveFor(links[j], noteId)
    ensures r.None? ==> forall j :: 0 <= j < |links| ==> !ActiveFor(links[j], noteId)
  {
    if |links| == 0 then None
    else if ActiveFor(links[0], noteId) then Some(0)
    else match FindActive(links[1..], noteId)
      case None => None
      case Some(k) => Some(k + 1)
  }

  /** The first active link carrying a share code. */
  function FindByCode(links: seq<ShareLink>, code: string): (r: Option<nat>)
    ensures r.Some? ==> r.value < |links| && links[r.value].code == code && links[r.value].active
    ensures r.None? ==> forall j :: 0 <= j < |links| ==> !(links[j].code == code && links[j].active)
  {
    if |links| == 0 then None
    else if links[0].code == code && links[0].active then Some(0)
    else match FindByCode(links[1..], code)
      case None => None
      case Some(k) => Some(k + 1)
  }

  predicate AtMostOneActive(links: seq<ShareLink>) {
    forall i, j :: 0 <= i < j < |links| && links[i].active && links[j].active ==> links[i].noteId != links[j].noteId
  }

  predicate CodesUnique(links: seq<ShareLink>) {
    forall i, j :: 0 <= i < j < |links| ==> links[i].code != links[j].code
  }

  predicate CodeTaken(links: seq<ShareLink>, code: string) {
    exists j :: 0 <= j < |links| && links[j].code == code
  }

  /** GORM's `Updates` with a struct: a null field is not written. */
  function Overwrite<T>(current: Option<T>, update: Option<T>): (r: Option<T>)
    ensures update.Some? ==> r == update
    ensures update.None? ==> r == current
  {
    if update.Some? then update else current
  }

  function Respond(code: string, password: Option<string>, expireTime: Option<int>): ShareResponse {
    ShareResponse(code, ShareUrlPrefix + code, password, expireTime)
  }

  /**
   * `CreateShareLink`. Only the caller's public note can be shared. If the note already
   * has an active link, that link's password and expiry are overwritten by the non-null
   * request fields and its code is kept; the response echoes the request. Otherwise a new
   * active link with a fresh 32-character code and no visits is inserted; the insert
   * fails on a code already in the table. `randomOk` is whether reading random bytes worked.
   */
  function CreateShareLink(db: ShareDb, user: Id, noteIdParam: string, req: ShareRequest,
                           entropy: seq<byte>, randomOk: bool): (out: (ShareDb, Result<ShareResponse, ShareError>))
    requires |entropy| == CodeLength / 2
    ensures out.1.Err? ==> out.0 == db
    ensures out.1.Ok? ==> ParseUint32(noteIdParam).Some? && OwnsPublicNote(db.notes, ParseUint32(noteIdParam).value, user)
    ensures ParseUint32(noteIdParam).None? ==> out.1 == Err(InvalidNoteId)
    ensures ParseUint32(noteIdParam).Some? && !OwnsPublicNote(db.notes, ParseUint32(noteIdParam).value, user) ==>
      out.1 == Err(NoteMissingOrNotPublic)
    ensures out.0.notes == db.notes
    ensures ParseUint32(noteIdParam).Some? && OwnsPublicNote(db.notes, ParseUint32(noteIdParam).value, user) ==>
      if FindActive(db.links, ParseUint32(noteIdParam).value).Some? then out.1.Ok?
      else (out.1.Ok? <==> randomOk && !CodeTaken(db.links, GenerateRandomString(CodeLength, entropy)))
    ensures out.1.Err? && out.1.error == InternalError ==> !randomOk || CodeTaken(db.links, GenerateRandomString(CodeLength, entropy))
    ensures out.1.Ok? ==> out.1.value.password == req.password && out.1.value.expireTime == req.expireTime
    ensures out.1.Ok? ==> out.1.value.url == ShareUrlPrefix + out.1.value.code
    ensures out.1.Ok? && FindActive(db.links, ParseUint32(noteIdParam).value).Some? ==>
      var i := FindActive(db.links, ParseUint32(noteIdParam).value).value;
      && out.1.value.code == db.links[i].code
      && out.0 == db.(links := db.links[i := db.links[i].(password := Overwrite(db.links[i].password, req.password),
                                                          expireTime := Overwrite(db.links[i].expireTime, req.expireTime))])
    ensures out.1.Ok? && FindActive(db.links, ParseUint32(noteIdParam).value).None? ==>
      && out.1.value.code == GenerateRandomString(CodeLength, entropy)
      && |out.1.value.code| == CodeLength && (forall k :: 0 <= k < CodeLength ==> IsLowerHex(out.1.value.code[k]))
      && !CodeTaken(db.links, out.1.value.code)
      && out.0.links == db.links + [ShareLink(db.nextId, ParseUint32(noteIdParam).value, out.1.value.code,
                                              req.password, req.expireTime, 0, true)]
      && out.0.nextId == db.nextId + 1
  {
    match ParseUint32(noteIdParam)
    case None => (db, Err(InvalidNoteId))
    case Some(noteId) =>
      if !OwnsPublicNote(db.notes, noteId, user) then (db, Err(NoteMissingOrNotPublic))
      else match FindActive(db.links, noteId)
        case Some(i) =>
          var l := db.links[i];
          var updated := l.(password := Overwrite(l.password, req.password), expireTime := Overwrite(l.expireTime, req.expireTime));
          (db.(links := db.links[i := updated]), Ok(Respond(l.code, req.password, req.expireTime)))
        case None =>
          if !randomOk then (db, Err(InternalError))
          else
            var code := GenerateRandomString(CodeLength, entropy);
            if CodeTaken(db.links, code) then (db, Err(InternalError))
            else
              var link := ShareLink(db.nextId, noteId, code, req.password, req.expireTime, 0, true);
              (db.(links := db.links + [link], nextId := db.nextId + 1), Ok(Respond(code, req.password, req.expireTime)))
  }

  /** Creating or updating a link keeps at most one active link per note and share codes unique. */
  lemma CreateKeepsInvariant(db: ShareDb, user: Id, noteIdParam: string, req: ShareRequest, entropy: seq<byte>, randomOk: bool)
    requires |entropy| == CodeLength / 2
    requires AtMostOneActive(db.links) && CodesUnique(db.links)
    ensures AtMostOneActive(CreateShareLink(db, user, noteIdParam, req, entropy, randomOk).0.links)
    ensures CodesUnique(CreateShareLink(db, user, noteIdParam, req, entropy, randomOk).0.links)
  {
    var out := CreateShareLink(db, user, noteIdParam, req, entropy, randomOk);
    if out.1.Ok? {
      var noteId := ParseUint32(noteIdParam).value;
      var links := out.0.links;
      if FindActive(db.links, noteId).Some? {
        var i := FindActive(db.links, noteId).value;
        assert forall j :: 0 <= j < |links| ==> links[j].active == db.links[j].active && links[j].noteId == db.links[j].noteId;
        assert forall j :: 0 <= j < |links| ==> links[j].code == db.links[j].code;
      } else {
        var n := |db.links|;
        assert forall j :: 0 <= j < n ==> links[j] == db.links[j];
        assert forall j :: 0 <= j < n ==> !ActiveFor(links[j], noteId);
        assert forall j :: 0 <= j < n ==> links[j].code != links[n].code;
      }
    }
  }

  /** After a successful create, the note has exactly one active link and it carries the reported code. */
  lemma CreateLeavesOneActiveLink(db: ShareDb, user: Id, noteIdParam: string, req: ShareRequest, entropy: seq<byte>, randomOk: bool)
    requires |entropy| == CodeLength / 2
    requires AtMostOneActive(db.links) && CodesUnique(db.links)
    requires CreateShareLink(db, user, noteIdParam, req, entropy, randomOk).1.Ok?
    ensures var out := CreateShareLink(db, user, noteIdParam, req, entropy, randomOk);
      var noteId := ParseUint32(noteIdParam).value;
      && FindActive(out.0.links, noteId).Some?
      && out.0.links[FindActive(out.0.links, noteId).value].code == out.1.value.code
      && forall j :: 0 <= j < |out.0.links| && ActiveFor(out.0.links[j], noteId) ==> j == FindActive(out.0.links, noteId).value
  {
    var out := CreateShareLink(db, user, noteIdParam, req, entropy, randomOk);
    var noteId := ParseUint32(noteIdParam).value;
    var links := out.0.links;
    CreateKeepsInvariant(db, user, noteIdParam, req, entropy, randomOk);
    if FindActive(db.links, noteId).Some? {
      var i := FindActive(db.links, noteId).value;
      assert ActiveFor(links[i], noteId);
    } else {
      assert ActiveFor(links[|db.links|], noteId);
    }
  }

  /** `UPDATE ... SET is_active = false` on every active link of a note. */
  function Deactivate(links: seq<ShareLink>, noteId: Id): (r: seq<ShareLink>)
    ensures |r| == |links|
    ensures forall j :: 0 <= j < |links| ==> r[j] == if ActiveFor(links[j], noteId) then links[j].(active := false) else links[j]
  {
    if |links| == 0 then []
    else
      var l := links[0];
      [if ActiveFor(l, noteId) then l.(active := false) else l] + Deactivate(links[1..], noteId)
  }

  /**
   * `DeleteShareLink`: deactivates every active link of the caller's note (links are
   * never removed); reports a missing link when none was active.
   */
  function DeleteShareLink(db: ShareDb, user: Id, noteIdParam: string): (out: (ShareDb, Result<(), ShareError>))
    ensures out.1.Err? ==> out.0 == db
    ensures out.1.Ok? <==>
      && ParseUint32(noteIdParam).Some? && OwnsNote(db.notes, ParseUint32(noteIdParam).value, user)
      && FindActive(db.links, ParseUint32(noteIdParam).value).Some?
    ensures ParseUint32(noteIdParam).None? ==> out.1 == Err(InvalidNoteId)
    ensures ParseUint32(noteIdParam).Some? && !OwnsNote(db.notes, ParseUint32(noteIdParam).value, user) ==> out.1 == Err(NoteMissing)
    ensures out.1 == Err(LinkMissing) <==>
      && ParseUint32(noteIdParam).Some? && OwnsNote(db.notes, ParseUint32(noteIdParam).value, user)
      && FindActive(db.links, ParseUint32(noteIdParam).value).None?
    ensures out.1.Ok? ==>
      var noteId := ParseUint32(noteIdParam).value;
      && out.0.notes == db.notes && out.0.nextId == db.nextId && |out.0.links| == |db.links|
      && (forall j :: 0 <= j < |db.links| ==> !ActiveFor(out.0.links[j], noteId))
      && (forall j :: 0 <= j < |db.links| && db.links[j].noteId != noteId ==> out.0.links[j] == db.links[j])
      && (forall j :: 0 <= j < |db.links| ==> out.0.links[j] == db.links[j].(active := out.0.links[j].active))
  {
    match ParseUint32(noteIdParam)
    case None => (db, Err(InvalidNoteId))
    case Some(noteId) =>
      if !OwnsNote(db.notes, noteId, user) then (db, Err(NoteMissing))
      else if FindActive(db.links, noteId).None? then (db, Err(LinkMissing))
      else (db.(links := Deactivate(db.links, noteId)), Ok(()))
  }

  /** Deactivating links keeps both invariants. */
  lemma DeleteKeepsInvariant(db: ShareDb, user: Id, noteIdParam: string)
    requires AtMostOneActive(db.links) && CodesUnique(db.links)
    ensures AtMostOneActive(DeleteShareLink(db, user, noteIdParam).0.links)
    ensures CodesUnique(DeleteShareLink(db, user, noteIdParam).0.links)
  {
  }

  /** `GetShareInfo`: the stored code, password and expiry of the caller's note's active link. */
  function GetShareInfo(db: ShareDb, user: Id, noteIdParam: string): (r: Result<ShareResponse, ShareError>)
    ensures ParseUint32(noteIdParam).None? ==> r == Err(InvalidNoteId)
    ensures ParseUint32(noteIdParam).Some? && !OwnsNote(db.notes, ParseUint32(noteIdParam).value, user) ==>
      r == Err(NoteMissing)
    ensures r.Ok? <==>
      && ParseUint32(noteIdParam).Some? && OwnsNote(db.notes, ParseUint32(noteIdParam).value, user)
      && FindActive(db.links, ParseUint32(noteIdParam).value).Some?
    ensures r.Ok? ==>
      var l := db.links[FindActive(db.links, ParseUint32(noteIdParam).value).value];
      r.value == Respond(l.code, l.password, l.expireTime)
    ensures r == Err(LinkMissing) <==>
      && ParseUint32(noteIdParam).Some? && OwnsNote(db.notes, ParseUint32(noteIdParam).value, user)
      && FindActive(db.links, ParseUint32(noteIdParam).value).None?
  {
    match ParseUint32(noteIdParam)
    case None => Err(InvalidNoteId)
    case Some(noteId) =>
      if !OwnsNote(db.notes, noteId, user) then Err(NoteMissing)
      else match FindActive(db.links, noteId)
        case None => Err(LinkMissing)
        case Some(i) => Ok(Respond(db.links[i].code, db.links[i].password, db.links[i].expireTime))
  }

  /**
   * The checks of `GetPublicNote`, in order: the code must name an active link; a set
   * expiry must not lie strictly before `now`; a non-empty stored password must equal the
   * query's; finally the note must still exist and be public. The result is the note shown.
   */
  function PublicAccess(db: ShareDb, code: string, now: int, query: string): (r: Result<Id, ShareError>)
    ensures r == Err(LinkMissing) <==> FindByCode(db.links, code).None?
    ensures FindByCode(db.links, code).Some? ==>
      var l := db.links[FindByCode(db.links, code).value];
      && (r == Err(LinkExpired) <==> l.expireTime.Some? && now > l.expireTime.value)
      && (r == Err(WrongPassword) <==>
            !(l.expireTime.Some? && now > l.expireTime.value)
            && l.password.Some? && l.password.value != "" && query != l.password.value)
      && (r.Ok? ==> r.value == l.noteId && l.noteId in db.notes && db.notes[l.noteId].isPublic)
      && (r == Ok(l.noteId) <==>
            && !(l.expireTime.Some? && now > l.expireTime.value)
            && !(l.password.Some? && l.password.value != "" && query != l.password.value)
            && l.noteId in db.notes && db.notes[l.noteId].isPublic && !db.notes[l.noteId].deleted)
    ensures r.Ok? ==> !db.notes[r.value].deleted
  {
    match FindByCode(db.links, code)
    case None => Err(LinkMissing)
    case Some(i) =>
      var l := db.links[i];
      if l.expireTime.Some? && now > l.expireTime.value then Err(LinkExpired)
      else if l.password.Some? && l.password.value != "" && query != l.password.value then Err(WrongPassword)
      else if l.noteId in db.notes && db.notes[l.noteId].isPublic && !db.notes[l.noteId].deleted then Ok(l.noteId)
      else Err(NoteMissing)
  }

  /** Once the owner deletes the note's link, no share code of that note opens it any more. */
  lemma DeletedLinkDeniesAccess(db: ShareDb, user: Id, noteIdParam: string, code: string, now: int, query: string)
    requires DeleteShareLink(db, user, noteIdParam).1.Ok?
    requires exists j :: 0 <= j < |db.links| && db.links[j].code == code && db.links[j].noteId == ParseUint32(noteIdParam).value
    requires CodesUnique(db.links)
    ensures PublicAccess(DeleteShareLink(db, user, noteIdParam).0, code, now, query) == Err(LinkMissing)
  {
    var after := DeleteShareLink(db, user, noteIdParam).0;
    var noteId := ParseUint32(noteIdParam).value;
    var j :| 0 <= j < |db.links| && db.links[j].code == code && db.links[j].noteId == noteId;
    NoActiveLinkWithCode(db.links, after.links, noteId, j);
  }

  /**
   * When every link of a note has been deactivated and codes are unique, the code of one
   * of its links matches no active link.
   */
  lemma NoActiveLinkWithCode(links: seq<ShareLink>, after: seq<ShareLink>, noteId: Id, j: nat)
    requires CodesUnique(links) && j < |links| && links[j].noteId == noteId
    requires |after| == |links|
    requires forall k :: 0 <= k < |links| ==> !ActiveFor(after[k], noteId)
    requires forall k :: 0 <= k < |links| ==> after[k] == links[k].(active := after[k].active)
    ensures FindByCode(after, links[j].code).None?
  {
    forall k | 0 <= k < |after|
      ensures !(after[k].code == links[j].code && after[k].active)
    {
      if k < j {
        assert links[k].code != links[j].code;
      } else if k > j {
        assert links[j].code != links[k].code;
      } else {
        assert !ActiveFor(after[j], noteId);
      }
    }
  }

  /**
   * A fresh link created without a password or expiry opens the note for any visitor at
   * any time, while the note stays public.
   */
  lemma NewOpenLinkGrantsAccess(db: ShareDb, user: Id, noteIdParam: string, entropy: seq<byte>, now: int, query: string)
    requires |entropy| == CodeLength / 2
    requires CodesUnique(db.links)
    requires CreateShareLink(db, user, noteIdParam, ShareRequest(None, None), entropy, true).1.Ok?
    requires FindActive(db.links, ParseUint32(noteIdParam).value).None?
    ensures var out := CreateShareLink(db, user, noteIdParam, ShareRequest(None, None), entropy, true);
      PublicAccess(out.0, out.1.value.code, now, query) == Ok(ParseUint32(noteIdParam).value)
  {
    var out := CreateShareLink(db, user, noteIdParam, ShareRequest(None, None), entropy, true);
    var code := out.1.value.code;
    var n := |db.links|;
    assert out.0.links[n].code == code && out.0.links[n].active;
    assert forall j :: 0 <= j < n ==> out.0.links[j] == db.links[j];
    assert forall j :: 0 <= j < n ==> out.0.links[j].code != code;
  }

  /**
   * The update path reports the request rather than the stored link: re-sharing a
   * password-protected note with an empty body answers "no password" while the stored
   * password stays and still locks visitors out.
   */
  lemma UpdateResponseMisreportsPassword(db: ShareDb, user: Id, noteIdParam: string, entropy: seq<byte>, now: int)
    requires |entropy| == CodeLength / 2
    requires ParseUint32(noteIdParam).Some? && OwnsPublicNote(db.notes, ParseUint32(noteIdParam).value, user)
    requires FindActive(db.links, ParseUint32(noteIdParam).value).Some?
    requires CodesUnique(db.links)
    requires var l := db.links[FindActive(db.links, ParseUint32(noteIdParam).value).value];
      l.password.Some? && l.password.value != "" && l.expireTime.None?
    ensures var out := CreateShareLink(db, user, noteIdParam, ShareRequest(None, None), entropy, true);
      && out.1.Ok? && out.1.value.password.None?
      && GetShareInfo(out.0, user, noteIdParam).Ok? && GetShareInfo(out.0, user, noteIdParam).value.password.Some?
      && PublicAccess(out.0, out.1.value.code, now, "") == Err(WrongPassword)
  {
    var out := CreateShareLink(db, user, noteIdParam, ShareRequest(None, None), entropy, true);
    var noteId := ParseUint32(noteIdParam).value;
    var i := FindActive(db.links, noteId).value;
    assert out.0.links[i] == db.links[i];
    assert out.0.links == db.links;
    var code := db.links[i].code;
    assert forall k :: 0 <= k < |db.links| && k != i ==> db.links[k].code != code;
  }

  /**
   * `CreateShareLink` with the response read from the stored link, as `GetShareInfo`
   * answers: same store transition, but the caller learns the password and expiry in force.
   */
  function CreateShareLinkReported(db: ShareDb, user: Id, noteIdParam: string, req: ShareRequest,
                                   entropy: seq<byte>, randomOk: bool): (out: (ShareDb, Result<ShareResponse, ShareError>))
    requires |entropy| == CodeLength / 2
    ensures out.0 == CreateShareLink(db, user, noteIdParam, req, entropy, randomOk).0
    ensures out.1.Ok? <==> CreateShareLink(db, user, noteIdParam, req, entropy, randomOk).1.Ok?
  {
    var out := CreateShareLink(db, user, noteIdParam, req, entropy, randomOk);
    if out.1.Err? then out
    else match FindActive(out.0.links, ParseUint32(noteIdParam).value)
      case None => out
      case Some(i) =>
        var l := out.0.links[i];
        (out.0, Ok(Respond(l.code, l.password, l.expireTime)))
  }

  /** The corrected response always agrees with what `GetShareInfo` reports afterwards. */
  lemma ReportedResponseMatchesShareInfo(db: ShareDb, user: Id, noteIdParam: string, req: ShareRequest,
                                         entropy: seq<byte>, randomOk: bool)
    requires |entropy| == CodeLength / 2
    requires AtMostOneActive(db.links) && CodesUnique(db.links)
    requires CreateShareLinkReported(db, user, noteIdParam, req, entropy, randomOk).1.Ok?
    ensures var out := CreateShareLinkReported(db, user, noteIdParam, req, entropy, randomOk);
      GetShareInfo(out.0, user, noteIdParam) == out.1
  {
    CreateLeavesOneActiveLink(db, user, noteIdParam, req, entropy, randomOk);
  }
}

=== FILE: steps.dfy ===
/**
 * How one ledger step relates to the recalculated totals: charging a live row adds exactly
 * its contribution, releasing one removes exactly it, and neither touches another user.
 */
module LedgerSteps {
  import opened Models
  import opened Ledger
  import opened Accounting

  /** What one live attachment of the given size and kind adds to its owner's totals. */
  function Unit(size: nat, isImage: bool): UserStorage {
    UserStorage(size, 1, if isImage then 1 else 0, if isImage then 0 else 1)
  }

  /**
   * The ledger side of a charge: when the row of `u` equals `t` and `t'` is `t` plus the
   * contribution `added` (one unit for `user`, nothing for anyone else), charging `user` a
   * positive size yields `t'`.
   */
  lemma ChargeFollows(ledger: Ledgers, user: Id, u: Id, t: UserStorage, t': UserStorage, added: UserStorage,
                      size: nat, isImage: bool)
    requires Row(ledger, u) == t && NonNegative(t) && size > 0
    requires t' == Plus(t, added)
    requires added == if u == user then Unit(size, isImage) else EmptyStorage()
    ensures Row(UpdateUserStorage(ledger, user, size, isImage), u) == t'
  {
  }

  /**
   * The ledger side of a release: when the row of `u` equals `t`, which is `t'` plus the
   * contribution `removed` (one unit for `user`, nothing for anyone else), releasing the size
   * from `user` yields `t'`: no floor bites.
   */
  lemma ReleaseFollows(ledger: Ledgers, user: Id, u: Id, t: UserStorage, t': UserStorage, removed: UserStorage,
                       size: nat, isImage: bool)
    requires Row(ledger, u) == t && NonNegative(t')
    requires t == Plus(t', removed)
    requires removed == if u == user then Unit(size, isImage) else EmptyStorage()
    ensures Row(UpdateUserStorage(ledger, user, 0 - size, isImage), u) == t'
  {
  }

  /** A live row adds one unit to its owner's totals and nothing to anyone else's. */
  lemma ContributionOfLive(a: Attachment, notes: map<Id, Note>, user: Id, u: Id)
    requires Live(a, notes, user)
    ensures u == user ==> Contribution(a, notes, u) == Unit(a.size, a.isImage)
    ensures u != user ==> Contribution(a, notes, u) == EmptyStorage()
  {
  }

  /** A soft-deleted row adds nothing to anyone's totals. */
  lemma ContributionOfDeleted(a: Attachment, notes: map<Id, Note>, u: Id)
    requires a.deleted
    ensures Contribution(a, notes, u) == EmptyStorage()
  {
  }

  /** The appended row of a positive-size upload is charged to its uploader and to no one else. */
  lemma UploadStep(ledger: Ledgers, rows: seq<Attachment>, notes: map<Id, Note>, a: Attachment, user: Id, u: Id)
    requires Live(a, notes, user) && a.size > 0
    requires Row(ledger, u) == Totals(rows, notes, u)
    ensures Row(UpdateUserStorage(ledger, user, a.size, a.isImage), u) == Totals(rows + [a], notes, u)
  {
    var t, t' := Totals(rows, notes, u), Totals(rows + [a], notes, u);
    var c := Contribution(a, notes, u);
    TotalsAppend(rows, a, notes, u);
    ContributionOfLive(a, notes, user, u);
    assert NonNegative(t) && t' == Plus(t, c);
    ChargeFollows(ledger, user, u, t, t', c, a.size, a.isImage);
  }

  /** Soft-deleting a live row of `user` releases exactly its contribution from `user`'s row. */
  lemma DeleteStep(ledger: Ledgers, rows: seq<Attachment>, notes: map<Id, Note>, i: nat, user: Id, u: Id)
    requires i < |rows| && Live(rows[i], notes, user)
    requires Row(ledger, u) == Totals(rows, notes, u)
    ensures Row(UpdateUserStorage(ledger, user, 0 - rows[i].size, rows[i].isImage), u)
         == Totals(rows[i := rows[i].(deleted := true)], notes, u)
  {
    var a := rows[i];
    var b := a.(deleted := true);
    var t, t' := Totals(rows, notes, u), Totals(rows[i := b], notes, u);
    var c := Contribution(a, notes, u);
    assert t == Plus(t', c) by {
      TotalsUpdate(rows, i, b, notes, u);
      ContributionOfDeleted(b, notes, u);
      PlusEmpty(t);
    }
    assert NonNegative(t');
    ContributionOfLive(a, notes, user, u);
    ReleaseFollows(ledger, user, u, t, t', c, a.size, a.isImage);
  }

  /** Restoring a positive-size row of `user` charges exactly its contribution back. */
  lemma RestoreStep(ledger: Ledgers, rows: seq<Attachment>, notes: map<Id, Note>, i: nat, user: Id, u: Id)
    requires i < |rows| && rows[i].size > 0 && rows[i].deleted
    requires Live(rows[i].(deleted := false), notes, user)
    requires Row(ledger, u) == Totals(rows, notes, u)
    ensures Row(UpdateUserStorage(ledger, user, rows[i].size, rows[i].isImage), u)
         == Totals(rows[i := rows[i].(deleted := false)], notes, u)
  {
    var a := rows[i];
    var b := a.(deleted := false);
    var t, t' := Totals(rows, notes, u), Totals(rows[i := b], notes, u);
    var c := Contribution(b, notes, u);
    TotalsUpdate(rows, i, b, notes, u);
    ContributionOfLive(b, notes, user, u);
    ContributionOfDeleted(a, notes, u);
    assert NonNegative(t) && t' == Plus(t, c);
    ChargeFollows(ledger, user, u, t, t', c, a.size, a.isImage);
  }

  /** Removing a soft-deleted row changes nobody's totals. */
  lemma PurgeStep(rows: seq<Attachment>, notes: map<Id, Note>, i: nat, u: Id)
    requires i < |rows| && rows[i].deleted
    ensures Totals(rows[..i] + rows[i + 1..], notes, u) == Totals(rows, notes, u)
  {
    TotalsRemove(rows, i, notes, u);
    ContributionOfDeleted(rows[i], notes, u);
  }
}

=== FILE: tags.dfy ===
/**
 * The tag rules of `internal/services/tag_service.go`: a user's live tag names are unique
 * at creation, an update rewrites name and colour of an owned live tag, and a deletion
 * soft-deletes it. GORM scopes every one of these statements to rows that are not
 * soft-deleted. The per-tag note counts of the read queries are not modelled.
 */
module Tags {
  import opened Wrappers
  import opened Models
  import Validation

  /** The `tags` table keyed by id, and the next id the sequence hands out. */
  datatype TagDb = TagDb(tags: map<Id, Tag>, nextId: Id)

  /** `TagCreateRequest`, used for creation and update alike. */
  datatype TagRequest = TagRequest(name: string, color: string)

  datatype TagError = NameTaken | TagNotFound | NotFoundOrForbidden

  /** Every key lies below the next id, so a new row never overwrites an old one. */
  predicate IdsBelowNext(db: TagDb) {
    forall id :: id in db.tags ==> id < db.nextId
  }

  predicate Live(db: TagDb, id: Id, user: Id) {
    id in db.tags && db.tags[id].owner == user && !db.tags[id].deleted
  }

  /** The count query of `CreateTag`: a live tag of the user already bears the name. */
  predicate NameInUse(db: TagDb, user: Id, name: string) {
    exists id :: id in db.tags && db.tags[id].owner == user && !db.tags[id].deleted && db.tags[id].name == name
  }

  /** No two live tags of one user share a name. */
  predicate UniqueNames(db: TagDb) {
    forall a, b ::
      (a in db.tags && b in db.tags && !db.tags[a].deleted && !db.tags[b].deleted
       && db.tags[a].owner == db.tags[b].owner && db.tags[a].name == db.tags[b].name) ==> a == b
  }

  /**
   * `CreateTag`: refused when the name is in use among the user's live tags; otherwise a
   * live tag owned by the caller is inserted under the next id.
   */
  function CreateTag(db: TagDb, user: Id, req: TagRequest): (out: (TagDb, Result<Id, TagError>))
    ensures out.1.Err? <==> NameInUse(db, user, req.name)
    ensures out.1.Err? ==> out.0 == db && out.1.error == NameTaken
    ensures out.1.Ok? ==>
      && out.1.value == db.nextId
      && out.0.tags == db.tags[db.nextId := Tag(user, req.name, req.color, false)]
      && out.0.nextId == db.nextId + 1
  {
    if NameInUse(db, user, req.name) then (db, Err(NameTaken))
    else
      (TagDb(db.tags[db.nextId := Tag(user, req.name, req.color, false)], db.nextId + 1), Ok(db.nextId))
  }

  /**
   * `UpdateTag`: the map update writes name and colour of the tag with this id and owner,
   * if it is live; no matching row is reported as not found. No name check is made.
   */
  function UpdateTag(db: TagDb, tagId: Id, user: Id, req: TagRequest): (out: (TagDb, Result<Tag, TagError>))
    ensures out.1.Ok? <==> Live(db, tagId, user)
    ensures out.1.Err? ==> out.0 == db && out.1.error == TagNotFound
    ensures out.1.Ok? ==>
      && out.0.nextId == db.nextId
      && out.0.tags.Keys == db.tags.Keys
      && out.1.value == out.0.tags[tagId]
      && out.1.value.name == req.name && out.1.value.color == req.color
      && out.1.value.owner == user && !out.1.value.deleted
      && (forall id :: id in db.tags && id != tagId ==> out.0.tags[id] == db.tags[id])
  {
    if !Live(db, tagId, user) then (db, Err(TagNotFound))
    else
      var t := db.tags[tagId].(name := req.name, color := req.color);
      (db.(tags := db.tags[tagId := t]), Ok(t))
  }

  /** `DeleteTag`: soft-deletes the caller's live tag with this id; anything else is an error. */
  function DeleteTag(db: TagDb, tagId: Id, user: Id): (r: Result<TagDb, TagError>)
    ensures r.Ok? <==> Live(db, tagId, user)
    ensures r.Err? ==> r.error == NotFoundOrForbidden
    ensures r.Ok? ==>
      && r.value.nextId == db.nextId
      && r.value.tags.Keys == db.tags.Keys
      && r.value.tags[tagId] == db.tags[tagId].(deleted := true)
      && (forall id :: id in db.tags && id != tagId ==> r.value.tags[id] == db.tags[id])
  {
    if !Live(db, tagId, user) then Err(NotFoundOrForbidden)
    else Ok(db.(tags := db.tags[tagId := db.tags[tagId].(deleted := true)]))
  }

  /** Creation keeps the live names of every user unique. */
  lemma CreateKeepsUniqueNames(db: TagDb, user: Id, req: TagRequest)
    requires IdsBelowNext(db) && UniqueNames(db)
    ensures IdsBelowNext(CreateTag(db, user, req).0) && UniqueNames(CreateTag(db, user, req).0)
  {
    var out := CreateTag(db, user, req);
    if out.1.Ok? {
      assert forall id :: id in db.tags ==> out.0.tags[id] == db.tags[id];
      assert forall id :: id in db.tags && db.tags[id].owner == user && !db.tags[id].deleted ==>
        db.tags[id].name != req.name;
    }
  }

  /** Deletion keeps the live names unique: it only takes a tag out of the live set. */
  lemma DeleteKeepsUniqueNames(db: TagDb, tagId: Id, user: Id)
    requires UniqueNames(db) && DeleteTag(db, tagId, user).Ok?
    ensures UniqueNames(DeleteTag(db, tagId, user).value)
  {
  }

  /** A deleted tag's name is free again: the same user may create it anew. */
  lemma DeletedNameIsReusable(db: TagDb, tagId: Id, user: Id, color: string)
    requires UniqueNames(db) && Live(db, tagId, user)
    ensures var after := DeleteTag(db, tagId, user).value;
      CreateTag(after, user, TagRequest(db.tags[tagId].name, color)).1.Ok?
  {
    var after := DeleteTag(db, tagId, user).value;
    var name := db.tags[tagId].name;
    assert forall id :: id in db.tags && id != tagId && db.tags[id].owner == user && !db.tags[id].deleted ==>
      db.tags[id].name != name;
    assert forall id :: id in after.tags && id != tagId ==> after.tags[id] == db.tags[id];
  }

  /** A deleted tag can neither be updated nor deleted a second time. */
  lemma DeletedTagIsGone(db: TagDb, tagId: Id, user: Id, req: TagRequest)
    requires Live(db, tagId, user)
    ensures var after := DeleteTag(db, tagId, user).value;
      UpdateTag(after, tagId, user, req).1 == Err(TagNotFound) && DeleteTag(after, tagId, user).Err?
  {
  }

  /**
   * The update has no name check: renaming one live tag to the name of another live tag
   * of the same user succeeds and leaves two live tags with one name.
   */
  lemma UpdateCanDuplicateName()
    ensures var db := TagDb(map[1 := Tag(7, "go", "#000000", false), 2 := Tag(7, "rust", "#000000", false)], 3);
      && UniqueNames(db)
      && UpdateTag(db, 2, 7, TagRequest("go", "#ffffff")).1.Ok?
      && !UniqueNames(UpdateTag(db, 2, 7, TagRequest("go", "#ffffff")).0)
  {
    var db := TagDb(map[1 := Tag(7, "go", "#000000", false), 2 := Tag(7, "rust", "#000000", false)], 3);
    var after := UpdateTag(db, 2, 7, TagRequest("go", "#ffffff")).0;
    assert after.tags[1].name == after.tags[2].name;
  }

  /**
   * The update with the same name check as creation: the name may be kept, but not taken
   * from another live tag of the user.
   */
  function UpdateTagChecked(db: TagDb, tagId: Id, user: Id, req: TagRequest): (out: (TagDb, Result<Tag, TagError>))
    ensures !Live(db, tagId, user) ==> out == (db, Err(TagNotFound))
    ensures Live(db, tagId, user) ==>
      (out.1 == Err(NameTaken) <==>
        exists id :: id in db.tags && id != tagId && db.tags[id].owner == user && !db.tags[id].deleted
          && db.tags[id].name == req.name)
    ensures out.1.Ok? ==> out == UpdateTag(db, tagId, user, req)
    ensures (&& Live(db, tagId, user)
             && !(exists id :: id in db.tags && id != tagId && db.tags[id].owner == user && !db.tags[id].deleted
                              && db.tags[id].name == req.name)) ==> out == UpdateTag(db, tagId, user, req) && out.1.Ok?
    ensures out.1.Err? ==> out.0 == db
  {
    if !Live(db, tagId, user) then (db, Err(TagNotFound))
    else if exists id :: id in db.tags && id != tagId && db.tags[id].owner == user && !db.tags[id].deleted
                        && db.tags[id].name == req.name then (db, Err(NameTaken))
    else UpdateTag(db, tagId, user, req)
  }

  /** With the check, updates keep the live names unique as creation does. */
  lemma CheckedUpdateKeepsUniqueNames(db: TagDb, tagId: Id, user: Id, req: TagRequest)
    requires UniqueNames(db)
    ensures UniqueNames(UpdateTagChecked(db, tagId, user, req).0)
  {
    var out := UpdateTagChecked(db, tagId, user, req);
    if out.1.Ok? {
      assert forall id :: id in db.tags && id != tagId ==> out.0.tags[id] == db.tags[id];
      assert forall id :: id in db.tags && id != tagId && db.tags[id].owner == user && !db.tags[id].deleted ==>
        db.tags[id].name != req.name;
    }
  }

  /**
   * What the tag handler's validation admits: a name of 1 to 50 characters and a colour
   * passing the library's built-in `hexcolor` rule.
   */
  predicate ValidRequest(req: TagRequest) {
    0 < |req.name| <= 50 && Validation.BuiltinHexColor(req.color)
  }

  /** Every live tag fits its columns: a name of at most 50 and a colour of at most 7 characters. */
  predicate FitsColumns(db: TagDb) {
    forall id :: id in db.tags && !db.tags[id].deleted ==> |db.tags[id].name| <= 50 && |db.tags[id].color| <= 7
  }

  /**
   * Creation and update from validated requests keep every live tag within its columns
   * exactly when the colour is not the 8-digit form, whose 9 characters exceed the
   * `size:7` column.
   */
  lemma ValidatedWritesFitColumns(db: TagDb, user: Id, tagId: Id, req: TagRequest)
    requires FitsColumns(db) && ValidRequest(req)
    ensures |req.color| <= 7 <==> |req.color| != 9
    ensures CreateTag(db, user, req).1.Ok? ==> (FitsColumns(CreateTag(db, user, req).0) <==> |req.color| != 9)
    ensures UpdateTag(db, tagId, user, req).1.Ok? ==> (FitsColumns(UpdateTag(db, tagId, user, req).0) <==> |req.color| != 9)
  {
    var c := CreateTag(db, user, req);
    if c.1.Ok? {
      assert c.0.tags[db.nextId].color == req.color && !c.0.tags[db.nextId].deleted;
    }
    var u := UpdateTag(db, tagId, user, req);
    if u.1.Ok? {
      assert u.0.tags[tagId].color == req.color && !u.0.tags[tagId].deleted;
    }
  }

  /** An 8-digit colour passes validation and is still too long for the column. */
  lemma EightDigitColourTooLong()
    ensures ValidRequest(TagRequest("go", "#11223344")) && |"#11223344"| > 7
  {
  }
}

=== FILE: text.dfy ===
/**
 * String helpers from Go's standard library that the modelled code relies on:
 * ASCII lower-casing, `filepath.Ext`, `strings.TrimPrefix`, `strings.SplitN(s, sep, 2)`,
 * `strconv.Itoa`/`strconv.Atoi`, truncating integer division and lower-case hex encoding.
 */
module Text {
  import opened Wrappers

  const MinInt64: int := -0x8000_0000_0000_0000
  const MaxInt64: int := 0x7FFF_FFFF_FFFF_FFFF

  predicate IsUpper(c: char) {
    'A' <= c <= 'Z'
  }

  /** `unicode.ToLower` restricted to ASCII letters. */
  function Lower(c: char): (r: char)
    ensures !IsUpper(r)
    ensures IsUpper(c) ==> r as int == c as int + 32
    ensures !IsUpper(c) ==> r == c
  {
    if IsUpper(c) then (c as int + 32) as char else c
  }

  /** `strings.ToLower`, character by character. */
  function ToLower(s: string): (r: string)
    ensures |r| == |s|
    ensures forall i :: 0 <= i < |s| ==> r[i] == Lower(s[i])
  {
    if |s| == 0 then "" else [Lower(s[0])] + ToLower(s[1..])
  }

  predicate HasUpper(s: string) {
    exists i :: 0 <= i < |s| && IsUpper(s[i])
  }

  /** Lower-cased text contains no upper-case letter and lower-casing it again changes nothing. */
  lemma ToLowerIdempotent(s: string)
    ensures !HasUpper(ToLower(s))
    ensures ToLower(ToLower(s)) == ToLower(s)
  {
  }

  /**
   * `filepath.Ext`: the suffix starting at the last '.' of the final path element
   * ('/'-separated), or "" when that element has no dot.
   */
  function Ext(path: string): (r: string)
    ensures |r| <= |path| && r == path[|path| - |r|..]
    ensures r != "" ==> r[0] == '.' && forall k :: 1 <= k < |r| ==> r[k] != '.' && r[k] != '/'
    ensures r == "" ==> forall k :: 0 <= k < |path| && path[k] == '.' ==> exists j :: k < j < |path| && path[j] == '/'
  {
    if |path| == 0 then ""
    else
      var last := path[|path| - 1];
      if last == '/' then ""
      else if last == '.' then "."
      else
        var e := Ext(path[..|path| - 1]);
        if e == "" then "" else e + [last]
  }

  /** A name ending in a dot followed by a dot- and slash-free suffix has that suffix as its extension. */
  lemma {:induction false} ExtOfSuffix(stem: string, suffix: string)
    requires '.' !in suffix && '/' !in suffix
    decreases |suffix|
    ensures Ext(stem + "." + suffix) == "." + suffix
  {
    var p := stem + "." + suffix;
    if |suffix| > 0 {
      var init, last := suffix[..|suffix| - 1], suffix[|suffix| - 1];
      assert p[..|p| - 1] == stem + "." + init;
      ExtOfSuffix(stem, init);
      assert "." + init + [last] == "." + suffix;
    }
  }

  /** `strings.TrimPrefix(s, ".")`. */
  function TrimDot(s: string): (r: string)
    ensures |s| > 0 && s[0] == '.' ==> r == s[1..]
    ensures !(|s| > 0 && s[0] == '.') ==> r == s
  {
    if |s| > 0 && s[0] == '.' then s[1..] else s
  }

  /** The index of the first occurrence of `c` in `s`, if any. */
  function IndexOf(s: string, c: char): (r: Option<nat>)
    ensures r.Some? ==> r.value < |s| && s[r.value] == c && c !in s[..r.value]
    ensures r.None? ==> c !in s
  {
    if |s| == 0 then None
    else if s[0] == c then Some(0)
    else match IndexOf(s[1..], c)
      case None => None
      case Some(k) => Some(k + 1)
  }

  /**
   * `strings.SplitN(s, sep, 2)` for a one-character separator: the text before the first
   * separator, and the rest after it when a separator occurs.
   */
  function SplitFirst(s: string, sep: char): (r: (string, Option<string>))
    ensures r.1.None? ==> sep !in s && r.0 == s
    ensures r.1.Some? ==> sep !in r.0 && s == r.0 + [sep] + r.1.value
  {
    match IndexOf(s, sep)
    case None => (s, None)
    case Some(k) =>
      assert s == s[..k] + [sep] + s[k + 1..];
      (s[..k], Some(s[k + 1..]))
  }

  /** Splitting a text that contains a separator is undone by joining the parts with it. */
  lemma SplitFirstJoin(a: string, sep: char, b: string)
    requires sep !in a
    ensures SplitFirst(a + [sep] + b, sep) == (a, Some(b))
  {
    var s := a + [sep] + b;
    assert s[|a|] == sep;
    var r := SplitFirst(s, sep);
    assert r.1.Some?;
    var rest := r.1.value;
    assert s == r.0 + [sep] + rest;
    assert |r.0| == |a|;
    assert r.0 == s[..|a|] == a;
    assert rest == s[|a| + 1..] == b;
  }

  /** Go's `/` on integers: truncates toward zero (Dafny's `/` is Euclidean). */
  function GoDiv(a: int, b: int): (q: int)
    requires b > 0
    ensures a >= 0 ==> q * b <= a < q * b + b
    ensures a < 0 ==> q * b - b < a <= q * b
  {
    if a >= 0 then a / b else -((-a) / b)
  }

  predicate IsDigit(c: char) {
    '0' <= c <= '9'
  }

  function DigitChar(d: nat): (c: char)
    requires d < 10
    ensures IsDigit(c)
  {
    ('0' as int + d) as char
  }

  function DigitValue(c: char): (d: nat)
    requires IsDigit(c)
    ensures d < 10
  {
    c as int - '0' as int
  }

  predicate AllDigits(s: string) {
    forall i :: 0 <= i < |s| ==> IsDigit(s[i])
  }

  /** Decimal digits of `n`, most significant first, without leading zeros. */
  function NatDigits(n: nat): (r: string)
    ensures |r| > 0 && AllDigits(r)
    ensures r[0] == '0' ==> n == 0
  {
    if n < 10 then [DigitChar(n)] else NatDigits(n / 10) + [DigitChar(n % 10)]
  }

  /** The value of a decimal digit string. */
  function DigitsValue(s: string): nat
    requires AllDigits(s)
  {
    if |s| == 0 then 0 else DigitsValue(s[..|s| - 1]) * 10 + DigitValue(s[|s| - 1])
  }

  /** `strconv.Itoa`, as `%d` prints an integer. */
  function Itoa(n: int): (r: string)
    ensures |r| > 0
    ensures ' ' !in r
  {
    if n < 0 then "-" + NatDigits(-n) else NatDigits(n)
  }

  /**
   * `strconv.Atoi` on a 64-bit platform: an optional sign followed by at least one
   * decimal digit, and a value within the int64 range; anything else is an error.
   */
  function Atoi(s: string): (r: Option<int>)
    ensures r.Some? ==> MinInt64 <= r.value <= MaxInt64
    ensures |s| == 0 ==> r.None?
  {
    if |s| == 0 then None
    else
      var negative := s[0] == '-';
      var digits := if s[0] == '-' || s[0] == '+' then s[1..] else s;
      if |digits| == 0 || !AllDigits(digits) then None
      else
        var v: int := if negative then 0 - DigitsValue(digits) else DigitsValue(digits);
        if MinInt64 <= v <= MaxInt64 then Some(v) else None
  }

  lemma {:induction false} DigitsOfNat(n: nat)
    ensures DigitsValue(NatDigits(n)) == n
  {
    if n >= 10 {
      DigitsOfNat(n / 10);
      var s := NatDigits(n / 10) + [DigitChar(n % 10)];
      assert s[..|s| - 1] == NatDigits(n / 10);
    }
  }

  const MaxUint32: int := 0xFFFF_FFFF

  /** `strconv.ParseUint(s, 10, 32)`: a non-empty run of decimal digits whose value fits in 32 bits. */
  function ParseUint32(s: string): (r: Option<nat>)
    ensures r.Some? ==> r.value <= MaxUint32
    ensures r.Some? ==> |s| > 0 && AllDigits(s)
  {
    if |s| > 0 && AllDigits(s) && DigitsValue(s) <= MaxUint32 then Some(DigitsValue(s)) else None
  }

  /** Every 32-bit number written in decimal parses back to itself. */
  lemma ParseUint32RoundTrip(n: nat)
    requires n <= MaxUint32
    ensures ParseUint32(NatDigits(n)) == Some(n)
  {
    DigitsOfNat(n);
  }

  /** Parsing what `%d` printed gives the number back, for every int64. */
  lemma AtoiItoa(n: int)
    requires MinInt64 <= n <= MaxInt64
    ensures Atoi(Itoa(n)) == Some(n)
  {
    var s := Itoa(n);
    if n < 0 {
      var d := NatDigits(-n);
      DigitsOfNat(-n);
      assert s == "-" + d;
      assert s[0] == '-' && s[1..] == d;
      var v: int := 0 - DigitsValue(d);
      assert v == n;
    } else {
      var d := NatDigits(n);
      DigitsOfNat(n);
      assert s == d && IsDigit(s[0]);
      assert s[0] != '-' && s[0] != '+';
      assert DigitsValue(s) == n;
    }
  }

  /** An octet, as returned by `crypto/rand`. */
  type byte = x: nat | x < 256

  const HexDigits: string := "0123456789abcdef"

  predicate IsLowerHex(c: char) {
    ('0' <= c <= '9') || ('a' <= c <= 'f')
  }

  /** `hex.EncodeToString`: two lower-case hex digits per byte, high nibble first. */
  function HexEncode(bytes: seq<byte>): (r: string)
    ensures |r| == 2 * |bytes|
    ensures forall i :: 0 <= i < |r| ==> IsLowerHex(r[i])
  {
    if |bytes| == 0 then ""
    else
      var b := bytes[0];
      [HexDigits[b / 16], HexDigits[b % 16]] + HexEncode(bytes[1..])
  }

  function HexValue(c: char): (v: nat)
    requires IsLowerHex(c)
    ensures v < 16 && HexDigits[v] == c
  {
    if c <= '9' then c as int - '0' as int else c as int - 'a' as int + 10
  }

  /** Each hex digit decodes to its position in the digit alphabet. */
  lemma DigitValue16(k: nat)
    requires k < 16
    ensures IsLowerHex(HexDigits[k]) && HexValue(HexDigits[k]) == k
  {
  }

  /** The inverse of `HexEncode`. */
  function HexDecode(s: string): (r: seq<byte>)
    requires |s| % 2 == 0
    requires forall i :: 0 <= i < |s| ==> IsLowerHex(s[i])
    ensures |r| == |s| / 2
  {
    if |s| == 0 then []
    else [HexValue(s[0]) * 16 + HexValue(s[1])] + HexDecode(s[2..])
  }

  /** Hex encoding loses nothing: decoding the code gives back the random bytes. */
  lemma {:induction false} HexRoundTrip(bytes: seq<byte>)
    ensures HexDecode(HexEncode(bytes)) == bytes
  {
    if |bytes| > 0 {
      var b, e, rest := bytes[0], HexEncode(bytes), HexEncode(bytes[1..]);
      assert e == [HexDigits[b / 16], HexDigits[b % 16]] + rest;
      assert e[2..] == rest;
      DigitValue16(b / 16);
      DigitValue16(b % 16);
      HexRoundTrip(bytes[1..]);
      assert bytes == [b] + bytes[1..];
    }
  }
}

=== FILE: upload_handler.dfy ===
/**
 * The upload endpoint of `internal/handlers/file.go`: the note id is parsed, the form
 * read, the file validated against the configured type lists and size limits, the quota
 * checked, and only then is the file service asked to store the upload.
 */
module UploadHandler {
  import opened Wrappers
  import opened Text
  import opened Models
  import opened Ledger
  import Files
  import opened Config

  const MiB: int := 1024 * 1024

  /** What the multipart header says about the uploaded file. */
  datatype FileHeader = FileHeader(filename: string, size: nat, contentType: string)

  /** The outcome of `ParseMultipartForm` followed by `FormFile("file")`. */
  datatype Form = Malformed | MissingFile | Received(header: FileHeader)

  /** The three messages of `validateFile`; the size limits are reported in whole MiB. */
  datatype ValidationError =
    | ImageTooLarge(limitMb: int)
    | DocumentTooLarge(limitMb: int)
    | UnsupportedType(ext: string)

  datatype UploadResponse =
    | BadNoteId
    | BadForm
    | NoFile
    | Invalid(error: ValidationError)
    | StorageLookupFailed
    | InsufficientStorage
    | UploadFailed(cause: Files.FileError)
    | Uploaded(attachment: Attachment)

  /** The HTTP status each response is sent with. */
  function Status(resp: UploadResponse): (code: int)
    ensures code == 200 <==> resp.Uploaded?
    ensures code == 413 <==> resp.InsufficientStorage?
    ensures code == 400 <==> resp.BadNoteId? || resp.BadForm? || resp.NoFile? || resp.Invalid?
  {
    match resp
    case BadNoteId => 400
    case BadForm => 400
    case NoFile => 400
    case Invalid(_) => 400
    case StorageLookupFailed => 500
    case InsufficientStorage => 413
    case UploadFailed(_) => 500
    case Uploaded(_) => 200
  }

  /** The extension `validateFile` checks: `filepath.Ext`, lower-cased, without its dot. */
  function FileExtension(filename: string): string {
    TrimDot(ToLower(Ext(filename)))
  }

  /** Lower-casing before or after removing the dot gives the same extension. */
  lemma TrimDotCommutes(s: string)
    ensures TrimDot(ToLower(s)) == ToLower(TrimDot(s))
  {
    if |s| > 0 && s[0] == '.' {
      assert ToLower(s)[1..] == ToLower(s[1..]);
    }
  }

  /** The handler validates the very extension the service records as the file type. */
  lemma ValidatedExtensionIsRecorded(st: Files.Store, noteId: Id, h: FileHeader, uuid: string, path: string)
    ensures Files.NewAttachment(st, noteId, h.filename, h.size, h.contentType, uuid, path).fileType
         == FileExtension(h.filename)
  {
    TrimDotCommutes(Ext(h.filename));
  }

  /**
   * What `validateFile` admits: an extension in at least one configured list, and a size
   * within the limit of every list it is in (a size equal to the limit is admitted).
   */
  predicate Admissible(c: Config, ext: string, size: int) {
    && (IsImageType(c, ext) || IsDocumentType(c, ext))
    && (IsImageType(c, ext) ==> size <= c.file.maxImageSize)
    && (IsDocumentType(c, ext) ==> size <= c.file.maxDocumentSize)
  }

  /**
   * `validateFile`. The image-size check comes first, then the document-size check; the
   * unsupported-type error arises only for an extension in neither list.
   */
  function ValidateFile(c: Config, h: FileHeader): (r: Option<ValidationError>)
    ensures r.None? <==> Admissible(c, FileExtension(h.filename), h.size)
    ensures r.Some? && r.value.ImageTooLarge? <==>
      IsImageType(c, FileExtension(h.filename)) && h.size > c.file.maxImageSize
    ensures r.Some? && r.value.DocumentTooLarge? <==>
      && !(IsImageType(c, FileExtension(h.filename)) && h.size > c.file.maxImageSize)
      && IsDocumentType(c, FileExtension(h.filename)) && h.size > c.file.maxDocumentSize
    ensures r.Some? && r.value.UnsupportedType? <==>
      !IsImageType(c, FileExtension(h.filename)) && !IsDocumentType(c, FileExtension(h.filename))
    ensures r.Some? && r.value.ImageTooLarge? ==> r.value.limitMb == GoDiv(c.file.maxImageSize, MiB)
    ensures r.Some? && r.value.DocumentTooLarge? ==> r.value.limitMb == GoDiv(c.file.maxDocumentSize, MiB)
    ensures r.Some? && r.value.UnsupportedType? ==> r.value.ext == FileExtension(h.filename)
  {
    var ext := FileExtension(h.filename);
    var isImage := IsImageType(c, ext);
    if isImage && h.size > c.file.maxImageSize then Some(ImageTooLarge(GoDiv(c.file.maxImageSize, MiB)))
    else
      var isDocument := IsDocumentType(c, ext);
      if isDocument && h.size > c.file.maxDocumentSize then Some(DocumentTooLarge(GoDiv(c.file.maxDocumentSize, MiB)))
      else if !isImage && !isDocument then Some(UnsupportedType(ext))
      else None
  }

  /** With the default limits the messages read 10 MB for images and 50 MB for documents. */
  lemma DefaultLimitMessages(c: Config, h: FileHeader)
    requires c.file.maxImageSize == DefaultMaxImageSize && c.file.maxDocumentSize == DefaultMaxDocumentSize
    ensures ValidateFile(c, h) == Some(ImageTooLarge(10)) || ValidateFile(c, h) == Some(DocumentTooLarge(50))
         || ValidateFile(c, h).None? || (ValidateFile(c, h).Some? && ValidateFile(c, h).value.UnsupportedType?)
  {
    assert GoDiv(DefaultMaxImageSize, MiB) == 10;
    assert GoDiv(DefaultMaxDocumentSize, MiB) == 50;
  }

  /** Everything the handler checks before it calls the file service. */
  predicate ReachesService(c: Config, ledger: Ledgers, maxStorage: int, user: Id, noteIdParam: string, form: Form) {
    && ParseUint32(noteIdParam).Some?
    && form.Received?
    && ValidateFile(c, form.header).None?
    && CheckUserStorage(ledger, maxStorage, user, form.header.size) == Ok(true)
  }

  /**
   * `FileHandler.UploadFile`. `maxStorage` is the quota the file service was built with;
   * the multipart parsing and the service's I/O outcomes are parameters.
   */
  function HandleUpload(st: Files.Store, c: Config, maxStorage: int, user: Id, noteIdParam: string, form: Form,
                        uuid: string, path: string, io: Files.UploadIo): (out: (Files.Store, UploadResponse))
    ensures !ReachesService(c, st.ledger, maxStorage, user, noteIdParam, form) ==> out.0 == st
    ensures ReachesService(c, st.ledger, maxStorage, user, noteIdParam, form) ==>
      var h := form.header;
      out.0 == Files.UploadFile(st, ParseUint32(noteIdParam).value, user, h.filename, h.size, h.contentType, uuid, path, io).0
    ensures out.1.Uploaded? ==> ReachesService(c, st.ledger, maxStorage, user, noteIdParam, form)
    ensures ParseUint32(noteIdParam).None? ==> out.1 == BadNoteId
    ensures ParseUint32(noteIdParam).Some? && form.Received? && ValidateFile(c, form.header).Some? ==>
      out.1 == Invalid(ValidateFile(c, form.header).value)
    ensures out.1 == InsufficientStorage <==>
      && ParseUint32(noteIdParam).Some? && form.Received? && ValidateFile(c, form.header).None?
      && CheckUserStorage(st.ledger, maxStorage, user, form.header.size) == Ok(false)
    ensures ParseUint32(noteIdParam).Some? && form.Malformed? ==> out.1 == BadForm
    ensures ParseUint32(noteIdParam).Some? && form.MissingFile? ==> out.1 == NoFile
    ensures out.1 == StorageLookupFailed <==>
      && ParseUint32(noteIdParam).Some? && form.Received? && ValidateFile(c, form.header).None?
      && CheckUserStorage(st.ledger, maxStorage, user, form.header.size).Err?
    ensures ReachesService(c, st.ledger, maxStorage, user, noteIdParam, form) ==>
      var h := form.header;
      var res := Files.UploadFile(st, ParseUint32(noteIdParam).value, user, h.filename, h.size, h.contentType, uuid, path, io).1;
      (res.Err? ==> out.1 == UploadFailed(res.error)) && (res.Ok? ==> out.1 == Uploaded(res.value))
  {
    match ParseUint32(noteIdParam)
    case None => (st, BadNoteId)
    case Some(noteId) =>
      match form
      case Malformed => (st, BadForm)
      case MissingFile => (st, NoFile)
      case Received(h) =>
        match ValidateFile(c, h)
        case Some(e) => (st, Invalid(e))
        case None =>
          match CheckUserStorage(st.ledger, maxStorage, user, h.size)
          case Err(_) => (st, StorageLookupFailed)
          case Ok(false) => (st, InsufficientStorage)
          case Ok(true) =>
            var (st', res) := Files.UploadFile(st, noteId, user, h.filename, h.size, h.contentType, uuid, path, io);
            match res
            case Err(e) => (st', UploadFailed(e))
            case Ok(a) => (st', Uploaded(a))
  }

  /**
   * A successful upload whose ledger update went through leaves the uploader within the
   * quota, and the stored file passed validation.
   */
  lemma AdmittedUploadWithinQuota(st: Files.Store, c: Config, maxStorage: int, user: Id, noteIdParam: string, form: Form,
                                  uuid: string, path: string, io: Files.UploadIo)
    requires io.ledgerOk && NonNegative(Row(st.ledger, user))
    requires HandleUpload(st, c, maxStorage, user, noteIdParam, form, uuid, path, io).1.Uploaded?
    ensures form.Received? && Admissible(c, FileExtension(form.header.filename), form.header.size)
    ensures Row(HandleUpload(st, c, maxStorage, user, noteIdParam, form, uuid, path, io).0.ledger, user).used
         <= maxStorage
  {
    var h := form.header;
    var out := Files.UploadFile(st, ParseUint32(noteIdParam).value, user, h.filename, h.size, h.contentType, uuid, path, io);
    assert out.1.Ok?;
    var isImage := out.1.value.isImage;
    assert user in st.ledger && st.ledger[user].used + h.size <= maxStorage;
    assert Row(UpdateUserStorage(st.ledger, user, h.size, isImage), user).used == Row(st.ledger, user).used + h.size;
  }

  /**
   * Admission follows the configured lists but the ledger's image flag follows the
   * service's fixed list: an extension configured as an image type outside that list is
   * admitted under the image limit yet counted as a document.
   */
  lemma ConfiguredImageCountedAsDocument(st: Files.Store, c: Config, noteId: Id, uuid: string, path: string)
    requires c.file.allowedImageTypes == ["bmp"] && c.file.maxImageSize == DefaultMaxImageSize
    requires c.file.allowedDocumentTypes == DefaultDocumentTypes
    ensures ValidateFile(c, FileHeader("a.bmp", 1000, "image/bmp")).None?
    ensures !Files.NewAttachment(st, noteId, "a.bmp", 1000, "image/bmp", uuid, path).isImage
  {
    var h := FileHeader("a.bmp", 1000, "image/bmp");
    BmpExtension();
    BmpClassification(c);
    assert Admissible(c, FileExtension(h.filename), h.size);
    ValidatedExtensionIsRecorded(st, noteId, h, uuid, path);
  }

  /**
   * With the default configuration the service's fixed list and the handler's configured
   * list classify every extension alike: the two disagree only when the list is changed.
   */
  lemma ServiceImageFlagMatchesDefaults(c: Config, ext: string)
    requires c.file.allowedImageTypes == DefaultImageTypes
    ensures Files.IsImageType(ToLower(ext)) <==> IsImageType(c, ext)
  {
    ToLowerIdempotent(ext);
  }

  lemma BmpExtension()
    ensures FileExtension("a.bmp") == "bmp"
  {
    assert "a.bmp" == "a" + "." + "bmp";
    ExtOfSuffix("a", "bmp");
    assert ToLower(".bmp") == ".bmp";
  }

  lemma BmpClassification(c: Config)
    requires c.file.allowedImageTypes == ["bmp"] && c.file.allowedDocumentTypes == DefaultDocumentTypes
    ensures IsImageType(c, "bmp") && !IsDocumentType(c, "bmp") && !Files.IsImageType("bmp")
  {
    assert ToLower("bmp") == "bmp";
  }
}

=== FILE: validator.dfy ===
/**
 * The custom rules of `pkg/validator/validator.go` (the `hexcolor` check and the naming
 * of fields by their JSON tag), and the library's own `hexcolor` rule, which is the one
 * the handlers apply: each handler builds its own validator instance, on which the custom
 * rule is not registered.
 */
module Validation {
  import opened Text

  predicate IsHexDigitAnyCase(c: char) {
    ('0' <= c <= '9') || ('a' <= c <= 'f') || ('A' <= c <= 'F')
  }

  /**
   * The `hexcolor` rule: length first, then the '#', then every following character.
   * Go measures the length in bytes and walks the runes; since every accepted character
   * is ASCII, reading the value as characters accepts exactly the same strings.
   */
  function HexColor(color: string): (ok: bool)
  {
    if |color| != 7 then false
    else if color[0] != '#' then false
    else forall k :: 1 <= k < 7 ==> IsHexDigitAnyCase(color[k])
  }

  /** A colour is accepted exactly when it is '#' followed by six hex digits of either case. */
  lemma HexColorAccepts(color: string)
    ensures HexColor(color) <==>
      exists digits: string :: |digits| == 6 && (forall k :: 0 <= k < 6 ==> IsHexDigitAnyCase(digits[k]))
        && color == "#" + digits
  {
    if HexColor(color) {
      var digits := color[1..];
      assert color == "#" + digits;
    }
    if exists digits: string :: |digits| == 6 && (forall k :: 0 <= k < 6 ==> IsHexDigitAnyCase(digits[k])) && color == "#" + digits {
      var digits: string :| |digits| == 6 && (forall k :: 0 <= k < 6 ==> IsHexDigitAnyCase(digits[k])) && color == "#" + digits;
      assert forall k :: 1 <= k < 7 ==> color[k] == digits[k - 1];
    }
  }

  /**
   * Lower-case hex output, the form of the tag column's default `#1976d2`, is accepted:
   * any three bytes written as '#' and six lower-case digits pass.
   */
  lemma LowerHexColorAccepted(bytes: seq<byte>)
    requires |bytes| == 3
    ensures HexColor("#" + HexEncode(bytes))
  {
    var e := HexEncode(bytes);
    assert forall k :: 0 <= k < 6 ==> IsLowerHex(e[k]);
    assert forall k :: 1 <= k < 7 ==> ("#" + e)[k] == e[k - 1];
  }

  /**
   * The validator library's built-in `hexcolor` rule (version 10): '#' followed by 3, 4,
   * 6 or 8 hex digits of either case.
   */
  predicate BuiltinHexColor(color: string) {
    && |color| - 1 in {3, 4, 6, 8}
    && color[0] == '#'
    && forall k :: 1 <= k < |color| ==> IsHexDigitAnyCase(color[k])
  }

  /** The built-in rule accepts exactly '#' and a digit string of one of the four lengths. */
  lemma BuiltinHexColorAccepts(color: string)
    ensures BuiltinHexColor(color) <==>
      exists digits: string :: |digits| in {3, 4, 6, 8} && (forall k :: 0 <= k < |digits| ==> IsHexDigitAnyCase(digits[k]))
        && color == "#" + digits
  {
    if BuiltinHexColor(color) {
      var digits := color[1..];
      assert color == "#" + digits;
    }
    if exists digits: string :: |digits| in {3, 4, 6, 8} && (forall k :: 0 <= k < |digits| ==> IsHexDigitAnyCase(digits[k])) && color == "#" + digits {
      var digits: string :| |digits| in {3, 4, 6, 8} && (forall k :: 0 <= k < |digits| ==> IsHexDigitAnyCase(digits[k])) && color == "#" + digits;
      assert forall k :: 1 <= k < |color| ==> color[k] == digits[k - 1];
    }
  }

  /**
   * The custom rule is the built-in one restricted to six digits: everything it accepts
   * the built-in rule accepts, and the short form "#fff" passes only the built-in rule.
   */
  lemma CustomRuleIsStricter(color: string)
    ensures HexColor(color) <==> BuiltinHexColor(color) && |color| == 7
    ensures BuiltinHexColor("#fff") && !HexColor("#fff")
  {
  }

  /** The field name used in messages: the JSON tag up to its first comma, with "-" meaning none. */
  function JsonFieldName(tag: string): (name: string)
    ensures ',' !in name
    ensures name != "-"
    ensures ',' !in tag && tag != "-" ==> name == tag
  {
    var name := SplitFirst(tag, ',').0;
    if name == "-" then "" else name
  }

  /** Options after the comma never change the name. */
  lemma JsonFieldNameIgnoresOptions(name: string, options: string)
    requires ',' !in name
    ensures JsonFieldName(name + "," + options) == JsonFieldName(name)
  {
    SplitFirstJoin(name, ',', options);
    assert name + [','] + options == name + "," + options;
  }
}

=== FILE: wrappers.dfy ===
/** Failure-carrying datatypes shared by every module of the model. */
module Wrappers {

  /** A value that may be absent: a nil pointer, a missing map entry, an unset query parameter. */
  datatype Option<+T> = None | Some(value: T) {
    function GetOr(default: T): T {
      match this
      case Some(v) => v
      case None => default
    }
  }

  /** The outcome of an operation that returns a value or an error. */
  datatype Result<+T, +E> = Ok(value: T) | Err(error: E) {
    predicate IsFailure() {
      Err?
    }

    function PropagateFailure<U>(): Result<U, E>
      requires Err?
    {
      Err(error)
    }

    function Extract(): T
      requires Ok?
    {
      value
    }

    function GetOr(default: T): T {
      match this
      case Ok(v) => v
      case Err(_) => default
    }
  }
}
